=== FILE: README.md ===
# NLWeb + OpenAI demo server, modelled in Dafny

This project models the Python back end of the NLWeb + OpenAI demo (`server/`). The back end is a Flask
application. It answers natural-language questions from an in-memory vector store of Schema.org
objects, with an OpenAI chat model writing the answer. The model covers:

- **Schema.org extraction** (`SchemaParser`): JSON-LD, microdata and RDFa objects on a page, the
  supported-type filter, sitemaps capped at 50 URLs, and RSS items turned into `Article`s.
- **The vector store** (`VectorStore`): the embedding text built for each document, indexing,
  threshold-filtered and stably sorted search with a limit, the statistics histogram, and clearing.
- **The configuration** (`Config`): the three dataclasses with their defaults, reading the
  environment, and the start-up validation.
- **The OpenAI service** (`OpenAIService`): the system message, the retry loop with exponential
  back-off, and the reply object.
- **The NLWeb service** (`NLWebService`): the `/ask` results page, Model Context Protocol dispatch
  (`ask`, `list_tools`, `search_content`, unknown methods), adding data sources, the demo data and
  the statistics.
- **The HTTP endpoints** (`App`): `/api/ask`, `/api/mcp`, `/api/config`, `/api/data-sources`,
  `/api/health`, `/api/test` and `initialize_app`, each as a status code plus a JSON body.

Helper modules:

- `Json` models JSON values as `json.loads` and Flask produce them. Dicts are insertion-ordered
  member lists, and the first member with a key is the one found. A dict with a repeated key never
  comes from a request: `json.loads` keeps only the last value of a repeated key, and every
  dict the server builds itself has distinct keys.
- `Py` models the Python built-ins the server relies on: truthiness, `str()`, `int()`/`float()`,
  `.get`, `[]`, `in`, `split`, `join` and `lower`.
- `Results` holds `Option` and a `Result` whose `Err` carries the text of the exception Python
  would raise.

Every `async` call is modelled as a pure function. Anything outside the server is a parameter:

- the web pages, feeds and sitemaps it fetches;
- the embedding service;
- the similarity scores;
- the outcome of each chat-completion attempt;
- the clock.

## Model

| member | source | states |
|---|---|---|
| SchemaParser.Extract | server/schema_parser.py:131-146 | a typed dict is returned whole; an untyped dict or a list yields the objects found beneath it; scalars yield nothing |
| SchemaParser.ExtractIsFound | server/schema_parser.py:131-146 | extraction returns exactly the typed dicts reachable from the data through untyped dicts and lists (both directions) |
| SchemaParser.ExtractItemsAppend | server/schema_parser.py:142-144 | the objects from a list are those from its elements, concatenated in element order |
| SchemaParser.ExtractMembersAppend | server/schema_parser.py:138-141 | the objects from an untyped dict are those from its values, in insertion order |
| SchemaParser.JsonLdObjects | server/schema_parser.py:29-36 | scripts whose text is not JSON are skipped; a script with no text raises; every object produced is a dict with a truthy `@type` |
| SchemaParser.JsonLdObjectsOne | server/schema_parser.py:29-36 | a single script yields the objects of its JSON, nothing when its text is not JSON, and an error when it has no text |
| SchemaParser.JsonLdObjectsAppend | server/schema_parser.py:29-36 | scripts are read in document order: the objects of two runs of scripts are the first run's objects followed by the second's, and reading fails iff either run fails |
| SchemaParser.PutPropsLookup | server/schema_parser.py:161-165 | after the property assignments, a property name holds the value of its last occurrence, and the other keys keep their values |
| SchemaParser.MicrodataObject | server/schema_parser.py:153-167 | an item is kept only when its itemtype mentions schema.org and the text after its last `/` is a supported type; the object's `@type` is that type |
| SchemaParser.FirstOccurring | server/schema_parser.py:179 | when some type of the set occurs in the typeof text, the one chosen is such a type; otherwise `Thing` |
| SchemaParser.RdfaObject | server/schema_parser.py:176-189 | an item is kept iff some supported type occurs in its typeof; the object is built from such a type and the item's properties |
| SchemaParser.FilterSupported | server/schema_parser.py:46-50 | the intended filter keeps, in order, exactly the objects whose `@type` is a supported type name |
| SchemaParser.FilterSupportedOne | server/schema_parser.py:46-50 | one object is kept iff its `@type` is supported |
| SchemaParser.FilterSupportedAppend | server/schema_parser.py:46-50 | filtering goes object by object: filtering two runs of objects gives the filtered first run followed by the filtered second run, so order and repetitions are kept |
| SchemaParser.FilterAgreesWhenHashable | server/schema_parser.py:46-50 | when no `@type` is a list or dict, the filter as written and the intended filter give the same objects |
| SchemaParser.ParseUrlAsWritten | server/schema_parser.py:18-57 | a failed fetch, a script without text, or any list or dict `@type` among the collected objects yields an empty list; otherwise exactly the collected objects with a supported `@type`; the result is always either empty or what the intended filter gives |
| SchemaParser.ParseUrl | server/schema_parser.py:18-57 | the supported objects of the page's JSON-LD, microdata and RDFa, in that order; a failed fetch yields an empty list |
| SchemaParser.ParseUrlGroups | server/schema_parser.py:29-50 | the result lists the supported JSON-LD objects, then the supported microdata items, then the supported RDFa items, each group in document order |
| SchemaParser.ListTypeDropsWholePage | server/schema_parser.py:47-50 | on a page where one JSON-LD object has a list `@type`, the code as written returns nothing, while the intended filter still returns the page's supported objects |
| SchemaParser.ParseAllMembership | server/schema_parser.py:86-89 | an object comes out of a list of URLs iff `parse_url`, as written, yields it for one of those URLs |
| SchemaParser.ParseSitemap | server/schema_parser.py:59-95 | every object returned has a supported `@type`; the objects are those `parse_url`, as written, yields for the first 50 collected URLs; a failed fetch yields an empty list |
| SchemaParser.SitemapParsesFirstFifty | server/schema_parser.py:85-89 | an object comes out of a sitemap iff `parse_url`, as written, yields it for one of the first 50 collected URLs: the sitemap's own locations, then those of its child sitemaps |
| SchemaParser.Article | server/schema_parser.py:109-122 | the Article holds the item's title, description, link and date, or `''` where missing, and an Organization author named by `dc:creator`, or `Unknown` |
| SchemaParser.ArticleIsSupported | server/schema_parser.py:111-112 | every Article built from a feed item passes the supported-type filter |
| SchemaParser.ParseRss | server/schema_parser.py:97-129 | one Article per feed item, in feed order; a failed fetch yields an empty list |
| VectorStore.EmbeddingParts | server/vector_store.py:21-41 | the parts are, in order, the truthy values among the five text slots; a document that is not a dict raises |
| VectorStore.TextSlots | server/vector_store.py:26-40 | slot 1 is the name, 2 the description, 3 `Type: ` followed by the `@type` when it is truthy, and 4 and 5 the street address and locality when the address is a truthy dict; a slot is filled only with a truthy value |
| VectorStore.Present | server/vector_store.py:26-40 | a value is kept iff it fills a slot; an all-empty slot list gives no parts |
| VectorStore.PresentAppend | server/vector_store.py:26-40 | the kept values follow slot order: those of a concatenation are those of each part, concatenated |
| VectorStore.EmbeddingText | server/vector_store.py:42 | the text is the parts joined with ` \| `; it exists iff the document is a dict and every part is a string |
| VectorStore.PlaceText | server/vector_store.py:26-42 | a document with a type, a name and a locality only has the text `<name> \| Type: <type> \| <locality>` |
| VectorStore.EmbeddingTextDecodes | server/vector_store.py:42 | splitting the embedding text on its separator gives back its parts, when no part contains the separator's bar character |
| Py.SplitJoin | server/vector_store.py:42 | `s.split(sep)` recovers the parts of `sep.join(parts)` when the separator has a character that occurs in it only once and in no part |
| VectorStore.BatchTexts | server/vector_store.py:21-42 | one text per document, in order; the batch fails iff some document's text does |
| VectorStore.IndexDocuments | server/vector_store.py:15-60 | on success, the documents are appended, the embedding service's vectors are appended to the embeddings, the counter grows by their number, and the count returned is that number (0 for an empty batch, with the store unchanged); it fails iff a text or the embedding call fails |
| VectorStore.IndexPreservesValid | server/vector_store.py:44-51 | when the embedding service returns one vector per text, documents and embeddings stay aligned |
| VectorStore.Clear | server/vector_store.py:111-116 | documents, embeddings and counter are all emptied |
| VectorStore.SortDesc | server/vector_store.py:85-86 | the result is sorted by descending score and is a permutation of the input |
| VectorStore.SortDescStable | server/vector_store.py:85-86 | hits with equal scores keep their relative order, as Python's stable sort does |
| VectorStore.Candidates | server/vector_store.py:79-83 | a hit is produced iff its score reaches the threshold; a score with no document at its index raises |
| VectorStore.Search | server/vector_store.py:62-94 | an empty store gives no hits; otherwise it fails iff the similarity call, a score lookup or the limit fails; the hits are sorted, a sub-multiset of the qualifying candidates, exactly `min(limit, #candidates)` of them for a non-negative integer limit, and all of them when the limit is `None` |
| VectorStore.TopHits | server/vector_store.py:85-87 | the first hits of the ranking are sorted, drawn from the candidates, as many as the stop allows, and all of them with no stop |
| VectorStore.SearchKeepsBest | server/vector_store.py:85-87 | a qualifying document left out by the limit scores no higher than any hit returned |
| VectorStore.TypeKey | server/vector_store.py:100 | a document without `@type` counts as `Unknown`; a present hashable `@type` is itself the key; a list or dict `@type` raises, as does a document that is not a dict |
| VectorStore.Tally | server/vector_store.py:98-101 | the histogram has distinct keys, totals the number of documents, and has exactly the keys that occur |
| VectorStore.TallyCounts | server/vector_store.py:98-101 | each key's count is the number of documents carrying it |
| VectorStore.GetStats | server/vector_store.py:96-109 | document, embedding and indexed counts; the type histogram; dimension 0 exactly when there are no embeddings or the first is empty |
| VectorStore.StatsJson | server/vector_store.py:103-109 | the statistics dict carries the document, embedding and indexed counts and the embedding dimension under their own keys, and `document_types` holds one entry per counted type, in order, the type's text mapped to its count |
| VectorStore.UntypedCountsAsUnknown | server/vector_store.py:100-101 | a store of untyped documents counts all of them as `Unknown` |
| Config.FlagSpellsTrue | server/config.py:48 | a flag is on iff its variable is unset or spells `true` in any letter case |
| Config.OpenAIFromEnv | server/config.py:34-40 | each field is read from its variable, with its default; the section reads iff the temperature, max-tokens and timeout texts all parse |
| Config.NLWebFromEnv | server/config.py:43-49 | host, port, vector database, embedding model and the MCP flag come from their variables, with their defaults; the section reads iff the port parses |
| Config.ErrorHandlingFromEnv | server/config.py:52-57 | retry count, timeout, back-off strategy and fallback flag come from their variables, with their defaults; the section reads iff both numbers parse |
| Config.FromEnv | server/config.py:31-57 | the settings exist iff all three sections read without error |
| Config.EmptyEnvGivesDefaults | server/config.py:8-57 | an empty environment gives the dataclass defaults, with an empty API key |
| Config.MaxTokensFromEnv | server/config.py:38 | setting `OPENAI_MAX_TOKENS` to the numeral of n configures n |
| Py.ParseIntOfIntStr | server/config.py:38 | `int(str(n)) == n` |
| Config.Validate | server/config.py:59-68 | passes iff key present, temperature in [0,1] and max_tokens in [1,4000]; otherwise raises the first failing check's message |
| Config.DefaultsAreValid | server/config.py:8-14 | the dataclass defaults pass validation once a key is given |
| OpenAIService.ItemLine | server/openai_service.py:74-75 | an item's line starts `\n- `, then `str` of its `@type` or `Unknown`, then `: `, ends with `str` of its name or `No name`, and is exactly as long as those pieces, so nothing else is in it; an item that is not a dict raises |
| OpenAIService.ItemLines | server/openai_service.py:74-75 | one line for each of the first three items, in order |
| OpenAIService.BuildSystemMessage | server/openai_service.py:55-77 | the message builds iff the first three items are dicts; it starts with the base text; the context line follows iff the context is truthy; with data it ends with the header counting all items and one line per shown item; with no data it is the base text plus the context line, if any; with data it is exactly the no-data message for the same context followed by the header and the item lines |
| OpenAIService.MessageShape | server/openai_service.py:55-77 | for any base text, the assembled message starts with it, shows the context iff it is truthy, and, when there is data, is the base text and context part followed by exactly the data header and item lines |
| OpenAIService.ContextShownIffTruthy | server/openai_service.py:68-69 | the context section follows the base text iff the context is truthy |
| OpenAIService.OnlyThreeItemsShown | server/openai_service.py:72-75 | two data lists of equal length that agree on their first three items give the same message |
| OpenAIService.RequestWithRetry | server/openai_service.py:79-108 | at most `retry_attempts` calls; the waits are 1, 2, 4, … seconds, one after each retried failure; the last call's reply or error is the result; zero attempts raise the fallback error |
| OpenAIService.FirstReplyReturned | server/openai_service.py:83-90 | a reply on the first attempt is returned at once |
| OpenAIService.AllRetriedFailuresReraiseLast | server/openai_service.py:92-106 | when every attempt fails with a retryable error, the last error is re-raised |
| OpenAIService.ReplyObject | server/openai_service.py:37-46 | the reply dict carries the response text, the model, the processing time and a usage dict with the prompt, completion and total token counts |
| OpenAIService.ProcessQuery | server/openai_service.py:16-53 | succeeds iff the message builds and the retry loop returns a reply, which it wraps; failures are prefixed `OpenAI processing failed: ` |
| NLWebService.EmptyPage | server/nlweb_service.py:28-36 | the empty results page: no items, the query, and the no-results message |
| NLWebService.ResultsPage | server/nlweb_service.py:48-59 | the results page: the schema.org context, the documents, their count, the model as source, the AI text, the reply's usage (default `{}`) and the previous context |
| NLWebService.AskHits | server/nlweb_service.py:22-23 | at most 20 hits, sorted, each with similarity of at least 0.7 and drawn from the store |
| NLWebService.ProcessAsk | server/nlweb_service.py:16-66 | no hits give the empty page; otherwise the results page over the hits, whose `aiResponse`, `usage` and `source` are the chat reply's text, its usage and the configured model; it succeeds iff the search and, with hits, the chat query succeed; a failure is prefixed `NLWeb ask processing failed: ` |
| NLWebService.EmptyStoreAnswersEmptyPage | server/nlweb_service.py:28-36 | with nothing indexed, the answer is the empty page whatever the AI would say |
| NLWebService.Tools | server/nlweb_service.py:88-121 | two tools, `ask` requiring `query` and `search_content` requiring `type` |
| NLWebService.SearchQuery | server/nlweb_service.py:130-134 | the query is the content type, followed by ` in <location>` when the location is truthy |
| NLWebService.Matches | server/nlweb_service.py:138-141 | a document matches iff its `@type` (default `''`) equals the content type ignoring letter case; a non-string `@type` raises |
| NLWebService.KeepMatching | server/nlweb_service.py:138-141 | keeps exactly the matching documents; fails iff some document's test raises |
| NLWebService.KeepMatchingAppend | server/nlweb_service.py:138-141 | the filter keeps order: filtering a concatenation concatenates the filtered parts |
| NLWebService.KeepMatchingIgnoresCase | server/nlweb_service.py:140 | content types equal up to letter case select the same documents |
| NLWebService.SearchContent | server/nlweb_service.py:123-149 | succeeds iff the parameters are a dict, the type is a string, and the search with the given limit (10 by default) and the type filter succeed; the tool content is exactly the hits' documents whose `@type` matches the type, or all of them for an empty type |
| NLWebService.McpAsk | server/nlweb_service.py:73-86 | the tool content is the /ask page for the query |
| NLWebService.McpDispatch | server/nlweb_service.py:68-158 | `list_tools`, `ask` and `search_content` go to their handlers; any other method gives error -32601 |
| NLWebService.ProcessMcp | server/nlweb_service.py:68-168 | the reply is always JSON-RPC 2.0; an unknown method gives code -32601; a raised error becomes code -32000 with `MCP processing failed: ` and the error text; otherwise the reply is the dispatched method's reply unchanged |
| NLWebService.McpAskWrapsPage | server/nlweb_service.py:73-86 | the MCP `ask` result content equals the /ask page for the same query |
| NLWebService.SourceDocuments | server/nlweb_service.py:173-186 | `schema_org` parses a URL ending in `.xml` as a sitemap and any other URL with `parse_url` as written; `rss` parses a feed; any other type gives no documents; a non-string `schema_org` URL raises |
| NLWebService.TryAdd | server/nlweb_service.py:172-202 | fails iff reading the source or indexing its documents fails; succeeds with `True` iff the source gives documents and they index, and the store is then the indexed one |
| NLWebService.AddDataSource | server/nlweb_service.py:170-208 | returns `True` iff the source gives documents and indexing them succeeds; then the store is the indexed one and the source is appended as `active` with its object count; a source that gives none changes nothing; a failure marks the source `error` with the message |
| NLWebService.ListTypedSourceNotAdded | server/nlweb_service.py:181-183 | a `schema_org` page holding one list-typed JSON-LD object is not added, though the intended filter finds a supported object on it |
| NLWebService.InitializeDemoData | server/nlweb_service.py:223-239 | the demo source is appended, active and for `https://schema.org`, iff it gives documents that index, and the store is then the indexed one; otherwise nothing changes |
| NLWebService.GetStats | server/nlweb_service.py:210-221 | the number of sources, the number of indexed objects, the sources themselves, the last sync time, the fixed success rate and the store's statistics dict under `vector_store` |
| App.AskEndpoint | server/app.py:34-66 | 400 for a missing body or query; 200 with the /ask page iff the service succeeds; a failing service answers 500 with the ErrorResponse carrying its message; a body that is not a dict answers 500 with the missing-`get` ErrorResponse |
| App.AskDefaultsPrevToEmpty | server/app.py:47 | without `prev`, the page's context is `''` |
| App.McpEndpoint | server/app.py:68-104 | 400 with -32700 for no body and -32600 for no method; otherwise 200 with the service's JSON-RPC reply |
| App.McpUnknownMethod | server/app.py:85-92 | an unknown method still answers 200, with error -32601 |
| App.OpenAIView | server/app.py:112-117 | the configuration shows whether a key is set, never the key itself |
| App.ConfigView | server/app.py:110-131 | the configuration view's `openai`, `nlweb` and `error_handling` sections show the corresponding settings |
| App.NLWebView | server/app.py:119-124 | the `nlweb` section shows the host, port, vector database, embedding model and MCP flag |
| App.ErrorHandlingView | server/app.py:125-130 | the `error_handling` section shows the retry count, timeout, back-off strategy and fallback flag |
| App.ConfigViewHidesKey | server/app.py:116 | two keys that are both empty or both non-empty give the same view |
| App.SetTemperature | server/app.py:140-141 | the temperature is set only when given, and must convert with `float()` |
| App.SetMaxTokens | server/app.py:142-143 | max_tokens is set only when given, and must convert with `int()` |
| App.SetModel | server/app.py:144-145 | the model is set to the given value as is |
| App.UpdateOpenAI | server/app.py:139-146 | updates happen in order; the key and timeout never change; fields not given keep their values |
| App.ConfigUpdate | server/app.py:133-152 | 400 without data; only the OpenAI section can change; a conversion failure answers 500 `Configuration error: ` with its text, keeping the earlier assignments; a non-dict body answers 200 when `'openai' in` it is false and 500 with the `in` or `[]` error otherwise |
| App.TemperatureOnlyUpdate | server/app.py:139-148 | posting only a temperature changes only the temperature |
| App.DataSourcesView | server/app.py:158-160 | GET answers the service statistics, or 500 on failure |
| App.AddSource | server/app.py:162-181 | 200 iff the body is a truthy dict whose source is added, with the indexed store and one more source, marked `active`; a dict that is not added answers 500 `Failed to add data source`; a body that is not a dict answers 500 `Data sources error: ` with the error; any other outcome leaves the state unchanged |
| App.Services | server/app.py:220-225 | nlweb_server and vector_store are online; openai_api is online iff a key is set; mcp_server is online iff MCP is enabled |
| App.HealthEndpoint | server/app.py:212-234 | 200 iff the store statistics compute, and then the body says `healthy`, lists the services and carries the statistics dict under `stats`; otherwise 500 `unhealthy` with the error text under `error` |
| App.TestQuery | server/app.py:251 | the test query is the body's `query` when present and `test query` otherwise; a body that is not a dict raises |
| App.TestEndpoint | server/app.py:236-276 | `/ask` runs the ask flow on the body's query; other endpoints echo the method and headers; a body that is not a dict, a failed query read or a failed ask answers 500 `API test error: ` with the error |
| App.TestDefaultsToAskTestQuery | server/app.py:244-257 | with no endpoint and no body, the test runs `/ask` for `test query` |
| App.InitializeApp | server/app.py:286-308 | start-up fails with the validation message iff validation fails; otherwise the demo source is appended, active and for https://schema.org, with the indexed store, iff its documents index, and nothing changes when they do not |

## Left out

- Flask itself is not modelled: routing, `jsonify`'s key sorting and serialisation failures, CORS, the request-logging hook, the 404/500 handlers and `app.run`. Each endpoint is a function from the request body to a status and a JSON body.
- `asyncio` event loops are not modelled: each coroutine is a pure function.
- The `/api/logs` endpoint is not modelled. It reads no file: it builds two fixed sample entries in memory from the wall-clock time, the store's `indexed_count` and the OpenAI model and temperature, formatted with `strftime` and f-strings, and nothing else depends on it.
- The clock is an input. `processingTime` and `timestamp` take the given elapsed time or instant, and `round(…, 3)` is not applied. `add_data_source` uses one instant for both `last_updated` and the service's last sync time.
- Cosine similarity and numpy are left out. The similarity scores are an input to search, so scores that are not finite are out of scope.
- `create_embeddings` and the chat completion are not modelled. The embedding service is an input function from texts to vectors or a failure, and each chat attempt's outcome is an input indexed by attempt number. Neither depends on the message actually sent.
- The mode of an `/ask` request is not modelled: the service only logs it.
- `str()` of a float is a simplified decimal rendering. `repr` does no escaping.
- `lower()` folds ASCII letters only.
- `int()` and `float()` accept the plain decimal forms only. No underscores, exponents, `inf`/`nan` or surrounding whitespace.
- `float()` values are exact decimals (`real`), not IEEE 754 binary64, so no rounding happens. For example `float("1.00000000000000000001")` is `1.0` in Python and passes `validate`'s temperature check (server/config.py:64), while the model keeps a value above 1 that `Config.Validate` rejects. Only texts with more significant digits than binary64 holds differ.
- VectorStore.Tally: the histogram compares keys as JSON values, so an integer, boolean or float `@type` of `1`, `true` or `1.0` would get three entries where Python's dict merges them. Parsed documents always carry a string `@type`, so this does not arise through the service.
- The iteration order of the supported-type set is a parameter (`IsEnumeration`), since Python does not fix it. RDFa's choice of type is stated relative to that order.
- Fetching and HTML/XML parsing are inputs: a page is given as its scripts, microdata items and RDFa items, and a sitemap as its location texts.
- The logging calls are not modelled.
- A request body that is missing, or whose content type is not JSON, is modelled as `null`, which `get_json` returned before Flask 2.1. Newer Flask raises instead, so such a request answers 500 with the exception's text rather than the 400 the model gives.
- A body sent with a JSON content type that fails to parse is not modelled. `get_json` raises `BadRequest` for it in every Flask version, and each handler's `except Exception` answers 500 with that text, while the model only ever sees parsed bodies.
- SchemaParser.RdfaObject: states that the chosen type is a supported type occurring in the typeof text, not that it is the first such type in the set's iteration order.
- SchemaParser.FirstOccurring: states that the chosen type occurs in the text, not that it is the first in the given order to do so.

## Findings

| source | as written | input that shows it | evidently intended | confidence | as-written member | corrected member |
|---|---|---|---|---|---|---|
| server/schema_parser.py:47-50 | The filter tests each object's `@type` for membership in the supported-type set, which hashes the value. A list or dict `@type` raises `TypeError`, which the outer handler turns into `[]` for the whole page, so `add_data_source` returns `False` for it. | `ListTypedPage()`: a page with one JSON-LD object typed `Restaurant` and one typed `["Hotel", "Place"]` | objects whose `@type` is not a supported name are skipped, and the page's other supported objects are still returned | not executed | SchemaParser.ParseUrlAsWritten, SchemaParser.ListTypeDropsWholePage, NLWebService.ListTypedSourceNotAdded | SchemaParser.ParseUrl |

The service model calls `parse_url` as written, as the server does. `SchemaParser.ParseUrl` states the intended behaviour, and `ParseUrlAsWritten` is proved to return either nothing or exactly what `ParseUrl` returns.

=== FILE: app.dfy ===
/** The HTTP handlers (server/app.py) as pure functions from the request body and the
    server's state to a status code and a JSON body. A body that is missing or is not JSON
    is modelled as `null`, which is what `get_json` returned before Flask 2.1. Handlers
    that change the state return the new state with the response. */
module App {
  import opened Results
  import opened Json
  import opened Py
  import VS = VectorStore
  import SP = SchemaParser
  import Config
  import N = NLWebService

  /** A status code and a JSON body. */
  datatype Response = Response(status: int, body: Json)

  /** What the handlers read and change: the settings, the service's sources and the store. */
  datatype AppState = AppState(settings: Config.Settings, service: N.State, store: VS.Store)

  /** A response together with the state the request leaves behind. */
  datatype Served = Served(response: Response, app: AppState)

  /** A one-entry dict such as `{"error": text}` or `{"message": text}`. */
  function TextBody(key: string, text: string): (r: Json)
    ensures Field(r, key) == JStr(text)
    ensures r.JObj? && |r.members| == 1
  {
    JObj([Member(key, JStr(text))])
  }

  // ---------------------------------------------------------------------------
  // /api/ask

  const ErrorResponseKeys := ["error", "message", "@type"]

  lemma ErrorResponseKeysUnique()
    ensures Unique(ErrorResponseKeys)
  {
  }

  /** The body of a failed `/ask`: a fixed error, the exception text, and an `ErrorResponse` type. */
  function AskFailure(message: string): (r: Json)
    ensures Field(r, "error") == JStr("Query processing failed")
    ensures Field(r, "message") == JStr(message)
    ensures Field(r, "@type") == JStr("ErrorResponse")
  {
    var keys := ErrorResponseKeys;
    var values := [JStr("Query processing failed"), JStr(message), JStr("ErrorResponse")];
    ErrorResponseKeysUnique();
    MembersLookup(keys, values, 0);
    MembersLookup(keys, values, 1);
    MembersLookup(keys, values, 2);
    JObj(Members(keys, values))
  }

  /** The previous context `/ask` passes on: the body's `prev`, or the empty string. */
  function AskPrev(data: Json): (r: Json)
    requires data.JObj?
    ensures !HasKey(data.members, "prev") ==> r == JStr("")
    ensures HasKey(data.members, "prev") ==> Member("prev", r) in data.members
  {
    Get(data.members, "prev", JStr(""))
  }

  /** `POST /api/ask`. An empty body and an empty query are client errors; a body that is
      not a dict, and any failure answering, give the error response. The mode is read but
      only ever logged, so it does not appear here. */
  function AskEndpoint(app: AppState, data: Json, w: N.AskWorld): (r: Response)
    ensures !Truthy(data) ==> r == Response(400, TextBody("error", "Request body required"))
    ensures Truthy(data) && !data.JObj? ==> r == Response(500, AskFailure(NoAttribute(data, "get")))
    ensures Truthy(data) && data.JObj? && !Truthy(Get(data.members, "query", JStr(""))) ==>
      r == Response(400, TextBody("error", "Query parameter required"))
    ensures (Truthy(data) && data.JObj? && Truthy(Get(data.members, "query", JStr(""))) &&
      N.ProcessAsk(app.settings, app.store, Get(data.members, "query", JStr("")), AskPrev(data), w).Err?) ==>
      r == Response(500, AskFailure(N.ProcessAsk(app.settings, app.store, Get(data.members, "query", JStr("")), AskPrev(data), w).msg))
    ensures r.status == 200 <==> (Truthy(data) && data.JObj? && Truthy(Get(data.members, "query", JStr(""))) &&
      N.ProcessAsk(app.settings, app.store, Get(data.members, "query", JStr("")), AskPrev(data), w).Ok?)
    ensures r.status == 200 ==>
      r.body == N.ProcessAsk(app.settings, app.store, Get(data.members, "query", JStr("")), AskPrev(data), w).value
    ensures r.status in {200, 400, 500}
  {
    if !Truthy(data) then Response(400, TextBody("error", "Request body required"))
    else if !data.JObj? then Response(500, AskFailure(NoAttribute(data, "get")))
    else
      var query := Get(data.members, "query", JStr(""));
      if !Truthy(query) then Response(400, TextBody("error", "Query parameter required"))
      else
        match N.ProcessAsk(app.settings, app.store, query, AskPrev(data), w)
        case Ok(page) => Response(200, page)
        case Err(e) => Response(500, AskFailure(e))
  }

  /** Without `prev`, a page with results carries the empty string as its context. */
  lemma AskDefaultsPrevToEmpty(app: AppState, data: Json, w: N.AskWorld)
    requires data.JObj? && !HasKey(data.members, "prev")
    requires N.AskHits(app.store, w.sim).Ok? && |N.AskHits(app.store, w.sim).value| > 0
    ensures AskEndpoint(app, data, w).status == 200 ==>
      Field(AskEndpoint(app, data, w).body, "context") == JStr("")
  {
  }

  // ---------------------------------------------------------------------------
  // /api/mcp

  /** JSON-RPC 2.0 error codes, section 5.1 of its specification. */
  const ParseError: int := -32700
  const InvalidRequest: int := -32600

  /** `POST /api/mcp`. An empty body is a parse error and an empty method an invalid
      request; a body that is not a dict is a server error; otherwise the dispatcher's
      reply, which never raises. */
  function McpEndpoint(app: AppState, data: Json, w: N.AskWorld): (r: Response)
    ensures Field(r.body, "jsonrpc") == JStr("2.0")
    ensures !Truthy(data) ==> r.status == 400 && Field(Field(r.body, "error"), "code") == JInt(ParseError)
    ensures Truthy(data) && !data.JObj? ==>
      r.status == 500 && Field(Field(r.body, "error"), "code") == JInt(N.ServerError) &&
      Field(Field(r.body, "error"), "message") == JStr("Server error: " + NoAttribute(data, "get"))
    ensures Truthy(data) && data.JObj? && !Truthy(Get(data.members, "method", JStr(""))) ==>
      r.status == 400 && Field(Field(r.body, "error"), "code") == JInt(InvalidRequest)
    ensures r.status == 200 <==> (Truthy(data) && data.JObj? && Truthy(Get(data.members, "method", JStr(""))))
    ensures r.status == 200 ==>
      r.body == N.ProcessMcp(app.settings, app.store, Get(data.members, "method", JStr("")),
                             Get(data.members, "params", JObj([])), w)
  {
    if !Truthy(data) then Response(400, N.RpcError(ParseError, "Parse error"))
    else if !data.JObj? then Response(500, N.RpcError(N.ServerError, "Server error: " + NoAttribute(data, "get")))
    else
      var rpcMethod := Get(data.members, "method", JStr(""));
      var params := Get(data.members, "params", JObj([]));
      if !Truthy(rpcMethod) then Response(400, N.RpcError(InvalidRequest, "Invalid Request"))
      else Response(200, N.ProcessMcp(app.settings, app.store, rpcMethod, params, w))
  }

  /** A request naming a method the server does not know is answered with status 200 and
      the method-not-found error. */
  lemma McpUnknownMethod(app: AppState, data: Json, w: N.AskWorld)
    requires data.JObj? && HasKey(data.members, "method")
    requires Truthy(Get(data.members, "method", JStr(""))) && !N.KnownMethod(Get(data.members, "method", JStr("")))
    ensures McpEndpoint(app, data, w).status == 200
    ensures Field(Field(McpEndpoint(app, data, w).body, "error"), "code") == JInt(N.MethodNotFound)
  {
  }

  // ---------------------------------------------------------------------------
  // /api/config

  const ConfigKeys := ["openai", "nlweb", "error_handling"]
  const OpenAIViewKeys := ["model", "temperature", "max_tokens", "has_api_key"]
  const NLWebViewKeys := ["server_host", "server_port", "vector_db", "embedding_model", "mcp_enabled"]
  const ErrorHandlingViewKeys := ["retry_attempts", "timeout", "backoff_strategy", "enable_fallback"]

  lemma ConfigKeysUnique()
    ensures Unique(ConfigKeys) && Unique(OpenAIViewKeys)
    ensures Unique(NLWebViewKeys) && Unique(ErrorHandlingViewKeys)
  {
  }

  /** The `openai` section of the configuration view: the key itself is never shown. */
  function OpenAIView(o: Config.OpenAIConfig): (r: Json)
    ensures Field(r, "has_api_key") == JBool(o.apiKey != "")
    ensures Field(r, "model") == o.model
    ensures Field(r, "temperature") == JReal(o.temperature)
    ensures Field(r, "max_tokens") == JInt(o.maxTokens)
  {
    var values := [o.model, JReal(o.temperature), JInt(o.maxTokens), JBool(o.apiKey != "")];
    ConfigKeysUnique();
    MembersLookup(OpenAIViewKeys, values, 0);
    MembersLookup(OpenAIViewKeys, values, 1);
    MembersLookup(OpenAIViewKeys, values, 2);
    MembersLookup(OpenAIViewKeys, values, 3);
    JObj(Members(OpenAIViewKeys, values))
  }

  /** The `nlweb` section of the configuration view. */
  function NLWebView(n: Config.NLWebConfig): (r: Json)
    ensures Field(r, "server_host") == JStr(n.serverHost)
    ensures Field(r, "server_port") == JInt(n.serverPort)
    ensures Field(r, "vector_db") == JStr(n.vectorDb)
    ensures Field(r, "embedding_model") == JStr(n.embeddingModel)
    ensures Field(r, "mcp_enabled") == JBool(n.mcpEnabled)
  {
    var values := [JStr(n.serverHost), JInt(n.serverPort), JStr(n.vectorDb), JStr(n.embeddingModel),
                   JBool(n.mcpEnabled)];
    ConfigKeysUnique();
    MembersLookup(NLWebViewKeys, values, 0);
    MembersLookup(NLWebViewKeys, values, 1);
    MembersLookup(NLWebViewKeys, values, 2);
    MembersLookup(NLWebViewKeys, values, 3);
    MembersLookup(NLWebViewKeys, values, 4);
    JObj(Members(NLWebViewKeys, values))
  }

  /** The `error_handling` section of the configuration view. */
  function ErrorHandlingView(e: Config.ErrorHandlingConfig): (r: Json)
    ensures Field(r, "retry_attempts") == JInt(e.retryAttempts)
    ensures Field(r, "timeout") == JInt(e.timeout)
    ensures Field(r, "backoff_strategy") == JStr(e.backoffStrategy)
    ensures Field(r, "enable_fallback") == JBool(e.enableFallback)
  {
    var values := [JInt(e.retryAttempts), JInt(e.timeout), JStr(e.backoffStrategy), JBool(e.enableFallback)];
    ConfigKeysUnique();
    MembersLookup(ErrorHandlingViewKeys, values, 0);
    MembersLookup(ErrorHandlingViewKeys, values, 1);
    MembersLookup(ErrorHandlingViewKeys, values, 2);
    MembersLookup(ErrorHandlingViewKeys, values, 3);
    JObj(Members(ErrorHandlingViewKeys, values))
  }

  /** `GET /api/config`: the three sections. */
  function ConfigView(c: Config.Settings): (r: Json)
    ensures Field(r, "openai") == OpenAIView(c.openai)
    ensures Field(r, "nlweb") == NLWebView(c.nlweb)
    ensures Field(r, "error_handling") == ErrorHandlingView(c.errorHandling)
  {
    var values := [OpenAIView(c.openai), NLWebView(c.nlweb), ErrorHandlingView(c.errorHandling)];
    ConfigKeysUnique();
    MembersLookup(ConfigKeys, values, 0);
    MembersLookup(ConfigKeys, values, 1);
    MembersLookup(ConfigKeys, values, 2);
    JObj(Members(ConfigKeys, values))
  }

  /** The view depends on the API key only through whether one is set. */
  lemma ConfigViewHidesKey(c: Config.Settings, key: string)
    requires (key == "") == (c.openai.apiKey == "")
    ensures ConfigView(c.(openai := c.openai.(apiKey := key))) == ConfigView(c)
  {
  }

  /** The `openai` settings after a configuration update, and the exception that cut the
      update short, if any: assignments made before the exception stay made. */
  datatype Updated = Updated(openai: Config.OpenAIConfig, failure: Option<string>)

  /** `if 'temperature' in section: temperature = float(section['temperature'])`. */
  function SetTemperature(o: Config.OpenAIConfig, section: Json): (r: Result<Config.OpenAIConfig>)
    ensures r.Ok? ==> r.value == o || r.value == o.(temperature := r.value.temperature)
    ensures section.JObj? && !HasKey(section.members, "temperature") ==> r == Ok(o)
    ensures section.JObj? && HasKey(section.members, "temperature") ==>
      (r.Ok? <==> ToFloat(Field(section, "temperature")).Ok?) &&
      (r.Ok? ==> r.value.temperature == ToFloat(Field(section, "temperature")).value)
  {
    var present :- In("temperature", section);
    if !present then Ok(o)
    else
      var v :- Index(section, "temperature");
      var t :- ToFloat(v);
      Ok(o.(temperature := t))
  }

  /** `if 'max_tokens' in section: max_tokens = int(section['max_tokens'])`. */
  function SetMaxTokens(o: Config.OpenAIConfig, section: Json): (r: Result<Config.OpenAIConfig>)
    ensures r.Ok? ==> r.value == o || r.value == o.(maxTokens := r.value.maxTokens)
    ensures section.JObj? && !HasKey(section.members, "max_tokens") ==> r == Ok(o)
    ensures section.JObj? && HasKey(section.members, "max_tokens") ==>
      (r.Ok? <==> ToInt(Field(section, "max_tokens")).Ok?) &&
      (r.Ok? ==> r.value.maxTokens == ToInt(Field(section, "max_tokens")).value)
  {
    var present :- In("max_tokens", section);
    if !present then Ok(o)
    else
      var v :- Index(section, "max_tokens");
      var n :- ToInt(v);
      Ok(o.(maxTokens := n))
  }

  /** `if 'model' in section: model = section['model']`, stored as given. */
  function SetModel(o: Config.OpenAIConfig, section: Json): (r: Result<Config.OpenAIConfig>)
    ensures r.Ok? ==> r.value == o || r.value == o.(model := r.value.model)
    ensures section.JObj? && !HasKey(section.members, "model") ==> r == Ok(o)
    ensures section.JObj? && HasKey(section.members, "model") ==> r == Ok(o.(model := Field(section, "model")))
  {
    var present :- In("model", section);
    if !present then Ok(o)
    else
      var v :- Index(section, "model");
      Ok(o.(model := v))
  }

  /** The three assignments in order; the first that raises ends the update. */
  function UpdateOpenAI(o: Config.OpenAIConfig, section: Json): (r: Updated)
    ensures r.openai.apiKey == o.apiKey && r.openai.timeout == o.timeout
    ensures r.failure.None? <==> (SetTemperature(o, section).Ok? &&
      SetMaxTokens(SetTemperature(o, section).value, section).Ok? &&
      SetModel(SetMaxTokens(SetTemperature(o, section).value, section).value, section).Ok?)
    ensures section.JObj? && !HasKey(section.members, "temperature") ==> r.openai.temperature == o.temperature
    ensures section.JObj? && !HasKey(section.members, "max_tokens") ==> r.openai.maxTokens == o.maxTokens
    ensures section.JObj? && !HasKey(section.members, "model") ==> r.openai.model == o.model
    ensures section.JObj? && HasKey(section.members, "model") && r.failure.None? ==>
      r.openai.model == Field(section, "model")
  {
    match SetTemperature(o, section)
    case Err(e) => Updated(o, Some(e))
    case Ok(o1) =>
      match SetMaxTokens(o1, section)
      case Err(e) => Updated(o1, Some(e))
      case Ok(o2) =>
        match SetModel(o2, section)
        case Err(e) => Updated(o2, Some(e))
        case Ok(o3) => Updated(o3, None)
  }

  const ConfigUpdated := "Configuration updated successfully"

  /** `POST /api/config`: only the `openai` section's temperature, max_tokens and model can
      change; an exception gives status 500 but keeps the assignments made before it. */
  function ConfigUpdate(app: AppState, data: Json): (r: Served)
    ensures r.app.service == app.service && r.app.store == app.store
    ensures r.app.settings.nlweb == app.settings.nlweb
    ensures r.app.settings.errorHandling == app.settings.errorHandling
    ensures r.app.settings.openai.apiKey == app.settings.openai.apiKey
    ensures r.app.settings.openai.timeout == app.settings.openai.timeout
    ensures !Truthy(data) ==> r == Served(Response(400, TextBody("error", "Configuration data required")), app)
    ensures Truthy(data) && data.JObj? && !HasKey(data.members, "openai") ==>
      r == Served(Response(200, TextBody("message", ConfigUpdated)), app)
    ensures Truthy(data) && data.JObj? && HasKey(data.members, "openai") ==>
      r.app.settings.openai == UpdateOpenAI(app.settings.openai, Field(data, "openai")).openai &&
      (r.response.status == 200 <==> UpdateOpenAI(app.settings.openai, Field(data, "openai")).failure.None?)
    ensures (Truthy(data) && data.JObj? && HasKey(data.members, "openai") &&
      UpdateOpenAI(app.settings.openai, Field(data, "openai")).failure.Some?) ==>
      r.response == Response(500, TextBody("error",
        "Configuration error: " + UpdateOpenAI(app.settings.openai, Field(data, "openai")).failure.value))
    ensures Truthy(data) && !data.JObj? ==> r.app == app
    ensures Truthy(data) && !data.JObj? && In("openai", data) == Ok(false) ==>
      r.response == Response(200, TextBody("message", ConfigUpdated))
    ensures Truthy(data) && !data.JObj? && In("openai", data).Err? ==>
      r.response == Response(500, TextBody("error", "Configuration error: " + In("openai", data).msg))
    ensures Truthy(data) && !data.JObj? && In("openai", data) == Ok(true) ==>
      r.response == Response(500, TextBody("error", "Configuration error: " + Index(data, "openai").msg))
    ensures r.response.status in {200, 400, 500}
  {
    if !Truthy(data) then Served(Response(400, TextBody("error", "Configuration data required")), app)
    else
      match In("openai", data)
      case Err(e) => Served(Response(500, TextBody("error", "Configuration error: " + e)), app)
      case Ok(present) =>
        if !present then Served(Response(200, TextBody("message", ConfigUpdated)), app)
        else
          match Index(data, "openai")
          case Err(e) => Served(Response(500, TextBody("error", "Configuration error: " + e)), app)
          case Ok(section) =>
            var u := UpdateOpenAI(app.settings.openai, section);
            var app' := app.(settings := app.settings.(openai := u.openai));
            match u.failure
            case None => Served(Response(200, TextBody("message", ConfigUpdated)), app')
            case Some(e) => Served(Response(500, TextBody("error", "Configuration error: " + e)), app')
  }

  /** An update that names only the temperature changes only the temperature. */
  lemma TemperatureOnlyUpdate(app: AppState, data: Json, t: real)
    requires data.JObj? && HasKey(data.members, "openai")
    requires Field(data, "openai") == JObj([Member("temperature", JReal(t))])
    ensures ConfigUpdate(app, data).response.status == 200
    ensures ConfigUpdate(app, data).app == app.(settings := app.settings.(openai := app.settings.openai.(temperature := t)))
  {
    var section := JObj([Member("temperature", JReal(t))]);
    assert section.members[0].key == "temperature";
    assert !HasKey(section.members, "max_tokens") && !HasKey(section.members, "model");
    assert Field(section, "temperature") == JReal(t);
  }

  // ---------------------------------------------------------------------------
  // /api/data-sources

  /** `GET /api/data-sources`: the service statistics. */
  function DataSourcesView(app: AppState): (r: Response)
    ensures r.status == 200 <==> N.GetStats(app.service, app.store).Ok?
    ensures r.status == 200 ==> r.body == N.GetStats(app.service, app.store).value
    ensures r.status != 200 ==> (r.status == 500 &&
      Field(r.body, "error") == JStr("Data sources error: " + N.GetStats(app.service, app.store).msg))
  {
    match N.GetStats(app.service, app.store)
    case Ok(stats) => Response(200, stats)
    case Err(e) => Response(500, TextBody("error", "Data sources error: " + e))
  }

  /** `POST /api/data-sources`: register the body as a source. */
  function AddSource(app: AppState, data: Json, w: N.AddWorld): (r: Served)
    requires SP.IsEnumeration(w.order)
    ensures r.app.settings == app.settings
    ensures !Truthy(data) ==> r == Served(Response(400, TextBody("error", "Data source configuration required")), app)
    ensures r.response.status == 200 <==>
      (Truthy(data) && N.AddDataSource(app.service, app.store, data, w).Ok? &&
       N.AddDataSource(app.service, app.store, data, w).value.success)
    ensures r.response.status == 200 ==>
      |r.app.service.sources| == |app.service.sources| + 1 &&
      r.app.service.sources[..|app.service.sources|] == app.service.sources
    ensures r.response.status != 200 ==> r.app == app
    ensures r.response.status == 200 <==> (Truthy(data) && data.JObj? && N.Adds(app.store, data, w))
    ensures r.response.status == 200 ==>
      r.app.store == VS.IndexDocuments(app.store, N.DocumentsOf(data, w).value, w.embed).value.store &&
      Field(r.app.service.sources[|app.service.sources|], "status") == JStr("active")
    ensures Truthy(data) && data.JObj? && !N.Adds(app.store, data, w) ==>
      r.response == Response(500, TextBody("error", "Failed to add data source"))
    ensures Truthy(data) && !data.JObj? ==>
      r.response == Response(500, TextBody("error", "Data sources error: " + N.AddDataSource(app.service, app.store, data, w).msg))
  {
    if !Truthy(data) then Served(Response(400, TextBody("error", "Data source configuration required")), app)
    else
      match N.AddDataSource(app.service, app.store, data, w)
      case Err(e) => Served(Response(500, TextBody("error", "Data sources error: " + e)), app)
      case Ok(added) =>
        if added.success then
          assert added.state.sources[..|app.service.sources|] == app.service.sources;
          Served(Response(200, TextBody("message", "Data source added successfully")),
                 app.(service := added.state, store := added.store))
        else Served(Response(500, TextBody("error", "Failed to add data source")), app)
  }

  // ---------------------------------------------------------------------------
  // /api/health

  const HealthKeys := ["status", "timestamp", "services", "stats"]
  const ServiceKeys := ["nlweb_server", "openai_api", "vector_store", "mcp_server"]

  lemma HealthKeysUnique()
    ensures Unique(HealthKeys) && Unique(ServiceKeys)
  {
  }

  /** The status of each part of the server. */
  function Services(c: Config.Settings): (r: Json)
    ensures Field(r, "nlweb_server") == JStr("online") && Field(r, "vector_store") == JStr("online")
    ensures Field(r, "openai_api") == JStr(if c.openai.apiKey != "" then "online" else "offline")
    ensures Field(r, "mcp_server") == JStr(if c.nlweb.mcpEnabled then "online" else "disabled")
  {
    var values := [JStr("online"), JStr(if c.openai.apiKey != "" then "online" else "offline"),
                   JStr("online"), JStr(if c.nlweb.mcpEnabled then "online" else "disabled")];
    HealthKeysUnique();
    MembersLookup(ServiceKeys, values, 0);
    MembersLookup(ServiceKeys, values, 1);
    MembersLookup(ServiceKeys, values, 2);
    MembersLookup(ServiceKeys, values, 3);
    JObj(Members(ServiceKeys, values))
  }

  /** `GET /api/health` at time `now`: healthy with the store's statistics, or unhealthy
      with the exception text when they cannot be computed. */
  function HealthEndpoint(app: AppState, now: real): (r: Response)
    ensures r.status == 200 <==> VS.GetStats(app.store).Ok?
    ensures r.status == 200 ==> (Field(r.body, "status") == JStr("healthy") &&
      Field(r.body, "services") == Services(app.settings))
    ensures r.status == 200 ==> Field(r.body, "stats") == VS.StatsJson(VS.GetStats(app.store).value)
    ensures r.status != 200 ==> r.status == 500 && Field(r.body, "status") == JStr("unhealthy")
    ensures r.status != 200 ==> Field(r.body, "error") == JStr(VS.GetStats(app.store).msg)
  {
    match VS.GetStats(app.store)
    case Ok(stats) =>
      var values := [JStr("healthy"), JReal(now), Services(app.settings), VS.StatsJson(stats)];
      HealthKeysUnique();
      MembersLookup(HealthKeys, values, 0);
      MembersLookup(HealthKeys, values, 2);
      MembersLookup(HealthKeys, values, 3);
      Response(200, JObj(Members(HealthKeys, values)))
    case Err(e) =>
      var ms := [Member("status", JStr("unhealthy")), Member("error", JStr(e))];
      LookupDistinct(ms);
      assert ms[0].key == "status" && ms[1].key == "error";
      Response(500, JObj(ms))
  }

  // ---------------------------------------------------------------------------
  // /api/test

  const AskTestKeys := ["status", "headers", "body", "response_time"]
  const OtherTestKeys := ["status", "message", "method", "headers_received"]

  lemma TestKeysUnique()
    ensures Unique(AskTestKeys) && Unique(OtherTestKeys)
  {
  }

  /** The reply to a simulated `/ask` call: status 200 around the page. */
  function AskTestReply(page: Json): (r: Json)
    ensures Field(r, "status") == JInt(200) && Field(r, "body") == page
  {
    var values := [JInt(200), JObj([Member("Content-Type", JStr("application/json"))]), page, JStr("1.24s")];
    TestKeysUnique();
    MembersLookup(AskTestKeys, values, 0);
    MembersLookup(AskTestKeys, values, 2);
    JObj(Members(AskTestKeys, values))
  }

  /** The reply for any other endpoint: it only echoes the request. */
  function OtherTestReply(endpoint: Json, rpcMethod: Json, headers: Json): (r: Json)
    ensures Field(r, "message") == JStr("Test for " + Str(endpoint) + " endpoint completed")
    ensures Field(r, "method") == rpcMethod && Field(r, "headers_received") == headers
  {
    var values := [JInt(200), JStr("Test for " + Str(endpoint) + " endpoint completed"), rpcMethod, headers];
    TestKeysUnique();
    MembersLookup(OtherTestKeys, values, 1);
    MembersLookup(OtherTestKeys, values, 2);
    MembersLookup(OtherTestKeys, values, 3);
    JObj(Members(OtherTestKeys, values))
  }

  /** The query a simulated `/ask` call sends: the test body's `query`, or `test query`. */
  function TestQuery(body: Json): (r: Result<Json>)
    ensures r.Ok? <==> body.JObj?
    ensures body.JObj? && !HasKey(body.members, "query") ==> r == Ok(JStr("test query"))
    ensures body.JObj? && HasKey(body.members, "query") ==> r == Ok(Lookup(body.members, "query").value)
  {
    DictGet(body, "query", JStr("test query"))
  }

  /** `POST /api/test`. The endpoint defaults to `/ask`, which is really answered (with no
      previous context); any other endpoint is only echoed. */
  function TestEndpoint(app: AppState, data: Json, w: N.AskWorld): (r: Response)
    ensures !Truthy(data) ==> r == Response(400, TextBody("error", "Test request data required"))
    ensures Truthy(data) && !data.JObj? ==>
      r == Response(500, TextBody("error", "API test error: " + NoAttribute(data, "get")))
    ensures Truthy(data) && data.JObj? && Get(data.members, "endpoint", JStr("/ask")) != JStr("/ask") ==>
      r.status == 200 && r.body == OtherTestReply(Get(data.members, "endpoint", JStr("/ask")),
                                                  Get(data.members, "method", JStr("POST")),
                                                  Get(data.members, "headers", JObj([])))
    ensures Truthy(data) && data.JObj? && Get(data.members, "endpoint", JStr("/ask")) == JStr("/ask") ==>
      var q := TestQuery(Get(data.members, "body", JObj([])));
      (r.status == 200 <==> q.Ok? && N.ProcessAsk(app.settings, app.store, q.value, JNull, w).Ok?) &&
      (r.status == 200 ==> r.body == AskTestReply(N.ProcessAsk(app.settings, app.store, q.value, JNull, w).value))
    ensures Truthy(data) && data.JObj? && Get(data.members, "endpoint", JStr("/ask")) == JStr("/ask") ==>
      var q := TestQuery(Get(data.members, "body", JObj([])));
      (q.Err? ==> r == Response(500, TextBody("error", "API test error: " + q.msg))) &&
      (q.Ok? && N.ProcessAsk(app.settings, app.store, q.value, JNull, w).Err? ==>
        r == Response(500, TextBody("error", "API test error: " + N.ProcessAsk(app.settings, app.store, q.value, JNull, w).msg)))
    ensures r.status in {200, 400, 500}
  {
    if !Truthy(data) then Response(400, TextBody("error", "Test request data required"))
    else if !data.JObj? then Response(500, TextBody("error", "API test error: " + NoAttribute(data, "get")))
    else
      var endpoint := Get(data.members, "endpoint", JStr("/ask"));
      var rpcMethod := Get(data.members, "method", JStr("POST"));
      var headers := Get(data.members, "headers", JObj([]));
      var body := Get(data.members, "body", JObj([]));
      if endpoint == JStr("/ask") then
        match TestQuery(body)
        case Err(e) => Response(500, TextBody("error", "API test error: " + e))
        case Ok(query) =>
          match N.ProcessAsk(app.settings, app.store, query, JNull, w)
          case Ok(page) => Response(200, AskTestReply(page))
          case Err(e) => Response(500, TextBody("error", "API test error: " + e))
      else Response(200, OtherTestReply(endpoint, rpcMethod, headers))
  }

  /** A test request naming neither an endpoint nor a body asks `test query`. */
  lemma TestDefaultsToAskTestQuery(app: AppState, data: Json, w: N.AskWorld)
    requires data.JObj? && |data.members| > 0
    requires !HasKey(data.members, "endpoint") && !HasKey(data.members, "body")
    ensures TestEndpoint(app, data, w).status == 200 <==>
      N.ProcessAsk(app.settings, app.store, JStr("test query"), JNull, w).Ok?
  {
    assert Truthy(data);
    var endpoint := Get(data.members, "endpoint", JStr("/ask"));
    var body := Get(data.members, "body", JObj([]));
    assert endpoint == JStr("/ask");
    assert body == JObj([]);
    var q := TestQuery(body);
    assert q == Ok(JStr("test query"));
    var r := TestEndpoint(app, data, w);
    assert r.status == 200 <==> N.ProcessAsk(app.settings, app.store, q.value, JNull, w).Ok?;
  }

  // ---------------------------------------------------------------------------
  // Start-up

  /** `initialize_app`: validate the settings, raising the first problem, then register the
      demo source. */
  function InitializeApp(app: AppState, w: N.AddWorld): (r: Result<AppState>)
    requires SP.IsEnumeration(w.order)
    ensures r.Err? <==> Config.Validate(app.settings).Some?
    ensures r.Err? ==> r.msg == Config.Validate(app.settings).value
    ensures r.Ok? ==> r.value.settings == app.settings
    ensures r.Ok? ==> |app.service.sources| <= |r.value.service.sources| <= |app.service.sources| + 1
    ensures r.Ok? ==> (|r.value.service.sources| == |app.service.sources| + 1 <==> N.Adds(app.store, N.DemoSource, w))
    ensures r.Ok? && N.Adds(app.store, N.DemoSource, w) ==>
      r.value.service.sources[..|app.service.sources|] == app.service.sources &&
      Field(r.value.service.sources[|app.service.sources|], "url") == JStr("https://schema.org") &&
      Field(r.value.service.sources[|app.service.sources|], "status") == JStr("active") &&
      r.value.store == VS.IndexDocuments(app.store, N.DocumentsOf(N.DemoSource, w).value, w.embed).value.store
    ensures r.Ok? && !N.Adds(app.store, N.DemoSource, w) ==> r.value.service == app.service && r.value.store == app.store
  {
    match Config.Validate(app.settings)
    case Some(e) => Err(e)
    case None =>
      var seeded := N.InitializeDemoData(app.service, app.store, w);
      Ok(app.(service := seeded.state, store := seeded.store))
  }
}

=== FILE: config.dfy ===
/** The server's settings (server/config.py): three records with dataclass defaults, filled
    from environment variables, and the start-up validation. The environment is an input map;
    `model` is a JSON value because the configuration endpoint may store any value there. */
module Config {
  import opened Results
  import opened Json
  import opened Py

  datatype OpenAIConfig = OpenAIConfig(
    apiKey: string,
    model: Json,
    temperature: real,
    maxTokens: int,
    timeout: int)

  datatype NLWebConfig = NLWebConfig(
    serverHost: string,
    serverPort: int,
    vectorDb: string,
    embeddingModel: string,
    mcpEnabled: bool)

  datatype ErrorHandlingConfig = ErrorHandlingConfig(
    retryAttempts: int,
    timeout: int,
    backoffStrategy: string,
    enableFallback: bool)

  datatype Settings = Settings(openai: OpenAIConfig, nlweb: NLWebConfig, errorHandling: ErrorHandlingConfig)

  /** The dataclass defaults; the API key has none. */
  function DefaultOpenAI(apiKey: string): OpenAIConfig {
    OpenAIConfig(apiKey, JStr("gpt-4"), 0.7, 2048, 30)
  }

  const DefaultNLWeb: NLWebConfig := NLWebConfig("0.0.0.0", 5000, "memory", "text-embedding-ada-002", true)

  const DefaultErrorHandling: ErrorHandlingConfig := ErrorHandlingConfig(3, 30, "exponential", true)

  // ---------------------------------------------------------------------------
  // Reading the environment

  /** `os.getenv(name, default)`. */
  function EnvOr(env: map<string, string>, name: string, default: string): string {
    if name in env then env[name] else default
  }

  /** `os.getenv(name, 'true').lower() == 'true'`. */
  predicate Flag(env: map<string, string>, name: string) {
    Lower(EnvOr(env, name, "true")) == "true"
  }

  /** A flag is on exactly when its text spells `true` in any mix of letter case, and when it
      is not set. */
  lemma FlagSpellsTrue(env: map<string, string>, name: string)
    ensures name !in env ==> Flag(env, name)
    ensures name in env ==> (Flag(env, name) <==>
      |env[name]| == 4 && forall i :: 0 <= i < 4 ==> LowerChar(env[name][i]) == "true"[i])
  {
    var v := EnvOr(env, name, "true");
    if |v| == 4 && forall i :: 0 <= i < 4 ==> LowerChar(v[i]) == "true"[i] {
      assert Lower(v) == "true";
    }
    if name !in env {
      assert forall i :: 0 <= i < 4 ==> LowerChar("true"[i]) == "true"[i];
    }
  }

  /** `float(os.getenv(name, default))`. */
  function EnvFloat(env: map<string, string>, name: string, default: string): (r: Result<real>)
    ensures r.Ok? <==> ParseFloat(EnvOr(env, name, default)).Some?
    ensures r.Ok? ==> ParseFloat(EnvOr(env, name, default)) == Some(r.value)
  {
    ToFloat(JStr(EnvOr(env, name, default)))
  }

  /** `int(os.getenv(name, default))`. */
  function EnvInt(env: map<string, string>, name: string, default: string): (r: Result<int>)
    ensures r.Ok? <==> ParseInt(EnvOr(env, name, default)).Some?
    ensures r.Ok? ==> ParseInt(EnvOr(env, name, default)) == Some(r.value)
  {
    ToInt(JStr(EnvOr(env, name, default)))
  }

  /** The `openai` section: it raises exactly when one of its three numbers does not parse. */
  function OpenAIFromEnv(env: map<string, string>): (r: Result<OpenAIConfig>)
    ensures r.Ok? <==> (ParseFloat(EnvOr(env, "OPENAI_TEMPERATURE", "0.7")).Some? &&
      ParseInt(EnvOr(env, "OPENAI_MAX_TOKENS", "2048")).Some? && ParseInt(EnvOr(env, "OPENAI_TIMEOUT", "30")).Some?)
    ensures r.Ok? ==> r.value.apiKey == EnvOr(env, "OPENAI_API_KEY", "")
    ensures r.Ok? ==> r.value.model == JStr(EnvOr(env, "OPENAI_MODEL", "gpt-4"))
    ensures r.Ok? ==> ParseFloat(EnvOr(env, "OPENAI_TEMPERATURE", "0.7")) == Some(r.value.temperature)
    ensures r.Ok? ==> ParseInt(EnvOr(env, "OPENAI_MAX_TOKENS", "2048")) == Some(r.value.maxTokens)
    ensures r.Ok? ==> ParseInt(EnvOr(env, "OPENAI_TIMEOUT", "30")) == Some(r.value.timeout)
  {
    var temperature :- EnvFloat(env, "OPENAI_TEMPERATURE", "0.7");
    var maxTokens :- EnvInt(env, "OPENAI_MAX_TOKENS", "2048");
    var timeout :- EnvInt(env, "OPENAI_TIMEOUT", "30");
    Ok(OpenAIConfig(EnvOr(env, "OPENAI_API_KEY", ""), JStr(EnvOr(env, "OPENAI_MODEL", "gpt-4")),
                    temperature, maxTokens, timeout))
  }

  /** The `nlweb` section: only the port is a number, so only it can raise. */
  function NLWebFromEnv(env: map<string, string>): (r: Result<NLWebConfig>)
    ensures r.Ok? <==> ParseInt(EnvOr(env, "NLWEB_PORT", "5000")).Some?
    ensures r.Ok? ==> r.value.serverHost == EnvOr(env, "NLWEB_HOST", "0.0.0.0")
    ensures r.Ok? ==> r.value.vectorDb == EnvOr(env, "VECTOR_DB", "memory")
    ensures r.Ok? ==> r.value.embeddingModel == EnvOr(env, "EMBEDDING_MODEL", "text-embedding-ada-002")
    ensures r.Ok? ==> ParseInt(EnvOr(env, "NLWEB_PORT", "5000")) == Some(r.value.serverPort)
    ensures r.Ok? ==> (r.value.mcpEnabled <==> Flag(env, "MCP_ENABLED"))
  {
    var port :- EnvInt(env, "NLWEB_PORT", "5000");
    Ok(NLWebConfig(EnvOr(env, "NLWEB_HOST", "0.0.0.0"), port, EnvOr(env, "VECTOR_DB", "memory"),
                   EnvOr(env, "EMBEDDING_MODEL", "text-embedding-ada-002"), Flag(env, "MCP_ENABLED")))
  }

  /** The `error_handling` section: it raises exactly when one of its two numbers does not parse. */
  function ErrorHandlingFromEnv(env: map<string, string>): (r: Result<ErrorHandlingConfig>)
    ensures r.Ok? <==> (ParseInt(EnvOr(env, "RETRY_ATTEMPTS", "3")).Some? &&
      ParseInt(EnvOr(env, "REQUEST_TIMEOUT", "30")).Some?)
    ensures r.Ok? ==> r.value.backoffStrategy == EnvOr(env, "BACKOFF_STRATEGY", "exponential")
    ensures r.Ok? ==> ParseInt(EnvOr(env, "RETRY_ATTEMPTS", "3")) == Some(r.value.retryAttempts)
    ensures r.Ok? ==> ParseInt(EnvOr(env, "REQUEST_TIMEOUT", "30")) == Some(r.value.timeout)
    ensures r.Ok? ==> (r.value.enableFallback <==> Flag(env, "ENABLE_FALLBACK"))
  {
    var attempts :- EnvInt(env, "RETRY_ATTEMPTS", "3");
    var timeout :- EnvInt(env, "REQUEST_TIMEOUT", "30");
    Ok(ErrorHandlingConfig(attempts, timeout, EnvOr(env, "BACKOFF_STRATEGY", "exponential"),
                           Flag(env, "ENABLE_FALLBACK")))
  }

  /** `Config()`: the three sections in order; the first number that does not parse raises. */
  function FromEnv(env: map<string, string>): (r: Result<Settings>)
    ensures r.Ok? <==> OpenAIFromEnv(env).Ok? && NLWebFromEnv(env).Ok? && ErrorHandlingFromEnv(env).Ok?
    ensures r.Ok? ==> r.value == Settings(OpenAIFromEnv(env).value, NLWebFromEnv(env).value, ErrorHandlingFromEnv(env).value)
  {
    var openai :- OpenAIFromEnv(env);
    var nlweb :- NLWebFromEnv(env);
    var errorHandling :- ErrorHandlingFromEnv(env);
    Ok(Settings(openai, nlweb, errorHandling))
  }

  /** An empty environment gives the dataclass defaults. */
  lemma EmptyEnvGivesDefaults()
    ensures FromEnv(map[]) == Ok(Settings(DefaultOpenAI(""), DefaultNLWeb, DefaultErrorHandling))
  {
    OpenAIDefaults();
    NLWebDefaults();
    ErrorHandlingDefaults();
  }

  lemma DefaultTemperatureText()
    ensures ParseFloat("0.7") == Some(0.7)
  {
    assert IndexOf("0.7", '.') == Some(1) by {
      assert IndexOf("0.7"[1..], '.') == Some(0);
    }
    assert "0.7"[..1] == "0" && "0.7"[2..] == "7";
    assert DigitsValue("7") == 7 by {
      assert DigitsValue("7"[..0]) == 0;
    }
    assert DigitsValue("0") == 0 by {
      assert DigitsValue("0"[..0]) == 0;
    }
  }

  lemma OpenAIDefaults()
    ensures OpenAIFromEnv(map[]) == Ok(DefaultOpenAI(""))
  {
    DefaultTemperatureText();
    NatStrSmall();
    ParseIntOfIntStr(2048);
    ParseIntOfIntStr(30);
  }

  lemma NLWebDefaults()
    ensures NLWebFromEnv(map[]) == Ok(DefaultNLWeb)
  {
    NatStrSmall();
    ParseIntOfIntStr(5000);
    FlagSpellsTrue(map[], "MCP_ENABLED");
  }

  lemma ErrorHandlingDefaults()
    ensures ErrorHandlingFromEnv(map[]) == Ok(DefaultErrorHandling)
  {
    NatStrSmall();
    ParseIntOfIntStr(3);
    ParseIntOfIntStr(30);
    FlagSpellsTrue(map[], "ENABLE_FALLBACK");
  }

  lemma NatStrSmall()
    ensures IntStr(2048) == "2048" && IntStr(30) == "30" && IntStr(5000) == "5000" && IntStr(3) == "3"
  {
    assert NatStr(3) == "3";
    assert NatStr(30) == NatStr(3) + "0";
    assert NatStr(20) == NatStr(2) + "0";
    assert NatStr(204) == NatStr(20) + "4";
    assert NatStr(2048) == NatStr(204) + "8";
    assert NatStr(5) == "5";
    assert NatStr(50) == NatStr(5) + "0";
    assert NatStr(500) == NatStr(50) + "0";
    assert NatStr(5000) == NatStr(500) + "0";
  }

  /** Setting a numeric variable to the decimal text of `n` configures `n`. */
  lemma MaxTokensFromEnv(env: map<string, string>, n: int)
    requires OpenAIFromEnv(env[("OPENAI_MAX_TOKENS") := IntStr(n)]).Ok?
    ensures OpenAIFromEnv(env[("OPENAI_MAX_TOKENS") := IntStr(n)]).value.maxTokens == n
  {
    ParseIntOfIntStr(n);
  }

  // ---------------------------------------------------------------------------
  // Validation

  const ApiKeyRequired := "OPENAI_API_KEY environment variable is required"
  const TemperatureRange := "OpenAI temperature must be between 0 and 1"
  const MaxTokensRange := "OpenAI max_tokens must be between 1 and 4000"

  /** `Config.validate`: the `ValueError` raised, if any. The key is checked first, then the
      temperature, then `max_tokens`. */
  function Validate(c: Settings): (r: Option<string>)
    ensures r.None? <==> c.openai.apiKey != "" && 0.0 <= c.openai.temperature <= 1.0 &&
                          1 <= c.openai.maxTokens <= 4000
    ensures c.openai.apiKey == "" ==> r == Some(ApiKeyRequired)
    ensures c.openai.apiKey != "" && !(0.0 <= c.openai.temperature <= 1.0) ==> r == Some(TemperatureRange)
    ensures c.openai.apiKey != "" && 0.0 <= c.openai.temperature <= 1.0 && !(1 <= c.openai.maxTokens <= 4000) ==>
      r == Some(MaxTokensRange)
  {
    if c.openai.apiKey == "" then Some(ApiKeyRequired)
    else if c.openai.temperature < 0.0 || c.openai.temperature > 1.0 then Some(TemperatureRange)
    else if c.openai.maxTokens < 1 || c.openai.maxTokens > 4000 then Some(MaxTokensRange)
    else None
  }

  /** The defaults pass validation once a key is supplied. */
  lemma DefaultsAreValid(apiKey: string, nlweb: NLWebConfig, errorHandling: ErrorHandlingConfig)
    requires apiKey != ""
    ensures Validate(Settings(DefaultOpenAI(apiKey), nlweb, errorHandling)).None?
  {
  }
}

=== FILE: json.dfy ===
/** JSON values as Python's `json` module and Flask's `get_json` hand them to the server:
    integers and floats are distinct, and an object is a Python dict, so it keeps its
    insertion order and each key occurs once. */
module Json {
  import opened Results

  datatype Json =
    | JNull
    | JBool(b: bool)
    | JInt(i: int)
    | JReal(r: real)
    | JStr(s: string)
    | JArr(items: seq<Json>)
    | JObj(members: seq<Member>)

  /** One key/value entry of an object, in insertion order. */
  datatype Member = Member(key: string, value: Json)

  /** `k in d` for a dict `d`. */
  predicate HasKey(ms: seq<Member>, k: string) {
    exists i :: 0 <= i < |ms| && ms[i].key == k
  }

  /** A key occurs in a non-empty dict iff it is the first key or occurs in the rest. */
  lemma HasKeyCons(ms: seq<Member>, k: string)
    requires |ms| > 0
    ensures HasKey(ms, k) <==> ms[0].key == k || HasKey(ms[1..], k)
  {
    if HasKey(ms, k) && ms[0].key != k {
      var i :| 0 <= i < |ms| && ms[i].key == k;
      assert ms[1..][i - 1].key == k;
    }
    if HasKey(ms[1..], k) {
      var i :| 0 <= i < |ms[1..]| && ms[1..][i].key == k;
      assert ms[i + 1].key == k;
    }
  }

  /** The value stored under `k`: the first entry with that key. */
  function Lookup(ms: seq<Member>, k: string): (r: Option<Json>)
    ensures r.Some? <==> HasKey(ms, k)
    ensures r.Some? ==> Member(k, r.value) in ms
  {
    if |ms| == 0 then None
    else if ms[0].key == k then Some(ms[0].value)
    else
      HasKeyCons(ms, k);
      Lookup(ms[1..], k)
  }

  /** The entry at `i` is what a lookup finds when no earlier entry has its key. */
  lemma {:induction false} LookupAt(ms: seq<Member>, i: nat)
    requires i < |ms|
    requires forall j :: 0 <= j < i ==> ms[j].key != ms[i].key
    ensures Lookup(ms, ms[i].key) == Some(ms[i].value)
    decreases i
  {
    if i > 0 {
      LookupAt(ms[1..], i - 1);
    }
  }

  /** No key occurs twice: what a dict literal with distinct keys builds. */
  predicate DistinctKeys(ms: seq<Member>) {
    forall i, j :: 0 <= i < j < |ms| ==> ms[i].key != ms[j].key
  }

  /** In a dict with distinct keys every entry is found under its own key. */
  lemma LookupDistinct(ms: seq<Member>)
    requires DistinctKeys(ms)
    ensures forall i :: 0 <= i < |ms| ==> Lookup(ms, ms[i].key) == Some(ms[i].value)
  {
    forall i | 0 <= i < |ms| {
      LookupAt(ms, i);
    }
  }

  /** `d.get(k, default)` for a dict `d`. */
  function Get(ms: seq<Member>, k: string, default: Json): (r: Json)
    ensures HasKey(ms, k) ==> Member(k, r) in ms
    ensures !HasKey(ms, k) ==> r == default
  {
    Lookup(ms, k).GetOr(default)
  }

  /** `d[k] = v` for a dict `d`: an existing key keeps its position, a new key goes last. */
  function Put(ms: seq<Member>, k: string, v: Json): (r: seq<Member>)
    ensures Lookup(r, k) == Some(v)
    ensures forall k' :: k' != k ==> Lookup(r, k') == Lookup(ms, k')
    ensures HasKey(ms, k) ==> |r| == |ms|
    ensures !HasKey(ms, k) ==> r == ms + [Member(k, v)]
  {
    if |ms| == 0 then [Member(k, v)]
    else if ms[0].key == k then
      var r := [Member(k, v)] + ms[1..];
      assert r[1..] == ms[1..];
      r
    else
      var rest := Put(ms[1..], k, v);
      var r := [ms[0]] + rest;
      assert r[0] == ms[0] && r[1..] == rest;
      HasKeyCons(ms, k);
      assert !HasKey(ms, k) ==> r == ms + [Member(k, v)] by {
        if !HasKey(ms, k) {
          assert [ms[0]] + (ms[1..] + [Member(k, v)]) == ms + [Member(k, v)];
        }
      }
      r
  }

  /** No string occurs twice. */
  predicate Unique(keys: seq<string>) {
    forall i, j | 0 <= i < j < |keys| :: keys[i] != keys[j]
  }

  /** The entries of a dict literal, from its keys and values in order. */
  function Members(keys: seq<string>, values: seq<Json>): (r: seq<Member>)
    requires |keys| == |values|
    ensures |r| == |keys|
    ensures forall i :: 0 <= i < |keys| ==> r[i] == Member(keys[i], values[i])
  {
    if |keys| == 0 then [] else [Member(keys[0], values[0])] + Members(keys[1..], values[1..])
  }

  /** In a dict literal with unique keys, each key finds its own value. */
  lemma {:induction false} MembersLookup(keys: seq<string>, values: seq<Json>, i: nat)
    requires |keys| == |values| && Unique(keys) && i < |keys|
    ensures Lookup(Members(keys, values), keys[i]) == Some(values[i])
    decreases i
  {
    var ms := Members(keys, values);
    if i > 0 {
      assert keys[0] != keys[i];
      assert keys[i] == keys[1..][i - 1];
      assert ms[1..] == Members(keys[1..], values[1..]);
      MembersLookup(keys[1..], values[1..], i - 1);
    }
  }

  /** The value under `k` when `j` is an object holding that key, and `null` otherwise: a
      reading aid for stating what a reply contains. */
  function Field(j: Json, k: string): (r: Json)
    ensures j.JObj? && HasKey(j.members, k) ==> Lookup(j.members, k) == Some(r)
    ensures !j.JObj? ==> r == JNull
  {
    if j.JObj? then Lookup(j.members, k).GetOr(JNull) else JNull
  }
}

=== FILE: nlweb_service.dfy ===
/** The NLWeb service (server/nlweb_service.py): the `/ask` answer page, the Model Context
    Protocol dispatcher, data-source registration and the service statistics. The vector
    store is passed in and handed back; the similarity of the query to the stored
    embeddings, the chat service, the fetched pages and the clock are inputs. */
module NLWebService {
  import opened Results
  import opened Json
  import opened Py
  import VS = VectorStore
  import SP = SchemaParser
  import OA = OpenAIService
  import Config

  /** The number of results `/ask` asks the store for. */
  const AskLimit: nat := 20

  /** The similarity threshold of every search the service makes. */
  const MinSimilarity: real := 0.7

  const NoResultsMessage := "No relevant results found in indexed data"

  /** The registered data sources and the time of the last successful sync. */
  datatype State = State(sources: seq<Json>, lastSync: Option<real>)

  const Initial: State := State([], None)

  /** What answering a query needs from outside: the query's similarity to each stored
      embedding, the chat service's behaviour, and the measured processing time. */
  datatype AskWorld = AskWorld(sim: VS.Similarity, outcome: nat -> OA.ChatOutcome, elapsed: real)

  /** The documents of a list of search hits, in order. */
  function Docs(hits: seq<VS.Hit>): (r: seq<Json>)
    ensures |r| == |hits|
    ensures forall i :: 0 <= i < |hits| ==> r[i] == hits[i].doc
  {
    seq(|hits|, i requires 0 <= i < |hits| => hits[i].doc)
  }

  // ---------------------------------------------------------------------------
  // process_ask_request

  const EmptyPageKeys := ["@type", "mainEntity", "query", "numberOfItems", "processingTime", "message"]

  const ResultsPageKeys := ["@context", "@type", "mainEntity", "query", "numberOfItems", "processingTime",
                            "source", "aiResponse", "usage", "context"]

  lemma PageKeysUnique()
    ensures Unique(EmptyPageKeys) && Unique(ResultsPageKeys)
  {
  }

  /** The page returned when the search finds nothing. */
  function EmptyPage(query: Json, elapsed: real): (r: Json)
    ensures Field(r, "@type") == JStr("SearchResultsPage")
    ensures Field(r, "mainEntity") == JArr([])
    ensures Field(r, "query") == query
    ensures Field(r, "numberOfItems") == JInt(0)
    ensures Field(r, "message") == JStr(NoResultsMessage)
  {
    var keys := EmptyPageKeys;
    PageKeysUnique();
    var values := [JStr("SearchResultsPage"), JArr([]), query, JInt(0), JReal(elapsed), JStr(NoResultsMessage)];
    MembersLookup(keys, values, 0);
    MembersLookup(keys, values, 1);
    MembersLookup(keys, values, 2);
    MembersLookup(keys, values, 3);
    MembersLookup(keys, values, 5);
    JObj(Members(keys, values))
  }

  /** The page returned with search results and the model's answer. */
  function ResultsPage(model: Json, query: Json, docs: seq<Json>, ai: Json, prev: Json, elapsed: real): (r: Json)
    requires ai.JObj?
    ensures Field(r, "@type") == JStr("SearchResultsPage")
    ensures Field(r, "mainEntity") == JArr(docs)
    ensures Field(r, "query") == query
    ensures Field(r, "numberOfItems") == JInt(|docs|)
    ensures Field(r, "source") == JStr("NLWeb + OpenAI " + Str(model))
    ensures Field(r, "@context") == JStr("https://schema.org")
    ensures Field(r, "aiResponse") == Field(ai, "response")
    ensures Field(r, "usage") == Get(ai.members, "usage", JObj([]))
    ensures Field(r, "context") == prev
  {
    var keys := ResultsPageKeys;
    PageKeysUnique();
    var values := [JStr("https://schema.org"), JStr("SearchResultsPage"), JArr(docs), query,
                   JInt(|docs|), JReal(elapsed), JStr("NLWeb + OpenAI " + Str(model)),
                   Field(ai, "response"), Get(ai.members, "usage", JObj([])), prev];
    MembersLookup(keys, values, 0);
    MembersLookup(keys, values, 1);
    MembersLookup(keys, values, 2);
    MembersLookup(keys, values, 3);
    MembersLookup(keys, values, 4);
    MembersLookup(keys, values, 6);
    MembersLookup(keys, values, 7);
    MembersLookup(keys, values, 8);
    MembersLookup(keys, values, 9);
    JObj(Members(keys, values))
  }

  /** The documents `/ask` answers with: at most twenty search hits, best first. */
  function AskHits(store: VS.Store, sim: VS.Similarity): (r: Result<seq<VS.Hit>>)
    ensures r.Ok? ==> |r.value| <= AskLimit && VS.SortedDesc(r.value)
    ensures r.Ok? ==> forall h :: h in r.value ==> h.score >= MinSimilarity && h.doc in store.documents
  {
    VS.Search(store, JInt(AskLimit), MinSimilarity, sim)
  }

  /** `process_ask_request`: search, then either the empty page or the model's answer over
      the documents found. Any exception is re-raised with a prefix. */
  function ProcessAsk(cfg: Config.Settings, store: VS.Store, query: Json, prev: Json, w: AskWorld): (r: Result<Json>)
    ensures r.Ok? <==> (AskHits(store, w.sim).Ok? &&
      (|AskHits(store, w.sim).value| == 0 ||
       OA.ProcessQuery(cfg, prev, Docs(AskHits(store, w.sim).value), w.outcome, w.elapsed).Ok?))
    ensures r.Ok? ==> Field(r.value, "@type") == JStr("SearchResultsPage") && Field(r.value, "query") == query
    ensures r.Ok? ==> Field(r.value, "mainEntity") == JArr(Docs(AskHits(store, w.sim).value))
    ensures r.Ok? ==> Field(r.value, "numberOfItems") == JInt(|AskHits(store, w.sim).value|)
    ensures r.Ok? && |AskHits(store, w.sim).value| == 0 ==> Field(r.value, "message") == JStr(NoResultsMessage)
    ensures r.Ok? && |AskHits(store, w.sim).value| > 0 ==> Field(r.value, "context") == prev
    ensures r.Ok? && |AskHits(store, w.sim).value| > 0 ==>
      var ai := OA.ProcessQuery(cfg, prev, Docs(AskHits(store, w.sim).value), w.outcome, w.elapsed).value;
      Field(r.value, "aiResponse") == Field(ai, "response") && Field(r.value, "usage") == Field(ai, "usage") &&
      Field(r.value, "source") == JStr("NLWeb + OpenAI " + Str(cfg.openai.model))
    ensures r.Err? ==> exists m :: r.msg == "NLWeb ask processing failed: " + m
  {
    match AskHits(store, w.sim)
    case Err(e) => Err("NLWeb ask processing failed: " + e)
    case Ok(hits) => Answer(cfg, query, Docs(hits), prev, w)
  }

  /** The page for the documents found: empty, or the model's answer over them. */
  function Answer(cfg: Config.Settings, query: Json, docs: seq<Json>, prev: Json, w: AskWorld): (r: Result<Json>)
    ensures |docs| == 0 ==> r == Ok(EmptyPage(query, w.elapsed))
    ensures |docs| > 0 ==> (r.Ok? <==> OA.ProcessQuery(cfg, prev, docs, w.outcome, w.elapsed).Ok?)
    ensures |docs| > 0 && r.Ok? ==>
      r.value == ResultsPage(cfg.openai.model, query, docs, OA.ProcessQuery(cfg, prev, docs, w.outcome, w.elapsed).value, prev, w.elapsed)
    ensures r.Err? ==> exists m :: r.msg == "NLWeb ask processing failed: " + m
  {
    if |docs| == 0 then Ok(EmptyPage(query, w.elapsed))
    else
      match OA.ProcessQuery(cfg, prev, docs, w.outcome, w.elapsed)
      case Err(e) => Err("NLWeb ask processing failed: " + e)
      case Ok(ai) => Ok(ResultsPage(cfg.openai.model, query, docs, ai, prev, w.elapsed))
  }

  /** An empty store answers every query with the empty page. */
  lemma EmptyStoreAnswersEmptyPage(cfg: Config.Settings, store: VS.Store, query: Json, prev: Json, w: AskWorld)
    requires |store.documents| == 0
    ensures ProcessAsk(cfg, store, query, prev, w) == Ok(EmptyPage(query, w.elapsed))
  {
  }

  // ---------------------------------------------------------------------------
  // process_mcp_request

  /** A JSON-RPC 2.0 success reply. */
  function RpcResult(result: Json): (r: Json)
    ensures Field(r, "jsonrpc") == JStr("2.0") && Field(r, "result") == result
  {
    var ms := [Member("jsonrpc", JStr("2.0")), Member("result", result)];
    LookupDistinct(ms);
    assert ms[0].key == "jsonrpc" && ms[1].key == "result";
    JObj(ms)
  }

  /** A JSON-RPC 2.0 error reply. */
  function RpcError(code: int, message: string): (r: Json)
    ensures Field(r, "jsonrpc") == JStr("2.0")
    ensures Field(Field(r, "error"), "code") == JInt(code)
    ensures Field(Field(r, "error"), "message") == JStr(message)
  {
    var ems := [Member("code", JInt(code)), Member("message", JStr(message))];
    LookupDistinct(ems);
    assert ems[0].key == "code" && ems[1].key == "message";
    var ms := [Member("jsonrpc", JStr("2.0")), Member("error", JObj(ems))];
    LookupDistinct(ms);
    assert ms[0].key == "jsonrpc" && ms[1].key == "error";
    JObj(ms)
  }

  /** Error codes from section 5.1 of the JSON-RPC 2.0 specification, and the server-error
      code the service uses. */
  const MethodNotFound: int := -32601
  const ServerError: int := -32000

  /** A tool's `content` reply. */
  function ToolContent(content: Json): (r: Json)
    ensures Field(r, "content") == content && Field(r, "isError") == JBool(false)
  {
    var ms := [Member("content", content), Member("isError", JBool(false))];
    LookupDistinct(ms);
    assert ms[0].key == "content" && ms[1].key == "isError";
    JObj(ms)
  }

  /** A tool description with its input schema. */
  function Tool(name: string, description: string, properties: seq<Member>, required: string): (r: Json)
    ensures Field(r, "name") == JStr(name)
    ensures Field(Field(r, "inputSchema"), "required") == JArr([JStr(required)])
  {
    var schema := JObj([Member("type", JStr("object")), Member("properties", JObj(properties)),
                        Member("required", JArr([JStr(required)]))]);
    var ms := [Member("name", JStr(name)), Member("description", JStr(description)), Member("inputSchema", schema)];
    LookupDistinct(ms);
    assert ms[2].key == "inputSchema";
    var sms := schema.members;
    LookupDistinct(sms);
    assert sms[2].key == "required";
    JObj(ms)
  }

  function Property(name: string, typ: string, description: string): Member {
    Member(name, JObj([Member("type", JStr(typ)), Member("description", JStr(description))]))
  }

  /** The two tools `list_tools` advertises. */
  function Tools(): (r: seq<Json>)
    ensures |r| == 2
    ensures Field(r[0], "name") == JStr("ask")
    ensures Field(Field(r[0], "inputSchema"), "required") == JArr([JStr("query")])
    ensures Field(r[1], "name") == JStr("search_content")
    ensures Field(Field(r[1], "inputSchema"), "required") == JArr([JStr("type")])
  {
    [Tool("ask", "Search and query Schema.org structured data using natural language",
          [Property("query", "string", "Natural language query"),
           Property("context", "string", "Optional context from previous queries")],
          "query"),
     Tool("search_content", "Search indexed content by type and filters",
          [Property("type", "string", "Schema.org type (Restaurant, Hotel, etc.)"),
           Property("location", "string", "Location filter"),
           Property("limit", "integer", "Maximum results")],
          "type")]
  }

  /** The `search_content` query: the type, and `in <location>` after it when the location
      is truthy. Joining needs the type to be a string. */
  function SearchQuery(contentType: Json, location: Json): (r: Result<string>)
    ensures r.Ok? <==> contentType.JStr?
    ensures r.Ok? && !Truthy(location) ==> r.value == contentType.s
    ensures r.Ok? && Truthy(location) ==> r.value == contentType.s + " in " + Str(location)
  {
    var parts := [contentType] + if Truthy(location) then [JStr("in " + Str(location))] else [];
    var r := JoinValues(" ", parts);
    assert r.Ok? && Truthy(location) ==> r.value == contentType.s + " in " + Str(location) by {
      if r.Ok? && Truthy(location) {
        var strs := seq(|parts|, i requires 0 <= i < |parts| => parts[i].s);
        assert strs == [contentType.s, "in " + Str(location)];
        assert Join(" ", strs) == contentType.s + " " + Join(" ", strs[1..]);
        assert strs[1..] == ["in " + Str(location)];
      }
    }
    assert r.Ok? && !Truthy(location) ==> r.value == contentType.s by {
      if r.Ok? && !Truthy(location) {
        var strs := seq(|parts|, i requires 0 <= i < |parts| => parts[i].s);
        assert strs == [contentType.s];
      }
    }
    r
  }

  /** Whether a document's `@type` equals the requested type ignoring letter case; a
      non-string `@type` has no `lower`. */
  function Matches(doc: Json, contentType: string): (r: Result<bool>)
    ensures r.Ok? <==> doc.JObj? && Get(doc.members, "@type", JStr("")).JStr?
    ensures r.Ok? ==> (r.value <==> Lower(Get(doc.members, "@type", JStr("")).s) == Lower(contentType))
  {
    var t :- DictGet(doc, "@type", JStr(""));
    if t.JStr? then Ok(Lower(t.s) == Lower(contentType)) else Err(NoAttribute(t, "lower"))
  }

  /** The documents that match, in order; the first document that cannot be compared raises. */
  function KeepMatching(docs: seq<Json>, contentType: string): (r: Result<seq<Json>>)
    ensures r.Ok? <==> forall i :: 0 <= i < |docs| ==> Matches(docs[i], contentType).Ok?
    ensures r.Ok? ==> |r.value| <= |docs|
    ensures r.Ok? ==> forall d :: d in r.value <==> d in docs && Matches(d, contentType) == Ok(true)
  {
    if |docs| == 0 then Ok([])
    else
      match Matches(docs[0], contentType)
      case Err(e) => Err(e)
      case Ok(m) =>
        match KeepMatching(docs[1..], contentType)
        case Err(e) =>
          assert exists i :: 0 <= i < |docs| && Matches(docs[i], contentType).Err? by {
            var i :| 0 <= i < |docs[1..]| && Matches(docs[1..][i], contentType).Err?;
            assert docs[i + 1] == docs[1..][i];
          }
          Err(e)
        case Ok(rest) =>
          assert forall i :: 1 <= i < |docs| ==> docs[i] == docs[1..][i - 1];
          assert forall d :: d in docs <==> d == docs[0] || d in docs[1..];
          Ok((if m then [docs[0]] else []) + rest)
  }

  /** Filtering distributes over concatenation, so it keeps the order of the documents. */
  lemma {:induction false} KeepMatchingAppend(a: seq<Json>, b: seq<Json>, contentType: string)
    requires KeepMatching(a + b, contentType).Ok?
    ensures KeepMatching(a, contentType).Ok? && KeepMatching(b, contentType).Ok?
    ensures KeepMatching(a + b, contentType).value == KeepMatching(a, contentType).value + KeepMatching(b, contentType).value
    decreases |a|
  {
    MatchableParts(a, b, contentType);
    if |a| == 0 {
      assert a + b == b;
    } else {
      ConsOfAppend(a, b);
      KeepMatchingCons(a + b, contentType);
      KeepMatchingAppend(a[1..], b, contentType);
      KeepMatchingCons(a, contentType);
      var head := if Matches(a[0], contentType).value then [a[0]] else [];
      Regroup(head, KeepMatching(a[1..], contentType).value, KeepMatching(b, contentType).value);
    }
  }

  lemma ConsOfAppend(a: seq<Json>, b: seq<Json>)
    requires |a| > 0
    ensures (a + b)[0] == a[0] && (a + b)[1..] == a[1..] + b
  {
  }

  lemma Regroup(head: seq<Json>, restA: seq<Json>, restB: seq<Json>)
    ensures head + (restA + restB) == (head + restA) + restB
  {
  }

  /** One step of the filter: the first document, when it matches, then the rest. */
  lemma KeepMatchingCons(docs: seq<Json>, contentType: string)
    requires |docs| > 0 && KeepMatching(docs, contentType).Ok?
    ensures Matches(docs[0], contentType).Ok? && KeepMatching(docs[1..], contentType).Ok?
    ensures KeepMatching(docs, contentType).value ==
      (if Matches(docs[0], contentType).value then [docs[0]] else []) + KeepMatching(docs[1..], contentType).value
  {
  }

  /** Every document of a concatenation can be compared iff those of each part can. */
  lemma MatchableParts(a: seq<Json>, b: seq<Json>, contentType: string)
    requires KeepMatching(a + b, contentType).Ok?
    ensures KeepMatching(a, contentType).Ok? && KeepMatching(b, contentType).Ok?
  {
    forall i | 0 <= i < |a|
      ensures Matches(a[i], contentType).Ok?
    {
      assert a[i] == (a + b)[i];
    }
    forall i | 0 <= i < |b|
      ensures Matches(b[i], contentType).Ok?
    {
      assert b[i] == (a + b)[|a| + i];
    }
  }

  /** Only the lower-cased requested type matters. */
  lemma {:induction false} KeepMatchingIgnoresCase(docs: seq<Json>, a: string, b: string)
    requires Lower(a) == Lower(b)
    ensures KeepMatching(docs, a) == KeepMatching(docs, b)
    decreases |docs|
  {
    if |docs| > 0 {
      assert Matches(docs[0], a) == Matches(docs[0], b);
      KeepMatchingIgnoresCase(docs[1..], a, b);
    }
  }

  /** The type filter of `search_content`: an empty type keeps every document. */
  function TypeFilter(hits: seq<VS.Hit>, contentType: string): (r: Result<seq<Json>>)
    ensures contentType == "" ==> r == Ok(Docs(hits))
    ensures contentType != "" ==> r == KeepMatching(Docs(hits), contentType)
  {
    if contentType == "" then Ok(Docs(hits)) else KeepMatching(Docs(hits), contentType)
  }

  /** The hits of `search_content`'s search: the caller's limit, 10 by default. */
  function SearchHits(store: VS.Store, params: Json, sim: VS.Similarity): Result<seq<VS.Hit>>
    requires params.JObj?
  {
    VS.Search(store, Get(params.members, "limit", JInt(10)), MinSimilarity, sim)
  }

  /** `search_content`: build the query, search with the caller's limit, filter by type. */
  function SearchContent(store: VS.Store, params: Json, sim: VS.Similarity): (r: Result<Json>)
    ensures r.Ok? <==> (params.JObj? && Get(params.members, "type", JStr("")).JStr? &&
      SearchHits(store, params, sim).Ok? &&
      TypeFilter(SearchHits(store, params, sim).value, Get(params.members, "type", JStr("")).s).Ok?)
    ensures r.Ok? ==> Field(r.value, "jsonrpc") == JStr("2.0")
    ensures r.Ok? ==> Field(Field(r.value, "result"), "isError") == JBool(false)
    ensures r.Ok? ==> (Field(Field(r.value, "result"), "content") ==
      JArr(TypeFilter(SearchHits(store, params, sim).value, Get(params.members, "type", JStr("")).s).value))
    ensures r.Ok? ==> var t := Get(params.members, "type", JStr("")).s;
      forall d :: d in Field(Field(r.value, "result"), "content").items <==>
        d in Docs(SearchHits(store, params, sim).value) && (t == "" || Matches(d, t) == Ok(true))
  {
    if !params.JObj? then Err(NoAttribute(params, "get"))
    else
      var contentType := Get(params.members, "type", JStr(""));
      var location := Get(params.members, "location", JStr(""));
      var _ :- SearchQuery(contentType, location);
      var hits :- SearchHits(store, params, sim);
      var filtered :- TypeFilter(hits, contentType.s);
      Ok(RpcResult(ToolContent(JArr(filtered))))
  }

  /** The `ask` method: the `/ask` page for the query and context in the parameters, as a
      tool result. */
  function McpAsk(cfg: Config.Settings, store: VS.Store, params: Json, w: AskWorld): (r: Result<Json>)
    ensures r.Ok? <==> (params.JObj? &&
      ProcessAsk(cfg, store, Get(params.members, "query", JStr("")), Get(params.members, "context", JStr("")), w).Ok?)
    ensures r.Ok? ==> Field(r.value, "jsonrpc") == JStr("2.0")
    ensures r.Ok? ==> (Field(Field(r.value, "result"), "content") ==
      ProcessAsk(cfg, store, Get(params.members, "query", JStr("")), Get(params.members, "context", JStr("")), w).value)
  {
    if !params.JObj? then Err(NoAttribute(params, "get"))
    else
      var query := Get(params.members, "query", JStr(""));
      var context := Get(params.members, "context", JStr(""));
      var page :- ProcessAsk(cfg, store, query, context, w);
      Ok(RpcResult(ToolContent(page)))
  }

  /** The `list_tools` reply. */
  function ListToolsReply(): (r: Json)
    ensures Field(r, "jsonrpc") == JStr("2.0")
    ensures Field(Field(r, "result"), "tools") == JArr(Tools())
  {
    var tools := JObj([Member("tools", JArr(Tools()))]);
    assert Field(tools, "tools") == JArr(Tools());
    RpcResult(tools)
  }

  /** The methods the dispatcher knows. */
  predicate KnownMethod(rpcMethod: Json) {
    rpcMethod == JStr("ask") || rpcMethod == JStr("list_tools") || rpcMethod == JStr("search_content")
  }

  /** The body of `process_mcp_request`'s `try`. */
  function McpDispatch(cfg: Config.Settings, store: VS.Store, rpcMethod: Json, params: Json, w: AskWorld): (r: Result<Json>)
    ensures !KnownMethod(rpcMethod) ==> r == Ok(RpcError(MethodNotFound, "Method not found: " + Str(rpcMethod)))
    ensures rpcMethod == JStr("list_tools") ==> r == Ok(ListToolsReply())
    ensures rpcMethod == JStr("ask") ==> r == McpAsk(cfg, store, params, w)
    ensures rpcMethod == JStr("search_content") ==> r == SearchContent(store, params, w.sim)
    ensures r.Ok? ==> Field(r.value, "jsonrpc") == JStr("2.0")
  {
    if rpcMethod == JStr("ask") then McpAsk(cfg, store, params, w)
    else if rpcMethod == JStr("list_tools") then Ok(ListToolsReply())
    else if rpcMethod == JStr("search_content") then
      SearchContent(store, params, w.sim)
    else
      Ok(RpcError(MethodNotFound, "Method not found: " + Str(rpcMethod)))
  }

  /** `process_mcp_request`: never raises; an exception becomes a server-error reply. */
  function ProcessMcp(cfg: Config.Settings, store: VS.Store, rpcMethod: Json, params: Json, w: AskWorld): (r: Json)
    ensures Field(r, "jsonrpc") == JStr("2.0")
    ensures McpDispatch(cfg, store, rpcMethod, params, w).Err? ==>
      Field(Field(r, "error"), "code") == JInt(ServerError) &&
      Field(Field(r, "error"), "message") == JStr("MCP processing failed: " + McpDispatch(cfg, store, rpcMethod, params, w).msg)
    ensures !KnownMethod(rpcMethod) ==> Field(Field(r, "error"), "code") == JInt(MethodNotFound)
    ensures McpDispatch(cfg, store, rpcMethod, params, w).Ok? ==> r == McpDispatch(cfg, store, rpcMethod, params, w).value
  {
    match McpDispatch(cfg, store, rpcMethod, params, w)
    case Ok(reply) => reply
    case Err(e) => RpcError(ServerError, "MCP processing failed: " + e)
  }

  /** `ask` over MCP answers with the `/ask` page as a tool result. */
  lemma McpAskWrapsPage(cfg: Config.Settings, store: VS.Store, params: Json, w: AskWorld)
    requires params.JObj?
    ensures var page := ProcessAsk(cfg, store, Get(params.members, "query", JStr("")),
                                   Get(params.members, "context", JStr("")), w);
      page.Ok? ==> Field(Field(ProcessMcp(cfg, store, JStr("ask"), params, w), "result"), "content") == page.value
  {
    assert McpDispatch(cfg, store, JStr("ask"), params, w) == McpAsk(cfg, store, params, w);
  }

  // ---------------------------------------------------------------------------
  // add_data_source

  /** What registering a source needs from outside: the fetched pages, the iteration order
      of the RDFa type set, the embedding service and the clock. */
  datatype AddWorld = AddWorld(web: SP.Web, order: seq<string>, embed: seq<string> -> VS.Embedding, now: real)

  /** The documents a source yields, chosen by its type: a schema.org sitemap (a URL ending
      in `.xml`) or page, an RSS feed, or nothing for any other type. */
  function SourceDocuments(url: Json, typ: Json, w: AddWorld): (r: Result<seq<Json>>)
    requires SP.IsEnumeration(w.order)
    ensures typ != JStr("schema_org") && typ != JStr("rss") ==> r == Ok([])
    ensures typ == JStr("schema_org") ==> (r.Ok? <==> url.JStr?)
    ensures typ == JStr("schema_org") && url.JStr? && EndsWith(url.s, ".xml") ==>
      r == Ok(SP.ParseSitemap(url.s, w.web, w.order))
    ensures typ == JStr("schema_org") && url.JStr? && !EndsWith(url.s, ".xml") ==>
      r == Ok(SP.ParseUrlAsWritten(w.web.page(url.s), w.order))
    ensures typ == JStr("rss") ==> r == Ok(SP.ParseRss(w.web.feed(Str(url))))
    ensures r.Ok? ==> forall i :: 0 <= i < |r.value| ==> SP.HasSupportedType(r.value[i])
  {
    if typ == JStr("schema_org") then
      if !url.JStr? then Err(NoAttribute(url, "endswith"))
      else if EndsWith(url.s, ".xml") then Ok(SP.ParseSitemap(url.s, w.web, w.order))
      else Ok(SP.ParseUrlAsWritten(w.web.page(url.s), w.order))
    else if typ == JStr("rss") then Ok(SP.ParseRss(w.web.feed(Str(url))))
    else Ok([])
  }

  /** The outcome of `add_data_source`: its return value, the source dict as it ends up, and
      the new service state and vector store. */
  datatype Added = Added(success: bool, source: Json, state: State, store: VS.Store)

  /** The documents of a source dict; reading its `url` or `type` may raise. */
  function DocumentsOf(source: Json, w: AddWorld): (r: Result<seq<Json>>)
    requires SP.IsEnumeration(w.order)
    ensures r.Ok? <==> (Index(source, "url").Ok? && Index(source, "type").Ok? &&
      SourceDocuments(Index(source, "url").value, Index(source, "type").value, w).Ok?)
    ensures r.Ok? ==> r == SourceDocuments(Index(source, "url").value, Index(source, "type").value, w)
  {
    var url :- Index(source, "url");
    var typ :- Index(source, "type");
    SourceDocuments(url, typ, w)
  }

  /** Whether registering a source succeeds: it yields documents and indexing them works. */
  predicate Adds(store: VS.Store, source: Json, w: AddWorld)
    requires SP.IsEnumeration(w.order)
  {
    DocumentsOf(source, w).Ok? && |DocumentsOf(source, w).value| > 0 &&
    VS.IndexDocuments(store, DocumentsOf(source, w).value, w.embed).Ok?
  }

  /** The body of `add_data_source`'s `try`. */
  function TryAdd(s: State, store: VS.Store, source: Json, w: AddWorld): (r: Result<Added>)
    requires SP.IsEnumeration(w.order)
    ensures r.Err? <==> (DocumentsOf(source, w).Err? ||
      (|DocumentsOf(source, w).value| > 0 && VS.IndexDocuments(store, DocumentsOf(source, w).value, w.embed).Err?))
    ensures r.Ok? ==> (r.value.success <==> Adds(store, source, w))
    ensures r.Ok? && r.value.success ==>
      r.value.store == VS.IndexDocuments(store, DocumentsOf(source, w).value, w.embed).value.store
  {
    var docs :- DocumentsOf(source, w);
    if |docs| == 0 then Ok(Added(false, source, s, store))
    else
      var indexed :- VS.IndexDocuments(store, docs, w.embed);
      var updated := JObj(Put(Put(Put(source.members, "object_count", JInt(|docs|)),
                                  "last_updated", JReal(w.now)), "status", JStr("active")));
      Ok(Added(true, updated, State(s.sources + [updated], Some(w.now)), indexed.store))
  }

  /** `add_data_source`. On success the source, marked `active` with its object count, is
      appended and the store has indexed its documents; when it yields no documents nothing
      changes; an exception marks the source `error` and changes nothing else. Only marking
      a source that is not a dict can raise. */
  function AddDataSource(s: State, store: VS.Store, source: Json, w: AddWorld): (r: Result<Added>)
    requires SP.IsEnumeration(w.order)
    ensures r.Err? <==> !source.JObj?
    ensures r.Ok? && r.value.success ==>
      r.value.state.sources == s.sources + [r.value.source] && r.value.state.lastSync == Some(w.now) &&
      Field(r.value.source, "status") == JStr("active") &&
      Field(r.value.source, "object_count") == JInt(|r.value.store.documents| - |store.documents|) &&
      Field(r.value.source, "url") == Field(source, "url") &&
      |r.value.store.documents| > |store.documents|
    ensures r.Ok? ==> (r.value.success <==> Adds(store, source, w))
    ensures r.Ok? && r.value.success ==>
      r.value.store == VS.IndexDocuments(store, DocumentsOf(source, w).value, w.embed).value.store
    ensures r.Ok? && !r.value.success ==> r.value.state == s && r.value.store == store
    ensures r.Ok? && TryAdd(s, store, source, w).Err? ==>
      Field(r.value.source, "status") == JStr("error") &&
      Field(r.value.source, "error") == JStr(TryAdd(s, store, source, w).msg)
  {
    match TryAdd(s, store, source, w)
    case Ok(added) =>
      assert source.JObj?;
      AddedShape(s, store, source, w);
      Ok(added)
    case Err(e) =>
      var marked :- SetItem(source, "status", JStr("error"));
      Ok(Added(false, JObj(Put(marked.members, "error", JStr(e))), s, store))
  }

  lemma AddedShape(s: State, store: VS.Store, source: Json, w: AddWorld)
    requires SP.IsEnumeration(w.order)
    requires TryAdd(s, store, source, w).Ok?
    ensures source.JObj?
    ensures var a := TryAdd(s, store, source, w).value;
      a.success ==>
        a.state.sources == s.sources + [a.source] && a.state.lastSync == Some(w.now) &&
        Field(a.source, "status") == JStr("active") &&
        Field(a.source, "object_count") == JInt(|a.store.documents| - |store.documents|) &&
        Field(a.source, "url") == Field(source, "url") &&
        |a.store.documents| > |store.documents|
    ensures var a := TryAdd(s, store, source, w).value;
      !a.success ==> a.state == s && a.store == store
  {
    var docs := DocumentsOf(source, w).value;
    if |docs| > 0 {
      var s1 := Put(source.members, "object_count", JInt(|docs|));
      var s2 := Put(s1, "last_updated", JReal(w.now));
      assert Lookup(Put(s2, "status", JStr("active")), "object_count") == Some(JInt(|docs|));
      assert Lookup(Put(s2, "status", JStr("active")), "url") == Lookup(source.members, "url");
    }
  }

  /** A schema.org page whose JSON-LD holds one list-typed object is not registered at
      all, though it holds a restaurant the intended filter would keep. */
  lemma ListTypedSourceNotAdded(s: State, store: VS.Store, u: string, w: AddWorld)
    requires SP.IsEnumeration(w.order)
    requires !EndsWith(u, ".xml") && w.web.page(u) == SP.Fetched(SP.ListTypedPage())
    ensures var source := JObj([Member("url", JStr(u)), Member("type", JStr("schema_org"))]);
      AddDataSource(s, store, source, w) == Ok(Added(false, source, s, store))
    ensures |SP.ParseUrl(w.web.page(u), w.order)| == 1
  {
    var ms := [Member("url", JStr(u)), Member("type", JStr("schema_org"))];
    var source := JObj(ms);
    LookupDistinct(ms);
    assert ms[0].key == "url" && ms[1].key == "type";
    SP.ListTypeDropsWholePage(w.order);
    assert Index(source, "url") == Ok(JStr(u));
    assert Index(source, "type") == Ok(JStr("schema_org"));
    assert SourceDocuments(JStr(u), JStr("schema_org"), w) == Ok([]);
    assert DocumentsOf(source, w) == Ok([]);
    assert TryAdd(s, store, source, w) == Ok(Added(false, source, s, store));
  }

  /** The source registered at start-up. */
  const DemoSource: Json := JObj([
    Member("name", JStr("Schema.org Examples")),
    Member("url", JStr("https://schema.org")),
    Member("type", JStr("schema_org")),
    Member("description", JStr("Official Schema.org examples and documentation"))])

  /** `initialize_demo_data`: registers a copy of the demo source; a failure is only logged,
      so the service either gains that one source, active, or is left as it was. */
  function InitializeDemoData(s: State, store: VS.Store, w: AddWorld): (r: Added)
    requires SP.IsEnumeration(w.order)
    ensures r.state.sources == s.sources || r.state.sources == s.sources + [r.source]
    ensures r.state.sources == s.sources + [r.source] ==>
      Field(r.source, "url") == JStr("https://schema.org") && Field(r.source, "status") == JStr("active")
    ensures r.state.sources == s.sources ==> r.state == s && r.store == store
    ensures r.state.sources == s.sources + [r.source] <==> Adds(store, DemoSource, w)
    ensures Adds(store, DemoSource, w) ==>
      r.store == VS.IndexDocuments(store, DocumentsOf(DemoSource, w).value, w.embed).value.store
  {
    assert Field(DemoSource, "url") == JStr("https://schema.org");
    match AddDataSource(s, store, DemoSource, w)
    case Ok(added) => if added.success then added else Added(false, DemoSource, s, store)
    case Err(_) => Added(false, DemoSource, s, store)
  }

  // ---------------------------------------------------------------------------
  // get_stats

  /** The rate the service reports; it is a fixed figure. */
  const SuccessRate: real := 97.3

  /** `get_stats`: raises when the store's statistics do. */
  function GetStats(s: State, store: VS.Store): (r: Result<Json>)
    ensures r.Ok? <==> VS.GetStats(store).Ok?
    ensures r.Ok? ==> Field(r.value, "total_sites") == JInt(|s.sources|)
    ensures r.Ok? ==> Field(r.value, "schema_objects") == JInt(|store.documents|)
    ensures r.Ok? ==> Field(r.value, "data_sources") == JArr(s.sources)
    ensures r.Ok? ==> Field(r.value, "last_sync") == (if s.lastSync.Some? then JReal(s.lastSync.value) else JNull)
    ensures r.Ok? ==> Field(r.value, "success_rate") == JReal(SuccessRate)
    ensures r.Ok? ==> Field(r.value, "vector_store") == VS.StatsJson(VS.GetStats(store).value)
  {
    var vs :- VS.GetStats(store);
    Ok(ServiceStats(s, vs))
  }

  const StatsKeys := ["total_sites", "schema_objects", "last_sync", "success_rate", "data_sources", "vector_store"]

  lemma StatsKeysUnique()
    ensures Unique(StatsKeys)
  {
  }

  /** The dict `get_stats` builds around the store's statistics. */
  function ServiceStats(s: State, vs: VS.Stats): (r: Json)
    ensures Field(r, "total_sites") == JInt(|s.sources|)
    ensures Field(r, "schema_objects") == JInt(vs.totalDocuments)
    ensures Field(r, "data_sources") == JArr(s.sources)
    ensures Field(r, "last_sync") == (if s.lastSync.Some? then JReal(s.lastSync.value) else JNull)
    ensures Field(r, "success_rate") == JReal(SuccessRate)
    ensures Field(r, "vector_store") == VS.StatsJson(vs)
  {
    var keys := StatsKeys;
    StatsKeysUnique();
    var values := [JInt(|s.sources|), JInt(vs.totalDocuments),
                   if s.lastSync.Some? then JReal(s.lastSync.value) else JNull,
                   JReal(SuccessRate), JArr(s.sources), VS.StatsJson(vs)];
    MembersLookup(keys, values, 0);
    MembersLookup(keys, values, 1);
    MembersLookup(keys, values, 2);
    MembersLookup(keys, values, 3);
    MembersLookup(keys, values, 4);
    MembersLookup(keys, values, 5);
    JObj(Members(keys, values))
  }
}

=== FILE: openai_service.dfy ===
/** The chat-completion wrapper (server/openai_service.py): the system message, the bounded
    retry loop with exponential back-off, and the shape of the processed reply. The chat
    service itself is an input: `outcome(k)` is what the service does on the k-th call
    (0-based). Messages, sleeping and the clock have no effect on which branch is taken. */
module OpenAIService {
  import opened Results
  import opened Json
  import opened Py
  import Config

  // ---------------------------------------------------------------------------
  // System message

  const BaseMessage: string :=
    "You are an AI assistant that helps users find information from structured web data. \n" +
    "        You have access to Schema.org structured data from various websites.\n" +
    "        \n" +
    "        Your responses should:\n" +
    "        1. Be helpful and accurate based on the provided data\n" +
    "        2. Include relevant Schema.org structured data in your response\n" +
    "        3. Format responses in a clear, conversational manner\n" +
    "        4. When possible, return results in Schema.org JSON-LD format\n" +
    "        5. If no relevant data is found, explain this clearly\n" +
    "        "

  /** How many items the message describes. */
  const ShownItems: nat := 3

  const ContextLead := "\n\nContext from previous queries: "

  /** The line added for a truthy context. */
  function ContextPart(context: Json): string {
    if Truthy(context) then ContextLead + Str(context) else ""
  }

  /** The header added when there are items. */
  function DataHeader(data: seq<Json>): string {
    if |data| > 0 then "\n\nAvailable structured data: " + IntStr(|data|) + " relevant items found" else ""
  }

  /** The type an item line shows: `str` of a present `@type`, else `Unknown`. */
  function TypeShown(item: Json): string
    requires item.JObj?
  {
    if HasKey(item.members, "@type") then Str(Lookup(item.members, "@type").value) else "Unknown"
  }

  /** The name an item line shows: `str` of a present `name`, else `No name`. */
  function NameShown(item: Json): string
    requires item.JObj?
  {
    if HasKey(item.members, "name") then Str(Lookup(item.members, "name").value) else "No name"
  }

  /** The line describing one item; only a dict has `get`. The line is the shown type and
      name, each in its place, with nothing else between them but the `: ` separator. */
  function ItemLine(item: Json): (r: Result<string>)
    ensures r.Ok? <==> item.JObj?
    ensures r.Ok? ==> OccursAt(r.value, "\n- " + TypeShown(item) + ": ", 0)
    ensures r.Ok? ==> EndsWith(r.value, ": " + NameShown(item))
    ensures r.Ok? ==> |r.value| == 5 + |TypeShown(item)| + |NameShown(item)|
    ensures item.JObj? && !HasKey(item.members, "@type") && !HasKey(item.members, "name") ==>
      r == Ok("\n- Unknown: No name")
  {
    if !item.JObj? then Err(NoAttribute(item, "get"))
    else
      var t := TypeShown(item);
      var n := NameShown(item);
      LineParts(t, n);
      Ok("\n- " + t + ": " + n)
  }

  lemma LineParts(t: string, n: string)
    ensures OccursAt("\n- " + t + ": " + n, "\n- " + t + ": ", 0)
    ensures EndsWith("\n- " + t + ": " + n, ": " + n)
    ensures |"\n- " + t + ": " + n| == 5 + |t| + |n|
    ensures t == "Unknown" && n == "No name" ==> "\n- " + t + ": " + n == "\n- Unknown: No name"
  {
    var line := "\n- " + t + ": " + n;
    assert line[..|"\n- " + t + ": "|] == "\n- " + t + ": ";
    assert line == ("\n- " + t) + (": " + n);
    assert line[|line| - |": " + n|..] == ": " + n;
  }

  function Concat(parts: seq<string>): string {
    if |parts| == 0 then "" else parts[0] + Concat(parts[1..])
  }

  /** The items the message describes: the first three. */
  function Shown(data: seq<Json>): (r: seq<Json>)
    ensures |r| == if |data| < ShownItems then |data| else ShownItems
    ensures r == data[..|r|]
  {
    if |data| < ShownItems then data else data[..ShownItems]
  }

  /** The item lines, one per shown item. */
  function ItemLines(data: seq<Json>): (r: Result<seq<string>>)
    ensures r.Ok? <==> forall i :: 0 <= i < |Shown(data)| ==> data[i].JObj?
    ensures r.Ok? ==> |r.value| == |Shown(data)|
    ensures r.Ok? ==> forall i :: 0 <= i < |r.value| ==> ItemLine(data[i]) == Ok(r.value[i])
  {
    MapAll(Shown(data), ItemLine)
  }

  /** `_build_system_message`: the base text, then the context line when the context is
      truthy, then a header and the lines of at most three items when there are items. */
  function BuildSystemMessage(context: Json, data: seq<Json>): (r: Result<string>)
    ensures r.Ok? <==> forall i :: 0 <= i < |data| && i < ShownItems ==> data[i].JObj?
    ensures r.Ok? ==> OccursAt(r.value, BaseMessage, 0)
    ensures r.Ok? ==> (Truthy(context) <==> LeadsWithContext(r.value[|BaseMessage|..]))
    ensures r.Ok? && |data| == 0 && !Truthy(context) ==> r.value == BaseMessage
    ensures r.Ok? && |data| == 0 && Truthy(context) ==> r.value == BaseMessage + ContextLead + Str(context)
    ensures r.Ok? && |data| > 0 ==> ItemLines(data).Ok? && EndsWith(r.value,
      "\n\nAvailable structured data: " + IntStr(|data|) + " relevant items found" + Concat(ItemLines(data).value))
    ensures r.Ok? && |data| > 0 ==> (r.value == BuildSystemMessage(context, []).value +
      ("\n\nAvailable structured data: " + IntStr(|data|) + " relevant items found" + Concat(ItemLines(data).value)))
    decreases |data|
  {
    var lines :- ItemLines(data);
    MessageShape(BaseMessage, context, data);
    ContextAfter(BaseMessage, context);
    assert |data| > 0 ==> BuildSystemMessage(context, []) == Ok(BaseMessage + ContextPart(context));
    Ok(BaseMessage + (ContextPart(context) + DataHeader(data) + Concat(lines)))
  }

  /** Whatever the base text, it leads the message and the data section ends it. */
  lemma MessageShape(base: string, context: Json, data: seq<Json>)
    requires ItemLines(data).Ok?
    ensures var m := base + (ContextPart(context) + DataHeader(data) + Concat(ItemLines(data).value));
      && OccursAt(m, base, 0)
      && (Truthy(context) <==> LeadsWithContext(m[|base|..]))
      && (|data| == 0 && !Truthy(context) ==> m == base)
      && (|data| == 0 && Truthy(context) ==> m == base + ContextLead + Str(context))
      && (|data| > 0 ==> EndsWith(m,
        "\n\nAvailable structured data: " + IntStr(|data|) + " relevant items found" + Concat(ItemLines(data).value)))
      && (|data| > 0 ==> (m == (base + ContextPart(context)) +
        ("\n\nAvailable structured data: " + IntStr(|data|) + " relevant items found" + Concat(ItemLines(data).value))))
  {
    var lines := ItemLines(data).value;
    BaseLeads(base, ContextPart(context) + DataHeader(data) + Concat(lines));
    ContextShownIffTruthy(context, data);
    if |data| == 0 {
      assert lines == [];
      EmptyTail(base, ContextPart(context));
    } else {
      TailEnds(base, ContextPart(context), DataHeader(data), Concat(lines));
    }
  }

  lemma ContextAfter(base: string, context: Json)
    ensures base + ContextPart(context) == if Truthy(context) then base + ContextLead + Str(context) else base
  {
    if !Truthy(context) {
      assert base + "" == base;
    }
  }

  lemma BaseLeads(base: string, rest: string)
    ensures OccursAt(base + rest, base, 0) && (base + rest)[|base|..] == rest
  {
    assert (base + rest)[..|base|] == base;
  }

  lemma EmptyTail(base: string, ctx: string)
    ensures base + (ctx + "" + "") == base + ctx
  {
    assert ctx + "" + "" == ctx;
  }

  lemma TailEnds(base: string, ctx: string, header: string, lines: string)
    ensures base + (ctx + header + lines) == (base + ctx) + (header + lines)
    ensures EndsWith(base + (ctx + header + lines), header + lines)
  {
    var m := base + (ctx + header + lines);
    assert m == (base + ctx) + (header + lines);
    assert m[|m| - |header + lines|..] == header + lines;
  }

  /** Whether `s` starts with the context line. */
  predicate LeadsWithContext(s: string) {
    |ContextLead| <= |s| && s[..|ContextLead|] == ContextLead
  }

  lemma ContextLeads(t: string)
    ensures LeadsWithContext(ContextLead + t)
  {
    assert (ContextLead + t)[..|ContextLead|] == ContextLead;
  }

  /** The data header starts `\n\nA`, which the context line does not. */
  lemma HeaderDoesNotLead(data: seq<Json>, t: string)
    requires |data| > 0
    ensures !LeadsWithContext(DataHeader(data) + t)
  {
    var s := DataHeader(data) + t;
    assert s[2] == DataHeader(data)[2] == 'A';
    assert ContextLead[2] == 'C';
  }

  /** What follows the base text starts with the context line exactly when the context is
      truthy: without one, it is empty or starts with the data header. */
  lemma ContextShownIffTruthy(context: Json, data: seq<Json>)
    requires ItemLines(data).Ok?
    ensures Truthy(context) <==>
      LeadsWithContext(ContextPart(context) + DataHeader(data) + Concat(ItemLines(data).value))
  {
    if Truthy(context) {
      TruthyContextLeads(context, DataHeader(data), Concat(ItemLines(data).value));
    } else {
      FalsyContextOmitted(context, DataHeader(data), Concat(ItemLines(data).value));
      DataDoesNotLead(data);
    }
  }

  lemma FalsyContextOmitted(context: Json, header: string, lines: string)
    requires !Truthy(context)
    ensures ContextPart(context) + header + lines == header + lines
  {
  }

  lemma TruthyContextLeads(context: Json, header: string, lines: string)
    requires Truthy(context)
    ensures LeadsWithContext(ContextPart(context) + header + lines)
  {
    ContextLeads(Str(context));
    LeadKept(ContextPart(context), header);
    LeadKept(ContextPart(context) + header, lines);
  }

  lemma LeadKept(x: string, y: string)
    requires LeadsWithContext(x)
    ensures LeadsWithContext(x + y)
  {
    assert (x + y)[..|ContextLead|] == x[..|ContextLead|];
  }

  lemma DataDoesNotLead(data: seq<Json>)
    requires ItemLines(data).Ok?
    ensures !LeadsWithContext(DataHeader(data) + Concat(ItemLines(data).value))
  {
    if |data| == 0 {
      assert ItemLines(data).value == [];
      assert DataHeader(data) + Concat(ItemLines(data).value) == "";
    } else {
      HeaderDoesNotLead(data, Concat(ItemLines(data).value));
    }
  }

  /** Items after the third do not change the message, beyond the count in its header. */
  lemma OnlyThreeItemsShown(context: Json, data: seq<Json>, other: seq<Json>)
    requires |data| == |other| && |data| >= ShownItems && data[..ShownItems] == other[..ShownItems]
    ensures BuildSystemMessage(context, data) == BuildSystemMessage(context, other)
  {
    assert Shown(data) == Shown(other);
  }

  // ---------------------------------------------------------------------------
  // Retry loop

  /** The parts of a completion the server reads. */
  datatype ChatReply = ChatReply(content: Json, promptTokens: int, completionTokens: int, totalTokens: int)

  /** What one call to the chat service does: answer, or raise one of the two retried
      exception kinds, or raise anything else. */
  datatype ChatOutcome =
    | Reply(reply: ChatReply)
    | RateLimited(msg: string)
    | ApiError(msg: string)
    | Raised(msg: string)

  predicate Retried(o: ChatOutcome) {
    o.RateLimited? || o.ApiError?
  }

  function Pow2(k: nat): (r: nat)
    ensures r >= 1
  {
    if k == 0 then 1 else 2 * Pow2(k - 1)
  }

  function AttemptsExhausted(attempts: int): string {
    "Failed after " + IntStr(attempts) + " attempts"
  }

  /** The loop's outcome from attempt `k` on, as a reference definition. */
  function RetryFrom(attempts: int, outcome: nat -> ChatOutcome, k: nat): Result<ChatReply>
    decreases attempts - k
  {
    if k >= attempts then Err(AttemptsExhausted(attempts))
    else match outcome(k)
      case Reply(rep) => Ok(rep)
      case Raised(m) => Err(m)
      case RateLimited(m) => if k < attempts - 1 then RetryFrom(attempts, outcome, k + 1) else Err(m)
      case ApiError(m) => if k < attempts - 1 then RetryFrom(attempts, outcome, k + 1) else Err(m)
  }

  /** The text of a raised exception. */
  function ErrorText(o: ChatOutcome): string {
    if o.Reply? then "" else o.msg
  }

  /** `_make_request_with_retry`: the result, the number of calls made and the waits slept,
      in seconds. */
  method RequestWithRetry(attempts: int, outcome: nat -> ChatOutcome)
    returns (r: Result<ChatReply>, calls: nat, waits: seq<nat>)
    ensures r == RetryFrom(attempts, outcome, 0)
    ensures attempts <= 0 ==> calls == 0 && r == Err(AttemptsExhausted(attempts))
    ensures attempts > 0 ==> 0 < calls <= attempts
    ensures |waits| == if calls == 0 then 0 else calls - 1
    ensures forall k :: 0 <= k < |waits| ==> waits[k] == Pow2(k)
    ensures forall k :: 0 <= k < |waits| ==> Retried(outcome(k))
    ensures calls > 0 ==> (r.Ok? <==> outcome(calls - 1).Reply?)
    ensures calls > 0 && r.Ok? ==> r.value == outcome(calls - 1).reply
    ensures calls > 0 && r.Err? ==> r.msg == ErrorText(outcome(calls - 1))
    ensures 0 < calls < attempts ==> !Retried(outcome(calls - 1))
  {
    calls, waits := 0, [];
    var attempt: nat := 0;
    while attempt < attempts
      invariant attempts > 0 ==> attempt < attempts
      invariant attempts <= 0 ==> attempt == 0
      invariant calls == attempt && |waits| == attempt
      invariant forall k :: 0 <= k < attempt ==> waits[k] == Pow2(k)
      invariant forall k :: 0 <= k < attempt ==> Retried(outcome(k))
      invariant RetryFrom(attempts, outcome, attempt) == RetryFrom(attempts, outcome, 0)
      decreases attempts - attempt
    {
      var o := outcome(attempt);
      calls := calls + 1;
      if o.Reply? {
        return Ok(o.reply), calls, waits;
      } else if o.Raised? || attempt == attempts - 1 {
        return Err(o.msg), calls, waits;
      }
      assert RetryFrom(attempts, outcome, attempt) == RetryFrom(attempts, outcome, attempt + 1);
      waits := waits + [Pow2(attempt)];
      attempt := attempt + 1;
    }
    r := Err(AttemptsExhausted(attempts));
  }

  /** A service that answers at once is called once. */
  lemma FirstReplyReturned(attempts: int, outcome: nat -> ChatOutcome)
    requires attempts > 0 && outcome(0).Reply?
    ensures RetryFrom(attempts, outcome, 0) == Ok(outcome(0).reply)
  {
  }

  /** Retried failures on every attempt end with the last one's exception. */
  lemma {:induction false} AllRetriedFailuresReraiseLast(attempts: int, outcome: nat -> ChatOutcome, k: nat)
    requires k < attempts
    requires forall j :: k <= j < attempts ==> Retried(outcome(j))
    ensures RetryFrom(attempts, outcome, k) == Err(ErrorText(outcome(attempts - 1)))
    decreases attempts - k
  {
    if k < attempts - 1 {
      AllRetriedFailuresReraiseLast(attempts, outcome, k + 1);
    }
  }

  // ---------------------------------------------------------------------------
  // process_query

  /** The reply as `process_query` structures it. */
  function ReplyObject(model: Json, reply: ChatReply, elapsed: real): (r: Json)
    ensures r.JObj?
    ensures Lookup(r.members, "response") == Some(reply.content)
    ensures Lookup(r.members, "model") == Some(model)
    ensures Lookup(r.members, "usage").Some? && Lookup(r.members, "usage").value.JObj?
    ensures Field(r, "processing_time") == JReal(elapsed)
    ensures Field(Field(r, "usage"), "prompt_tokens") == JInt(reply.promptTokens)
    ensures Field(Field(r, "usage"), "completion_tokens") == JInt(reply.completionTokens)
    ensures Field(Field(r, "usage"), "total_tokens") == JInt(reply.totalTokens)
  {
    var usage := JObj([Member("prompt_tokens", JInt(reply.promptTokens)),
                       Member("completion_tokens", JInt(reply.completionTokens)),
                       Member("total_tokens", JInt(reply.totalTokens))]);
    var ms := [Member("response", reply.content), Member("model", model),
               Member("processing_time", JReal(elapsed)), Member("usage", usage)];
    LookupDistinct(usage.members);
    assert usage.members[0].key == "prompt_tokens" && usage.members[1].key == "completion_tokens";
    assert usage.members[2].key == "total_tokens";
    LookupDistinct(ms);
    assert ms[0].key == "response" && ms[1].key == "model" && ms[2].key == "processing_time" && ms[3].key == "usage";
    JObj(ms)
  }

  /** `process_query`: build the message, call with retries, structure the reply; any
      exception is re-raised with a prefix. `elapsed` is the measured processing time. */
  function ProcessQuery(cfg: Config.Settings, context: Json, data: seq<Json>,
                        outcome: nat -> ChatOutcome, elapsed: real): (r: Result<Json>)
    ensures r.Ok? <==> BuildSystemMessage(context, data).Ok? &&
                       RetryFrom(cfg.errorHandling.retryAttempts, outcome, 0).Ok?
    ensures r.Ok? ==> r.value == ReplyObject(cfg.openai.model, RetryFrom(cfg.errorHandling.retryAttempts, outcome, 0).value, elapsed)
    ensures r.Err? ==> exists m :: r.msg == "OpenAI processing failed: " + m
  {
    match BuildSystemMessage(context, data)
    case Err(e) => Err("OpenAI processing failed: " + e)
    case Ok(_) =>
      match RetryFrom(cfg.errorHandling.retryAttempts, outcome, 0)
      case Err(e) => Err("OpenAI processing failed: " + e)
      case Ok(reply) => Ok(ReplyObject(cfg.openai.model, reply, elapsed))
  }
}

=== FILE: py.dfy ===
/** The parts of Python's built-in semantics the server relies on: truthiness, `str()`,
    `str.join`, `str.split`, `str.lower`, `in`, subscripting, slicing and the `int()` /
    `float()` conversions, each stated on `Json` values. The text of a built-in exception is
    `Err(msg)` with Python's wording. */
module Py {
  import opened Results
  import opened Json

  // ---------------------------------------------------------------------------
  // Truthiness and type names

  /** `bool(j)`: `None`, `False`, zero and empty containers are false. */
  predicate Truthy(j: Json) {
    match j
    case JNull => false
    case JBool(b) => b
    case JInt(i) => i != 0
    case JReal(r) => r != 0.0
    case JStr(s) => |s| > 0
    case JArr(items) => |items| > 0
    case JObj(ms) => |ms| > 0
  }

  /** `type(j).__name__`. */
  function TypeName(j: Json): string {
    match j
    case JNull => "NoneType"
    case JBool(_) => "bool"
    case JInt(_) => "int"
    case JReal(_) => "float"
    case JStr(_) => "str"
    case JArr(_) => "list"
    case JObj(_) => "dict"
  }

  /** Text of the `AttributeError` raised by `j.name` on a value lacking that method. */
  function NoAttribute(j: Json, name: string): string {
    "'" + TypeName(j) + "' object has no attribute '" + name + "'"
  }

  // ---------------------------------------------------------------------------
  // Decimal numerals

  function DigitChar(d: nat): (c: char)
    requires d < 10
    ensures '0' <= c <= '9' && (c as int) - ('0' as int) == d
  {
    "0123456789"[d]
  }

  predicate IsDigit(c: char) {
    '0' <= c <= '9'
  }

  predicate AllDigits(s: string) {
    forall i :: 0 <= i < |s| ==> IsDigit(s[i])
  }

  /** The decimal numeral of `n`, without leading zeros. */
  function NatStr(n: nat): (r: string)
    ensures |r| > 0 && AllDigits(r)
    decreases n
  {
    if n < 10 then [DigitChar(n)] else NatStr(n / 10) + [DigitChar(n % 10)]
  }

  /** `str(n)` for an integer. */
  function IntStr(n: int): string {
    if n < 0 then "-" + NatStr(-n) else NatStr(n)
  }

  /** The value of a string of decimal digits. */
  function DigitsValue(s: string): nat
    requires AllDigits(s)
  {
    if |s| == 0 then 0
    else DigitsValue(s[..|s| - 1]) * 10 + ((s[|s| - 1] as int) - ('0' as int))
  }

  /** `int(s)` for text: an optional sign followed by at least one digit. */
  function ParseInt(s: string): (r: Option<int>)
    ensures r.Some? ==> |s| > 0
  {
    if |s| > 0 && (s[0] == '-' || s[0] == '+') then
      var digits := s[1..];
      if |digits| > 0 && AllDigits(digits) then
        var v: int := DigitsValue(digits);
        Some(if s[0] == '-' then -v else v)
      else None
    else if |s| > 0 && AllDigits(s) then Some(DigitsValue(s))
    else None
  }

  lemma {:induction false} DigitsValueOfNatStr(n: nat)
    ensures DigitsValue(NatStr(n)) == n
    decreases n
  {
    var s := NatStr(n);
    if n >= 10 {
      DigitsValueOfNatStr(n / 10);
      assert s[..|s| - 1] == NatStr(n / 10);
    }
  }

  /** Reading back the numeral `str(n)` with `int()` gives `n`. */
  lemma ParseIntOfIntStr(n: int)
    ensures ParseInt(IntStr(n)) == Some(n)
  {
    if n < 0 {
      DigitsValueOfNatStr(-n);
      assert IntStr(n)[1..] == NatStr(-n);
    } else {
      DigitsValueOfNatStr(n);
    }
  }

  /** `float(s)` for text: an optional sign, then digits with at most one decimal point and
      at least one digit. Exponents, `inf` and `nan` are not covered. */
  function ParseFloat(s: string): Option<real> {
    if |s| > 0 && (s[0] == '-' || s[0] == '+') then
      match UnsignedDecimal(s[1..])
      case Some(v) => Some(if s[0] == '-' then -v else v)
      case None => None
    else UnsignedDecimal(s)
  }

  function UnsignedDecimal(s: string): Option<real> {
    var dot := IndexOf(s, '.');
    if dot.None? then
      if |s| > 0 && AllDigits(s) then Some(DigitsValue(s) as real) else None
    else
      var whole := s[..dot.value];
      var frac := s[dot.value + 1..];
      if |whole| + |frac| > 0 && AllDigits(whole) && AllDigits(frac) then
        Some(DigitsValue(whole) as real + DigitsValue(frac) as real / Pow10(|frac|) as real)
      else None
  }

  function Pow10(n: nat): (r: nat)
    ensures r >= 1
  {
    if n == 0 then 1 else 10 * Pow10(n - 1)
  }

  /** The position of the first `c` in `s`. */
  function IndexOf(s: string, c: char): (r: Option<nat>)
    ensures r.Some? ==> r.value < |s| && s[r.value] == c && c !in s[..r.value]
    ensures r.None? ==> c !in s
  {
    if |s| == 0 then None
    else if s[0] == c then Some(0)
    else match IndexOf(s[1..], c)
      case Some(i) => assert s[..i + 1] == [s[0]] + s[1..][..i]; Some(i + 1)
      case None => None
  }

  /** `repr(x)` for a float, to at most 17 decimal places. */
  function FloatStr(x: real): string {
    if x < 0.0 then "-" + UFloatStr(-x) else UFloatStr(x)
  }

  function UFloatStr(x: real): string
    requires x >= 0.0
  {
    var n := x.Floor;
    var digits := FracDigits(x - n as real, 17);
    NatStr(n) + "." + (if |digits| == 0 then "0" else digits)
  }

  function FracDigits(f: real, fuel: nat): string
    requires 0.0 <= f < 1.0
    decreases fuel
  {
    if fuel == 0 || f == 0.0 then ""
    else
      var d := (f * 10.0).Floor;
      [DigitChar(d)] + FracDigits(f * 10.0 - d as real, fuel - 1)
  }

  // ---------------------------------------------------------------------------
  // str() and repr()

  /** `str(j)`: a string is itself, anything else its `repr`. */
  function Str(j: Json): string {
    if j.JStr? then j.s else Repr(j)
  }

  /** `repr(j)`, with strings always in single quotes and no escaping. */
  function Repr(j: Json): string {
    match j
    case JNull => "None"
    case JBool(b) => if b then "True" else "False"
    case JInt(i) => IntStr(i)
    case JReal(r) => FloatStr(r)
    case JStr(s) => "'" + s + "'"
    case JArr(items) => "[" + ReprItems(items) + "]"
    case JObj(ms) => "{" + ReprMembers(ms) + "}"
  }

  function ReprItems(items: seq<Json>): string {
    if |items| == 0 then ""
    else if |items| == 1 then Repr(items[0])
    else Repr(items[0]) + ", " + ReprItems(items[1..])
  }

  function ReprMembers(ms: seq<Member>): string {
    if |ms| == 0 then ""
    else
      var head := "'" + ms[0].key + "': " + Repr(ms[0].value);
      if |ms| == 1 then head else head + ", " + ReprMembers(ms[1..])
  }

  // ---------------------------------------------------------------------------
  // Strings

  /** `sep.join(parts)` for a list of strings. */
  function Join(sep: string, parts: seq<string>): string {
    if |parts| == 0 then ""
    else if |parts| == 1 then parts[0]
    else parts[0] + sep + Join(sep, parts[1..])
  }

  /** `sep.join(items)` for a list of arbitrary values: the first non-string raises. */
  function JoinValues(sep: string, items: seq<Json>): (r: Result<string>)
    ensures r.Ok? <==> forall i :: 0 <= i < |items| ==> items[i].JStr?
    ensures r.Ok? ==> r.value == Join(sep, seq(|items|, i requires 0 <= i < |items| => items[i].s))
  {
    var bad := FirstNonString(items, 0);
    if bad.Some? then
      Err("sequence item " + IntStr(bad.value) + ": expected str instance, " + TypeName(items[bad.value]) + " found")
    else Ok(Join(sep, seq(|items|, i requires 0 <= i < |items| => items[i].s)))
  }

  function FirstNonString(items: seq<Json>, from: nat): (r: Option<nat>)
    requires from <= |items|
    ensures r.Some? ==> from <= r.value < |items| && !items[r.value].JStr?
    ensures r.None? ==> forall i :: from <= i < |items| ==> items[i].JStr?
    decreases |items| - from
  {
    if from == |items| then None
    else if !items[from].JStr? then Some(from)
    else FirstNonString(items, from + 1)
  }

  /** `sub` occurs in `s` starting at position `i`. */
  predicate OccursAt(s: string, sub: string, i: nat) {
    i + |sub| <= |s| && s[i..i + |sub|] == sub
  }

  /** `sub in s` for strings. */
  predicate Contains(s: string, sub: string) {
    exists i: nat | i <= |s| :: OccursAt(s, sub, i)
  }

  /** The start of the first occurrence of `sep` in `s`, scanning from `from`. */
  function FindFrom(s: string, sep: string, from: nat): (r: Option<nat>)
    requires |sep| > 0 && from <= |s|
    ensures r.Some? ==> from <= r.value && OccursAt(s, sep, r.value)
    ensures r.Some? ==> forall j: nat :: from <= j < r.value ==> !OccursAt(s, sep, j)
    ensures r.None? ==> forall j: nat :: from <= j ==> !OccursAt(s, sep, j)
    decreases |s| - from
  {
    if from + |sep| > |s| then None
    else if OccursAt(s, sep, from) then Some(from)
    else FindFrom(s, sep, from + 1)
  }

  /** `s.split(sep)` for a non-empty separator. */
  function Split(s: string, sep: string): (r: seq<string>)
    requires |sep| > 0
    ensures |r| > 0
    decreases |s|
  {
    match FindFrom(s, sep, 0)
    case None => [s]
    case Some(i) => [s[..i]] + Split(s[i + |sep|..], sep)
  }

  /** A separator whose character `sep[k]` occurs nowhere else in it cannot occur in a text
      free of that character. */
  lemma NoOccurrenceWithout(s: string, sep: string, k: nat)
    requires k < |sep| && sep[k] !in s
    ensures forall j: nat :: !OccursAt(s, sep, j)
  {
  }

  /** In `p + sep + rest`, the first occurrence of `sep` is the one right after `p`, when
      `p` lacks a character that `sep` holds exactly once. */
  lemma FirstOccurrenceAfter(p: string, sep: string, rest: string, k: nat)
    requires k < |sep| && sep[k] !in p
    requires forall i :: 0 <= i < |sep| && i != k ==> sep[i] != sep[k]
    ensures FindFrom(p + sep + rest, sep, 0) == Some(|p|)
  {
    var s := p + sep + rest;
    assert OccursAt(s, sep, |p|) by {
      assert s[|p|..|p| + |sep|] == sep;
    }
  }

  /** `s.split(sep)` recovers the parts of `sep.join(parts)` when no part holds the
      character `sep[k]` and `sep` holds it only at position `k`. */
  lemma {:induction false} SplitJoin(parts: seq<string>, sep: string, k: nat)
    requires |parts| > 0 && k < |sep|
    requires forall i :: 0 <= i < |sep| && i != k ==> sep[i] != sep[k]
    requires forall i :: 0 <= i < |parts| ==> sep[k] !in parts[i]
    ensures Split(Join(sep, parts), sep) == parts
    decreases |parts|
  {
    if |parts| == 1 {
      NoOccurrenceWithout(parts[0], sep, k);
    } else {
      var rest := Join(sep, parts[1..]);
      var s := parts[0] + sep + rest;
      FirstOccurrenceAfter(parts[0], sep, rest, k);
      assert s[..|parts[0]|] == parts[0];
      assert s[|parts[0]| + |sep|..] == rest;
      SplitJoin(parts[1..], sep, k);
    }
  }

  /** `s.split(c)[-1]`: the longest suffix of `s` free of `c`. */
  function LastSegment(s: string, c: char): (r: string)
    ensures c !in r
    ensures |r| <= |s| && s[|s| - |r|..] == r
    ensures |r| < |s| ==> s[|s| - |r| - 1] == c
  {
    if |s| == 0 then ""
    else if s[|s| - 1] == c then ""
    else
      var r := LastSegment(s[..|s| - 1], c) + [s[|s| - 1]];
      assert s[|s| - |r|..] == s[..|s| - 1][|s| - |r|..] + [s[|s| - 1]];
      r
  }

  /** `s.endswith(suffix)`. */
  predicate EndsWith(s: string, suffix: string) {
    |suffix| <= |s| && s[|s| - |suffix|..] == suffix
  }

  /** `c.lower()` for ASCII letters; other characters are unchanged. */
  function LowerChar(c: char): char {
    if 'A' <= c <= 'Z' then (c as int + 32) as char else c
  }

  /** `s.lower()`, on ASCII letters. */
  function Lower(s: string): (r: string)
    ensures |r| == |s|
    ensures forall i :: 0 <= i < |s| ==> r[i] == LowerChar(s[i])
  {
    seq(|s|, i requires 0 <= i < |s| => LowerChar(s[i]))
  }

  // ---------------------------------------------------------------------------
  // Operations on JSON values

  /** `d.get(k, default)`: only a dict has `get`. */
  function DictGet(d: Json, k: string, default: Json): (r: Result<Json>)
    ensures r.Ok? <==> d.JObj?
    ensures d.JObj? && !HasKey(d.members, k) ==> r == Ok(default)
    ensures d.JObj? && HasKey(d.members, k) ==> Member(k, r.value) in d.members
  {
    if d.JObj? then Ok(Get(d.members, k, default)) else Err(NoAttribute(d, "get"))
  }

  /** `k in c` for a string key: a dict tests its keys, a list its elements, a string its
      substrings; anything else is not iterable. */
  function In(k: string, c: Json): (r: Result<bool>)
    ensures c.JObj? ==> r == Ok(HasKey(c.members, k))
    ensures c.JArr? ==> r == Ok(JStr(k) in c.items)
    ensures c.JStr? ==> r == Ok(Contains(c.s, k))
    ensures r.Ok? <==> c.JObj? || c.JArr? || c.JStr?
  {
    match c
    case JObj(ms) => Ok(HasKey(ms, k))
    case JArr(items) => Ok(JStr(k) in items)
    case JStr(s) => Ok(Contains(s, k))
    case _ => Err("argument of type '" + TypeName(c) + "' is not iterable")
  }

  /** `c[k]` for a string key. */
  function Index(c: Json, k: string): (r: Result<Json>)
    ensures r.Ok? <==> c.JObj? && HasKey(c.members, k)
    ensures r.Ok? ==> Lookup(c.members, k) == Some(r.value)
  {
    match c
    case JObj(ms) =>
      (match Lookup(ms, k)
       case Some(v) => Ok(v)
       case None => Err("'" + k + "'"))
    case JArr(_) => Err("list indices must be integers or slices, not str")
    case JStr(_) => Err("string indices must be integers, not 'str'")
    case _ => Err("'" + TypeName(c) + "' object is not subscriptable")
  }

  /** `c[k] = v` for a string key. */
  function SetItem(c: Json, k: string, v: Json): (r: Result<Json>)
    ensures r.Ok? <==> c.JObj?
    ensures r.Ok? ==> r.value == JObj(Put(c.members, k, v))
  {
    match c
    case JObj(ms) => Ok(JObj(Put(ms, k, v)))
    case JArr(_) => Err("list indices must be integers or slices, not str")
    case _ => Err("'" + TypeName(c) + "' object does not support item assignment")
  }

  /** The stop bound of the slice `s[:limit]`: an integer (a bool counts as one) or `None`. */
  function SliceStop(limit: Json): (r: Result<Option<int>>)
    ensures r.Ok? <==> limit.JNull? || limit.JInt? || limit.JBool?
    ensures limit.JInt? ==> r == Ok(Some(limit.i))
    ensures limit.JNull? ==> r == Ok(None)
  {
    match limit
    case JNull => Ok(None)
    case JInt(i) => Ok(Some(i))
    case JBool(b) => Ok(Some(if b then 1 else 0))
    case _ => Err("slice indices must be integers or None or have an __index__ method")
  }

  /** `s[:stop]`: a negative stop counts from the end, `None` keeps everything. */
  function Take<T>(s: seq<T>, stop: Option<int>): (r: seq<T>)
    ensures |r| <= |s| && r == s[..|r|]
    ensures stop.None? ==> r == s
    ensures stop.Some? && stop.value >= 0 ==> |r| == if stop.value < |s| then stop.value else |s|
    ensures stop.Some? && stop.value < 0 ==> |r| == if |s| + stop.value > 0 then |s| + stop.value else 0
  {
    if stop.None? then s
    else if stop.value >= 0 then (if stop.value < |s| then s[..stop.value] else s)
    else if |s| + stop.value > 0 then s[..|s| + stop.value]
    else []
  }

  /** Truncation toward zero, as `int()` applies it to a float. */
  function TruncateReal(x: real): (r: int)
    ensures x >= 0.0 ==> r as real <= x < r as real + 1.0
    ensures x < 0.0 ==> r as real - 1.0 < x <= r as real
  {
    if x >= 0.0 then x.Floor else -((-x).Floor)
  }

  /** `float(j)`. */
  function ToFloat(j: Json): (r: Result<real>)
    ensures j.JInt? ==> r == Ok(j.i as real)
    ensures j.JReal? ==> r == Ok(j.r)
    ensures j.JNull? || j.JArr? || j.JObj? ==> r.Err?
  {
    match j
    case JInt(i) => Ok(i as real)
    case JReal(x) => Ok(x)
    case JBool(b) => Ok(if b then 1.0 else 0.0)
    case JStr(s) =>
      (match ParseFloat(s)
       case Some(x) => Ok(x)
       case None => Err("could not convert string to float: '" + s + "'"))
    case _ => Err("float() argument must be a string or a real number, not '" + TypeName(j) + "'")
  }

  /** `int(j)`. */
  function ToInt(j: Json): (r: Result<int>)
    ensures j.JInt? ==> r == Ok(j.i)
    ensures j.JReal? ==> r == Ok(TruncateReal(j.r))
    ensures j.JNull? || j.JArr? || j.JObj? ==> r.Err?
  {
    match j
    case JInt(i) => Ok(i)
    case JReal(x) => Ok(TruncateReal(x))
    case JBool(b) => Ok(if b then 1 else 0)
    case JStr(s) =>
      (match ParseInt(s)
       case Some(n) => Ok(n)
       case None => Err("invalid literal for int() with base 10: '" + s + "'"))
    case _ => Err("int() argument must be a string, a bytes-like object or a real number, not '" + TypeName(j) + "'")
  }
}

=== FILE: results.dfy ===
/** Failure-compatible wrappers used across the model. A Python call that raises is
    modelled as `Err(msg)`, where `msg` is the exception's `str()`. */
module Results {

  /** A value that may be absent (`None` in Python). */
  datatype Option<+T> = None | Some(value: T) {

    /** The carried value, or `default` when absent. */
    function GetOr(default: T): T {
      if Some? then value else default
    }
  }

  /** A Python computation that either returns `value` or raises an exception whose text is `msg`. */
  datatype Result<+T> = Ok(value: T) | Err(msg: string) {

    predicate IsFailure() {
      Err?
    }

    function PropagateFailure<U>(): Result<U>
      requires Err?
    {
      Err(msg)
    }

    function Extract(): T
      requires Ok?
    {
      value
    }
  }

  /** Apply `f` to each element in order, as a Python loop does: the first element that
      raises ends the loop with that exception. */
  function MapAll<T, U>(xs: seq<T>, f: T -> Result<U>): (r: Result<seq<U>>)
    ensures r.Ok? <==> forall i :: 0 <= i < |xs| ==> f(xs[i]).Ok?
    ensures r.Ok? ==> |r.value| == |xs| && forall i :: 0 <= i < |xs| ==> r.value[i] == f(xs[i]).value
    ensures r.Err? ==> exists i :: 0 <= i < |xs| && f(xs[i]) == Err(r.msg) && forall j :: 0 <= j < i ==> f(xs[j]).Ok?
  {
    if |xs| == 0 then Ok([])
    else
      var init := xs[..|xs| - 1];
      match MapAll(init, f)
      case Err(e) => Err(e)
      case Ok(ys) =>
        match f(xs[|xs| - 1])
        case Err(e) => Err(e)
        case Ok(y) => Ok(ys + [y])
  }
}

=== FILE: schema_parser.dfy ===
/** Schema.org extraction (server/schema_parser.py). Fetching and HTML/XML parsing are
    outside the model: a fetched page arrives as its JSON-LD scripts, microdata items and
    RDFa items, a sitemap as its `<loc>` texts, and a feed as its `<item>` fields. */
module SchemaParser {
  import opened Results
  import opened Json
  import opened Py

  /** The nine types the parser keeps. */
  const SupportedTypes: set<string> :=
    {"Restaurant", "Hotel", "Event", "Organization", "Product", "Service", "Place", "Person", "Article"}

  /** How many sitemap URLs are parsed at most. */
  const MaxSitemapUrls: nat := 50

  /** A dict whose `@type` is truthy: a Schema.org object as JSON-LD extraction sees it. */
  predicate IsTyped(j: Json) {
    j.JObj? && Truthy(Get(j.members, "@type", JNull))
  }

  /** A dict whose `@type` is one of the supported type names. */
  predicate HasSupportedType(j: Json) {
    j.JObj? && Get(j.members, "@type", JNull).JStr? && Get(j.members, "@type", JNull).s in SupportedTypes
  }

  // ---------------------------------------------------------------------------
  // JSON-LD

  /** `_extract_schema_objects`: typed dicts are taken whole; untyped dicts and lists are
      searched, in order; anything else yields nothing. */
  function Extract(data: Json): (r: seq<Json>)
    ensures forall i :: 0 <= i < |r| ==> IsTyped(r[i])
    ensures IsTyped(data) ==> r == [data]
    ensures !data.JArr? && !data.JObj? ==> r == []
  {
    if IsTyped(data) then [data]
    else match data
      case JArr(items) => ExtractItems(items)
      case JObj(ms) => ExtractMembers(ms)
      case _ => []
  }

  function ExtractItems(items: seq<Json>): (r: seq<Json>)
    ensures forall i :: 0 <= i < |r| ==> IsTyped(r[i])
  {
    if |items| == 0 then [] else Extract(items[0]) + ExtractItems(items[1..])
  }

  function ExtractMembers(ms: seq<Member>): (r: seq<Json>)
    ensures forall i :: 0 <= i < |r| ==> IsTyped(r[i])
  {
    if |ms| == 0 then [] else Extract(ms[0].value) + ExtractMembers(ms[1..])
  }

  /** Independent description of what extraction finds: `o` is a typed dict reachable from
      `d` through list elements and dict values, passing through no other typed dict. */
  ghost predicate Found(d: Json, o: Json) {
    if IsTyped(d) then o == d
    else match d
      case JArr(items) => exists i :: 0 <= i < |items| && Found(items[i], o)
      case JObj(ms) => exists i :: 0 <= i < |ms| && Found(ms[i].value, o)
      case _ => false
  }

  /** Extraction returns exactly the reachable typed objects. */
  lemma {:induction false} ExtractIsFound(d: Json, o: Json)
    ensures o in Extract(d) <==> Found(d, o)
  {
    if !IsTyped(d) {
      match d
      case JArr(items) => ExtractItemsIsFound(items, o);
      case JObj(ms) => ExtractMembersIsFound(ms, o);
      case _ =>
    }
  }

  lemma {:induction false} ExtractItemsIsFound(items: seq<Json>, o: Json)
    ensures o in ExtractItems(items) <==> exists i :: 0 <= i < |items| && Found(items[i], o)
  {
    if |items| > 0 {
      ExtractIsFound(items[0], o);
      ExtractItemsIsFound(items[1..], o);
      if exists i :: 0 <= i < |items| && Found(items[i], o) {
        var i :| 0 <= i < |items| && Found(items[i], o);
        if i > 0 {
          assert items[1..][i - 1] == items[i];
        }
      }
      if exists i :: 0 <= i < |items[1..]| && Found(items[1..][i], o) {
        var i :| 0 <= i < |items[1..]| && Found(items[1..][i], o);
        assert items[i + 1] == items[1..][i];
      }
    }
  }

  lemma {:induction false} ExtractMembersIsFound(ms: seq<Member>, o: Json)
    ensures o in ExtractMembers(ms) <==> exists i :: 0 <= i < |ms| && Found(ms[i].value, o)
  {
    if |ms| > 0 {
      ExtractIsFound(ms[0].value, o);
      ExtractMembersIsFound(ms[1..], o);
      if exists i :: 0 <= i < |ms| && Found(ms[i].value, o) {
        var i :| 0 <= i < |ms| && Found(ms[i].value, o);
        if i > 0 {
          assert ms[1..][i - 1] == ms[i];
        }
      }
      if exists i :: 0 <= i < |ms[1..]| && Found(ms[1..][i].value, o) {
        var i :| 0 <= i < |ms[1..]| && Found(ms[1..][i].value, o);
        assert ms[i + 1] == ms[1..][i];
      }
    }
  }

  /** Results from list elements are concatenated in element order. */
  lemma {:induction false} ExtractItemsAppend(a: seq<Json>, b: seq<Json>)
    ensures ExtractItems(a + b) == ExtractItems(a) + ExtractItems(b)
    decreases |a|
  {
    if |a| > 0 {
      assert (a + b)[0] == a[0];
      assert (a + b)[1..] == a[1..] + b;
      ExtractItemsAppend(a[1..], b);
    } else {
      assert a + b == b;
    }
  }

  /** Results from dict values are concatenated in insertion order. */
  lemma {:induction false} ExtractMembersAppend(a: seq<Member>, b: seq<Member>)
    ensures ExtractMembers(a + b) == ExtractMembers(a) + ExtractMembers(b)
    decreases |a|
  {
    if |a| > 0 {
      assert (a + b)[0] == a[0];
      assert (a + b)[1..] == a[1..] + b;
      ExtractMembersAppend(a[1..], b);
    } else {
      assert a + b == b;
    }
  }

  // ---------------------------------------------------------------------------
  // The supported-type filter

  /** `obj.get('@type') in supported_types`: membership in a set hashes the value, so a
      list or dict `@type` raises. */
  function IsSupportedAsWritten(obj: Json): (r: Result<bool>)
    ensures r == Ok(true) <==> HasSupportedType(obj)
    ensures obj.JObj? ==> (r.Err? <==> Get(obj.members, "@type", JNull).JArr? || Get(obj.members, "@type", JNull).JObj?)
  {
    if !obj.JObj? then Err(NoAttribute(obj, "get"))
    else
      var t := Get(obj.members, "@type", JNull);
      if t.JArr? || t.JObj? then Err("unhashable type: '" + TypeName(t) + "'")
      else Ok(t.JStr? && t.s in SupportedTypes)
  }

  /** The list comprehension of `parse_url` as written: the first unhashable `@type` aborts it. */
  function FilterAsWritten(objs: seq<Json>): (r: Result<seq<Json>>)
    ensures r.Ok? ==> forall i :: 0 <= i < |r.value| ==> HasSupportedType(r.value[i])
    ensures r.Ok? <==> forall i :: 0 <= i < |objs| ==> IsSupportedAsWritten(objs[i]).Ok?
  {
    if |objs| == 0 then Ok([])
    else
      var keep :- IsSupportedAsWritten(objs[0]);
      var rest :- FilterAsWritten(objs[1..]);
      assert forall i :: 1 <= i < |objs| ==> objs[i] == objs[1..][i - 1];
      Ok(if keep then [objs[0]] + rest else rest)
  }

  /** The filter as intended: keep, in order, the objects with a supported `@type` and skip
      every other object, whatever its `@type` holds. */
  function FilterSupported(objs: seq<Json>): (r: seq<Json>)
    ensures forall i :: 0 <= i < |r| ==> HasSupportedType(r[i])
    ensures forall o :: o in r <==> o in objs && HasSupportedType(o)
    ensures |r| <= |objs|
  {
    if |objs| == 0 then []
    else
      var rest := FilterSupported(objs[1..]);
      assert forall o :: o in objs <==> o == objs[0] || o in objs[1..];
      if HasSupportedType(objs[0]) then [objs[0]] + rest else rest
  }

  /** The filter keeps a single object exactly when its `@type` is supported. */
  lemma FilterSupportedOne(o: Json)
    ensures FilterSupported([o]) == if HasSupportedType(o) then [o] else []
  {
    assert [o][1..] == [];
  }

  /** The filter works object by object: filtering a concatenation filters each part and
      keeps the parts in order. */
  lemma {:induction false} FilterSupportedAppend(a: seq<Json>, b: seq<Json>)
    ensures FilterSupported(a + b) == FilterSupported(a) + FilterSupported(b)
  {
    if |a| > 0 {
      assert (a + b)[0] == a[0];
      assert (a + b)[1..] == a[1..] + b;
      FilterSupportedAppend(a[1..], b);
    } else {
      assert a + b == b;
    }
  }

  /** When nothing raises, the written filter and the intended one agree. */
  lemma {:induction false} FilterAgreesWhenHashable(objs: seq<Json>)
    requires FilterAsWritten(objs).Ok?
    ensures FilterAsWritten(objs).value == FilterSupported(objs)
  {
    if |objs| > 0 {
      assert IsSupportedAsWritten(objs[0]).Ok?;
      FilterAgreesWhenHashable(objs[1..]);
    }
  }

  // ---------------------------------------------------------------------------
  // Pages: JSON-LD scripts, microdata and RDFa

  /** A `<script type="application/ld+json">`: its text parsed, text that is not JSON, or
      no single text child at all (`script.string` is `None`). */
  datatype Script = Parsed(data: Json) | Malformed | NoText

  /** An `itemprop`/`property` attribute with its resolved value (`content` or stripped text). */
  datatype Prop = Prop(name: string, value: string)

  /** An element carrying `itemtype`, with the properties found beneath it. */
  datatype MicroItem = MicroItem(itemType: string, props: seq<Prop>)

  /** An element carrying `typeof`, with the properties found beneath it. */
  datatype RdfaItem = RdfaItem(typeOf: string, props: seq<Prop>)

  datatype Page = Page(scripts: seq<Script>, microdata: seq<MicroItem>, rdfa: seq<RdfaItem>)

  /** The outcome of `requests.get` plus `raise_for_status` plus parsing. */
  datatype Fetched<T> = Fetched(body: T) | FetchFailed(msg: string)

  /** The JSON-LD objects of a page's scripts, in order. Invalid JSON is skipped with a
      warning; a script without text raises a `TypeError` that the page-level handler catches. */
  function JsonLdObjects(scripts: seq<Script>): (r: Result<seq<Json>>)
    ensures r.Ok? <==> NoText !in scripts
    ensures r.Ok? ==> forall i :: 0 <= i < |r.value| ==> IsTyped(r.value[i])
  {
    if |scripts| == 0 then Ok([])
    else
      var here :- ScriptObjects(scripts[0]);
      var rest :- JsonLdObjects(scripts[1..]);
      assert scripts == [scripts[0]] + scripts[1..];
      Ok(here + rest)
  }

  function ScriptObjects(sc: Script): Result<seq<Json>> {
    match sc
    case Parsed(data) => Ok(Extract(data))
    case Malformed => Ok([])
    case NoText => Err("the JSON object must be str, bytes or bytearray, not NoneType")
  }

  /** What one script contributes: the objects of its JSON, nothing for text that is not
      JSON, and the `TypeError` for a script without text. */
  lemma JsonLdObjectsOne(sc: Script)
    ensures sc.Parsed? ==> JsonLdObjects([sc]) == Ok(Extract(sc.data))
    ensures sc.Malformed? ==> JsonLdObjects([sc]) == Ok([])
    ensures sc.NoText? ==> JsonLdObjects([sc]).Err?
  {
    assert [sc][1..] == [];
    assert JsonLdObjects([]) == Ok([]);
    var none: seq<Json> := [];
    if sc.Parsed? {
      assert Extract(sc.data) + none == Extract(sc.data);
    } else if sc.Malformed? {
      assert none + none == none;
    }
  }

  /** Scripts are read one after another: the objects of a concatenation are the objects of
      each part in order, and it fails exactly when one of the parts does. */
  lemma {:induction false} JsonLdObjectsAppend(a: seq<Script>, b: seq<Script>)
    ensures JsonLdObjects(a + b).Ok? <==> JsonLdObjects(a).Ok? && JsonLdObjects(b).Ok?
    ensures JsonLdObjects(a + b).Ok? ==>
      JsonLdObjects(a + b).value == JsonLdObjects(a).value + JsonLdObjects(b).value
  {
    if |a| > 0 {
      assert (a + b)[0] == a[0];
      assert (a + b)[1..] == a[1..] + b;
      JsonLdObjectsAppend(a[1..], b);
      var here := ScriptObjects(a[0]);
      if here.Ok? && JsonLdObjects(a[1..] + b).Ok? {
        var x, y := JsonLdObjects(a[1..]).value, JsonLdObjects(b).value;
        assert here.value + (x + y) == (here.value + x) + y;
      }
    } else {
      assert a + b == b;
    }
  }

  /** `obj[prop_name] = prop_value` for every property, in document order. */
  function PutProps(ms: seq<Member>, props: seq<Prop>): seq<Member>
  {
    if |props| == 0 then ms
    else
      var last := props[|props| - 1];
      Put(PutProps(ms, props[..|props| - 1]), last.name, JStr(last.value))
  }

  /** The value the last property named `k` carries. */
  function LastProp(props: seq<Prop>, k: string): Option<string>
  {
    if |props| == 0 then None
    else if props[|props| - 1].name == k then Some(props[|props| - 1].value)
    else LastProp(props[..|props| - 1], k)
  }

  /** After the property assignments, each key holds the last value assigned to it, and keys
      no property names keep their earlier value. */
  lemma {:induction false} PutPropsLookup(ms: seq<Member>, props: seq<Prop>, k: string)
    ensures Lookup(PutProps(ms, props), k) ==
      match LastProp(props, k)
      case Some(v) => Some(JStr(v))
      case None => Lookup(ms, k)
  {
    if |props| > 0 {
      PutPropsLookup(ms, props[..|props| - 1], k);
    }
  }

  /** The dict built for a recognised item: its `@type`, then its properties. */
  function ItemObject(schemaType: string, props: seq<Prop>): Json {
    JObj(PutProps([Member("@type", JStr(schemaType))], props))
  }

  /** The type named by a microdata `itemtype`: the text after its last `/`. */
  function MicrodataType(itemType: string): Option<string> {
    if Contains(itemType, "schema.org") then
      var t := LastSegment(itemType, '/');
      if t in SupportedTypes then Some(t) else None
    else None
  }

  /** `_parse_microdata` for one item. */
  function MicrodataObject(item: MicroItem): (r: Option<Json>)
    ensures r.Some? <==> Contains(item.itemType, "schema.org") && LastSegment(item.itemType, '/') in SupportedTypes
    ensures r.Some? ==> r.value.JObj?
    ensures r.Some? && LastProp(item.props, "@type").None? ==>
      Lookup(r.value.members, "@type") == Some(JStr(LastSegment(item.itemType, '/')))
    ensures r.Some? ==> forall k :: LastProp(item.props, k).Some? ==>
      Lookup(r.value.members, k) == Some(JStr(LastProp(item.props, k).value))
  {
    match MicrodataType(item.itemType)
    case None => None
    case Some(t) =>
      var obj := ItemObject(t, item.props);
      assert forall k :: (Lookup(obj.members, k) ==
        match LastProp(item.props, k)
        case Some(v) => Some(JStr(v))
        case None => Lookup([Member("@type", JStr(t))], k)) by {
        forall k {
          PutPropsLookup([Member("@type", JStr(t))], item.props, k);
        }
      }
      Some(obj)
  }

  function ParseMicrodata(items: seq<MicroItem>): (r: seq<Json>)
    ensures |r| <= |items|
  {
    if |items| == 0 then []
    else
      var rest := ParseMicrodata(items[1..]);
      match MicrodataObject(items[0])
      case Some(obj) => [obj] + rest
      case None => rest
  }

  /** An iteration order of the supported-type set: Python's set order is not specified. */
  ghost predicate IsEnumeration(order: seq<string>) {
    forall t :: t in order <==> t in SupportedTypes
  }

  /** `next((t for t in order if t in typeof), 'Thing')`. */
  function FirstOccurring(order: seq<string>, typeOf: string): (r: string)
    ensures (exists t :: t in order && Contains(typeOf, t)) ==> r in order && Contains(typeOf, r)
    ensures (forall t :: t in order ==> !Contains(typeOf, t)) ==> r == "Thing"
  {
    if |order| == 0 then "Thing"
    else if Contains(typeOf, order[0]) then order[0]
    else FirstOccurring(order[1..], typeOf)
  }

  /** `_parse_rdfa` for one item, with the type-set iterated in `order`. */
  function RdfaObject(item: RdfaItem, order: seq<string>): (r: Option<Json>)
    requires IsEnumeration(order)
    ensures r.Some? <==> exists t :: t in SupportedTypes && Contains(item.typeOf, t)
    ensures r.Some? ==> exists t ::
      (t in SupportedTypes && Contains(item.typeOf, t) && r.value == ItemObject(t, item.props))
  {
    if exists t :: t in SupportedTypes && Contains(item.typeOf, t) then
      var t := FirstOccurring(order, item.typeOf);
      Some(ItemObject(t, item.props))
    else None
  }

  function ParseRdfa(items: seq<RdfaItem>, order: seq<string>): (r: seq<Json>)
    requires IsEnumeration(order)
    ensures |r| <= |items|
  {
    if |items| == 0 then []
    else
      var rest := ParseRdfa(items[1..], order);
      match RdfaObject(items[0], order)
      case Some(obj) => [obj] + rest
      case None => rest
  }

  /** Everything `parse_url` collects before filtering: JSON-LD, then microdata, then RDFa. */
  function Collected(page: Page, order: seq<string>): Result<seq<Json>>
    requires IsEnumeration(order)
  {
    var jsonLd :- JsonLdObjects(page.scripts);
    Ok(jsonLd + ParseMicrodata(page.microdata) + ParseRdfa(page.rdfa, order))
  }

  /** `parse_url` as written: any failure, including the filter's own, yields `[]`. */
  function ParseUrlAsWritten(fetched: Fetched<Page>, order: seq<string>): (r: seq<Json>)
    requires IsEnumeration(order)
    ensures forall i :: 0 <= i < |r| ==> HasSupportedType(r[i])
    ensures fetched.FetchFailed? || Collected(fetched.body, order).Err? ==> r == []
    ensures fetched.Fetched? && Collected(fetched.body, order).Ok? ==>
      (FilterAsWritten(Collected(fetched.body, order).value).Err? ==> r == []) &&
      (FilterAsWritten(Collected(fetched.body, order).value).Ok? ==>
        forall o :: o in r <==> o in Collected(fetched.body, order).value && HasSupportedType(o))
    ensures r == [] || r == ParseUrl(fetched, order)
  {
    if fetched.FetchFailed? then []
    else match Collected(fetched.body, order)
      case Err(_) => []
      case Ok(objs) =>
        match FilterAsWritten(objs)
        case Err(_) => []
        case Ok(kept) =>
          FilterAgreesWhenHashable(objs);
          kept
  }

  /** `parse_url` with the intended filter: the supported objects the page holds, in order. */
  function ParseUrl(fetched: Fetched<Page>, order: seq<string>): (r: seq<Json>)
    requires IsEnumeration(order)
    ensures forall i :: 0 <= i < |r| ==> HasSupportedType(r[i])
    ensures fetched.Fetched? && Collected(fetched.body, order).Ok? ==>
      forall o :: o in r <==> o in Collected(fetched.body, order).value && HasSupportedType(o)
    ensures fetched.FetchFailed? || Collected(fetched.body, order).Err? ==> r == []
  {
    if fetched.FetchFailed? then []
    else match Collected(fetched.body, order)
      case Err(_) => []
      case Ok(objs) => FilterSupported(objs)
  }

  /** `parse_url` reports the supported JSON-LD objects first, then the supported microdata
      items, then the supported RDFa items, each group in document order. */
  lemma ParseUrlGroups(page: Page, order: seq<string>)
    requires IsEnumeration(order)
    requires JsonLdObjects(page.scripts).Ok?
    ensures ParseUrl(Fetched(page), order) ==
      FilterSupported(JsonLdObjects(page.scripts).value) +
      FilterSupported(ParseMicrodata(page.microdata)) +
      FilterSupported(ParseRdfa(page.rdfa, order))
  {
    var j, m, d := JsonLdObjects(page.scripts).value, ParseMicrodata(page.microdata), ParseRdfa(page.rdfa, order);
    assert Collected(page, order) == Ok(j + m + d);
    FilterSupportedAppend(j + m, d);
    FilterSupportedAppend(j, m);
  }

  /** A page on which one JSON-LD object has a list `@type`, as JSON-LD allows. */
  function ListTypedPage(): Page {
    Page([Parsed(JArr([
      JObj([Member("@type", JStr("Restaurant")), Member("name", JStr("Chez A"))]),
      JObj([Member("@type", JArr([JStr("Hotel"), JStr("Place")])), Member("name", JStr("Hotel B"))])]))],
      [], [])
  }

  /** As written, the list-typed object makes the whole page yield nothing; the intended
      filter keeps the restaurant. */
  lemma ListTypeDropsWholePage(order: seq<string>)
    requires IsEnumeration(order)
    ensures ParseUrlAsWritten(Fetched(ListTypedPage()), order) == []
    ensures ParseUrl(Fetched(ListTypedPage()), order) ==
      [JObj([Member("@type", JStr("Restaurant")), Member("name", JStr("Chez A"))])]
  {
    var restaurant := JObj([Member("@type", JStr("Restaurant")), Member("name", JStr("Chez A"))]);
    var hotel := JObj([Member("@type", JArr([JStr("Hotel"), JStr("Place")])), Member("name", JStr("Hotel B"))]);
    assert Get(restaurant.members, "@type", JNull) == JStr("Restaurant");
    assert Get(hotel.members, "@type", JNull) == JArr([JStr("Hotel"), JStr("Place")]);
    assert Extract(JArr([restaurant, hotel])) == [restaurant, hotel] by {
      assert ExtractItems([hotel]) == [hotel];
    }
    assert [Parsed(JArr([restaurant, hotel]))][1..] == [];
    assert JsonLdObjects([]) == Ok([]);
    assert [restaurant, hotel] + [] == [restaurant, hotel];
    assert JsonLdObjects([Parsed(JArr([restaurant, hotel]))]) == Ok([restaurant, hotel]);
    assert Collected(ListTypedPage(), order) == Ok([restaurant, hotel]);
    assert IsSupportedAsWritten(hotel).Err?;
    assert FilterAsWritten([restaurant, hotel]).Err? by {
      assert [restaurant, hotel][1..] == [hotel];
    }
    assert FilterSupported([restaurant, hotel]) == [restaurant] by {
      assert [restaurant, hotel][1..] == [hotel];
      assert FilterSupported([hotel]) == [];
    }
  }

  // ---------------------------------------------------------------------------
  // Sitemaps

  /** A sitemap document: the text of each `<url><loc>` and of each `<sitemap><loc>`
      (`None` when an element has no text). */
  datatype Sitemap = Sitemap(urlLocs: seq<Option<string>>, indexLocs: seq<Option<string>>)

  /** An `<item>` of an RSS feed: the text of each child element it has. */
  datatype RssItem = RssItem(
    title: Option<string>,
    description: Option<string>,
    link: Option<string>,
    pubDate: Option<string>,
    creator: Option<string>)

  /** What each URL serves, as the parser would see it. */
  datatype Web = Web(
    page: string -> Fetched<Page>,
    sitemap: string -> Fetched<Sitemap>,
    feed: string -> Fetched<seq<RssItem>>)

  /** `_get_sitemap_urls` for every index entry with text: the `<url><loc>` texts of each
      child sitemap, in order; a child that fails contributes nothing. */
  function ChildSitemapUrls(indexLocs: seq<Option<string>>, web: Web): seq<Option<string>>
  {
    if |indexLocs| == 0 then []
    else
      var here :=
        if indexLocs[0].Some? && indexLocs[0].value != "" then
          (match web.sitemap(indexLocs[0].value)
           case Fetched(child) => child.urlLocs
           case FetchFailed(_) => [])
        else [];
      here + ChildSitemapUrls(indexLocs[1..], web)
  }

  /** The URLs `parse_sitemap` collects: its own, then those of its child sitemaps. */
  function SitemapUrls(sm: Sitemap, web: Web): seq<Option<string>> {
    sm.urlLocs + ChildSitemapUrls(sm.indexLocs, web)
  }

  /** `parse_url`, as written, on one collected URL; a missing text makes the request raise
      inside it. */
  function ParseLoc(loc: Option<string>, web: Web, order: seq<string>): (r: seq<Json>)
    requires IsEnumeration(order)
    ensures forall i :: 0 <= i < |r| ==> HasSupportedType(r[i])
  {
    match loc
    case None => []
    case Some(u) => ParseUrlAsWritten(web.page(u), order)
  }

  /** The objects of every URL in turn. */
  function ParseAll(locs: seq<Option<string>>, web: Web, order: seq<string>): (r: seq<Json>)
    requires IsEnumeration(order)
    ensures forall i :: 0 <= i < |r| ==> HasSupportedType(r[i])
  {
    if |locs| == 0 then [] else ParseLoc(locs[0], web, order) + ParseAll(locs[1..], web, order)
  }

  /** An object comes out of a list of URLs iff one of those URLs yields it. */
  lemma {:induction false} ParseAllMembership(locs: seq<Option<string>>, web: Web, order: seq<string>, o: Json)
    requires IsEnumeration(order)
    ensures o in ParseAll(locs, web, order) <==> exists i :: 0 <= i < |locs| && o in ParseLoc(locs[i], web, order)
  {
    if |locs| > 0 {
      ParseAllMembership(locs[1..], web, order, o);
      if exists i :: 0 <= i < |locs| && o in ParseLoc(locs[i], web, order) {
        var i :| 0 <= i < |locs| && o in ParseLoc(locs[i], web, order);
        if i > 0 {
          assert locs[1..][i - 1] == locs[i];
        }
      }
      if exists i :: 0 <= i < |locs[1..]| && o in ParseLoc(locs[1..][i], web, order) {
        var i :| 0 <= i < |locs[1..]| && o in ParseLoc(locs[1..][i], web, order);
        assert locs[i + 1] == locs[1..][i];
      }
    }
  }

  /** `parse_sitemap`: the objects of the first 50 collected URLs. */
  function ParseSitemap(url: string, web: Web, order: seq<string>): (r: seq<Json>)
    requires IsEnumeration(order)
    ensures forall i :: 0 <= i < |r| ==> HasSupportedType(r[i])
    ensures web.sitemap(url).FetchFailed? ==> r == []
  {
    match web.sitemap(url)
    case FetchFailed(_) => []
    case Fetched(sm) => ParseAll(Take(SitemapUrls(sm, web), Some(MaxSitemapUrls)), web, order)
  }

  /** Only the first 50 collected URLs are ever parsed: an object comes out of a sitemap iff
      one of those URLs yields it. */
  lemma SitemapParsesFirstFifty(url: string, web: Web, order: seq<string>, o: Json)
    requires IsEnumeration(order)
    requires web.sitemap(url).Fetched?
    ensures var urls := SitemapUrls(web.sitemap(url).body, web);
      o in ParseSitemap(url, web, order) <==>
      exists i :: 0 <= i < |urls| && i < MaxSitemapUrls && o in ParseLoc(urls[i], web, order)
  {
    var urls := SitemapUrls(web.sitemap(url).body, web);
    var first := Take(urls, Some(MaxSitemapUrls));
    ParseAllMembership(first, web, order, o);
    assert forall i :: 0 <= i < |first| ==> first[i] == urls[i];
  }

  // ---------------------------------------------------------------------------
  // RSS

  /** The `Article` built for one feed item. */
  function Article(item: RssItem): (r: Json)
    ensures r.JObj?
    ensures Lookup(r.members, "@type") == Some(JStr("Article"))
    ensures Lookup(r.members, "name") == Some(JStr(item.title.GetOr("")))
    ensures Lookup(r.members, "description") == Some(JStr(item.description.GetOr("")))
    ensures Lookup(r.members, "url") == Some(JStr(item.link.GetOr("")))
    ensures Lookup(r.members, "datePublished") == Some(JStr(item.pubDate.GetOr("")))
    ensures Lookup(r.members, "author") == Some(
      JObj([Member("@type", JStr("Organization")), Member("name", JStr(item.creator.GetOr("Unknown")))]))
  {
    var ms := [
      Member("@type", JStr("Article")),
      Member("name", JStr(item.title.GetOr(""))),
      Member("description", JStr(item.description.GetOr(""))),
      Member("url", JStr(item.link.GetOr(""))),
      Member("datePublished", JStr(item.pubDate.GetOr(""))),
      Member("author", JObj([
        Member("@type", JStr("Organization")),
        Member("name", JStr(item.creator.GetOr("Unknown")))]))];
    LookupDistinct(ms);
    assert ms[0].key == "@type" && ms[1].key == "name" && ms[2].key == "description";
    assert ms[3].key == "url" && ms[4].key == "datePublished" && ms[5].key == "author";
    JObj(ms)
  }

  lemma ArticleIsSupported(item: RssItem)
    ensures HasSupportedType(Article(item))
  {
    var a := Article(item);
    assert Get(a.members, "@type", JNull) == JStr("Article");
  }

  /** `parse_rss_feed`: one `Article` per item, in feed order; a failed fetch yields `[]`. */
  function ParseRss(fetched: Fetched<seq<RssItem>>): (r: seq<Json>)
    ensures fetched.FetchFailed? ==> r == []
    ensures fetched.Fetched? ==> |r| == |fetched.body|
    ensures fetched.Fetched? ==> forall i :: 0 <= i < |r| ==> r[i] == Article(fetched.body[i])
    ensures forall i :: 0 <= i < |r| ==> HasSupportedType(r[i])
  {
    match fetched
    case FetchFailed(_) => []
    case Fetched(items) =>
      var r := seq(|items|, i requires 0 <= i < |items| => Article(items[i]));
      forall i | 0 <= i < |r|
        ensures HasSupportedType(r[i])
      {
        ArticleIsSupported(items[i]);
      }
      r
  }
}

=== FILE: vector_store.dfy ===
/** The in-memory vector store (server/vector_store.py). The embedding service and the
    cosine-similarity computation are outside the model: indexing receives the service's
    answer for the texts it sends, and search receives the similarity of the query to each
    stored embedding. */
module VectorStore {
  import opened Results
  import opened Json
  import opened Py

  type Vector = seq<real>

  datatype Store = Store(documents: seq<Json>, embeddings: seq<Vector>, indexedCount: int)

  /** The store as the server starts it, and as `clear` leaves it. */
  const Empty: Store := Store([], [], 0)

  /** One embedding per document, and the count is the number of documents. */
  predicate Valid(s: Store) {
    |s.embeddings| == |s.documents| && s.indexedCount == |s.documents|
  }

  /** The embedding service's answer to one batch of texts. */
  datatype Embedding = Vectors(vectors: seq<Vector>) | EmbedFailed(msg: string)

  /** The similarity of a query to each stored embedding, or the text of the exception
      raised while computing it. */
  datatype Similarity = Scores(scores: seq<real>) | SimilarityFailed(msg: string)

  /** A search result: a stored document and its similarity. */
  datatype Hit = Hit(doc: Json, score: real)

  // ---------------------------------------------------------------------------
  // Embedding text

  /** A field contributes to the text only when it is truthy. */
  function Slot(v: Json): Option<Json> {
    if Truthy(v) then Some(v) else None
  }

  /** The contributed values, in slot order. */
  function Present(slots: seq<Option<Json>>): (r: seq<Json>)
    ensures |r| <= |slots|
    ensures forall p :: p in r <==> Some(p) in slots
    ensures |slots| > 0 && slots[0].Some? ==> |r| > 0 && r[0] == slots[0].value
    ensures (forall i :: 0 <= i < |slots| ==> slots[i].None?) <==> r == []
  {
    if |slots| == 0 then []
    else
      var rest := Present(slots[1..]);
      assert forall o :: o in slots <==> o == slots[0] || o in slots[1..];
      if slots[0].Some? then [slots[0].value] + rest else rest
  }

  /** The contributed values keep slot order: those of a concatenation are those of each part,
      concatenated. */
  lemma {:induction false} PresentAppend(a: seq<Option<Json>>, b: seq<Option<Json>>)
    ensures Present(a + b) == Present(a) + Present(b)
    decreases |a|
  {
    if |a| > 0 {
      assert (a + b)[0] == a[0];
      assert (a + b)[1..] == a[1..] + b;
      PresentAppend(a[1..], b);
    } else {
      assert a + b == b;
    }
  }

  /** The five slots of a document's text: name, description, `Type: <@type>`, and the
      street address and locality of a dict-valued address. */
  function TextSlots(ms: seq<Member>): (r: seq<Option<Json>>)
    ensures |r| == 5
    ensures r[0] == Slot(Get(ms, "name", JNull))
    ensures r[1] == Slot(Get(ms, "description", JNull))
    ensures r[2] == if Truthy(Get(ms, "@type", JNull)) then Some(JStr("Type: " + Str(Get(ms, "@type", JNull)))) else None
    ensures var addr := Get(ms, "address", JNull);
      if Truthy(addr) && addr.JObj? then
        r[3] == Slot(Get(addr.members, "streetAddress", JNull)) &&
        r[4] == Slot(Get(addr.members, "addressLocality", JNull))
      else r[3].None? && r[4].None?
    ensures forall i :: 0 <= i < 5 && r[i].Some? ==> Truthy(r[i].value)
  {
    var t := Get(ms, "@type", JNull);
    var addr := Get(ms, "address", JNull);
    var street := if Truthy(addr) && addr.JObj? then Get(addr.members, "streetAddress", JNull) else JNull;
    var locality := if Truthy(addr) && addr.JObj? then Get(addr.members, "addressLocality", JNull) else JNull;
    [Slot(Get(ms, "name", JNull)),
     Slot(Get(ms, "description", JNull)),
     if Truthy(t) then Some(JStr("Type: " + Str(t))) else None,
     Slot(street),
     Slot(locality)]
  }

  /** `text_parts` of `index_documents` for one document; only a dict has `get`. */
  function EmbeddingParts(doc: Json): (r: Result<seq<Json>>)
    ensures r.Ok? <==> doc.JObj?
    ensures r.Ok? ==> |r.value| <= 5
    ensures r.Ok? ==> forall p :: p in r.value ==> Truthy(p)
    ensures r.Ok? && Truthy(Get(doc.members, "name", JNull)) ==>
      |r.value| > 0 && r.value[0] == Get(doc.members, "name", JNull)
    ensures r.Ok? && Truthy(Get(doc.members, "@type", JNull)) ==>
      JStr("Type: " + Str(Get(doc.members, "@type", JNull))) in r.value
    ensures r.Ok? ==> r.value == Present(TextSlots(doc.members))
  {
    if !doc.JObj? then Err(NoAttribute(doc, "get"))
    else
      var slots := TextSlots(doc.members);
      assert slots[2] in slots;
      Ok(Present(slots))
  }

  /** The text `' | '.join(text_parts)` for one document; a non-string part raises. */
  function EmbeddingText(doc: Json): (r: Result<string>)
    ensures r.Ok? <==> doc.JObj? && forall p :: p in EmbeddingParts(doc).value ==> p.JStr?
    ensures r.Ok? ==> r.value == Join(" | ", Texts(EmbeddingParts(doc).value))
  {
    var parts :- EmbeddingParts(doc);
    JoinValues(" | ", parts)
  }

  /** A place with a name, a type and a locality but no description or street: the
      present parts in slot order, joined. */
  lemma PlaceText(typ: string, name: string, locality: string)
    requires typ != "" && name != "" && locality != ""
    ensures EmbeddingText(JObj([
      Member("@type", JStr(typ)), Member("name", JStr(name)),
      Member("address", JObj([Member("addressLocality", JStr(locality))]))]))
      == Ok(name + " | " + ("Type: " + typ + " | " + locality))
  {
    var doc := JObj([Member("@type", JStr(typ)), Member("name", JStr(name)),
      Member("address", JObj([Member("addressLocality", JStr(locality))]))]);
    PlaceParts(typ, name, locality);
    TextOfThree(doc, name, "Type: " + typ, locality);
  }

  lemma TextOfThree(doc: Json, a: string, b: string, c: string)
    requires EmbeddingParts(doc) == Ok([JStr(a), JStr(b), JStr(c)])
    ensures EmbeddingText(doc) == Ok(a + " | " + (b + " | " + c))
  {
    var parts := [JStr(a), JStr(b), JStr(c)];
    assert doc.JObj?;
    assert forall p :: p in parts ==> p.JStr?;
    assert EmbeddingText(doc).Ok?;
    assert EmbeddingText(doc).value == Join(" | ", Texts(parts));
    JoinOfThree(a, b, c);
  }

  lemma PlaceParts(typ: string, name: string, locality: string)
    requires typ != "" && name != "" && locality != ""
    ensures EmbeddingParts(JObj([
      Member("@type", JStr(typ)), Member("name", JStr(name)),
      Member("address", JObj([Member("addressLocality", JStr(locality))]))]))
      == Ok([JStr(name), JStr("Type: " + typ), JStr(locality)])
  {
    PlaceSlots(typ, name, locality);
    PresentOfThree(JStr(name), JStr("Type: " + typ), JStr(locality));
  }

  lemma PlaceSlots(typ: string, name: string, locality: string)
    requires typ != "" && name != "" && locality != ""
    ensures TextSlots([Member("@type", JStr(typ)), Member("name", JStr(name)),
      Member("address", JObj([Member("addressLocality", JStr(locality))]))])
      == [Some(JStr(name)), None, Some(JStr("Type: " + typ)), None, Some(JStr(locality))]
  {
    var addr := JObj([Member("addressLocality", JStr(locality))]);
    var ms := [Member("@type", JStr(typ)), Member("name", JStr(name)), Member("address", addr)];
    LookupDistinct(ms);
    assert ms[0].key == "@type" && ms[1].key == "name" && ms[2].key == "address";
    assert Get(addr.members, "addressLocality", JNull) == JStr(locality);
  }

  lemma PresentOfThree(a: Json, b: Json, c: Json)
    ensures Present([Some(a), None, Some(b), None, Some(c)]) == [a, b, c]
  {
    var slots := [Some(a), None, Some(b), None, Some(c)];
    assert slots[4..] == [Some(c)] && slots[3..] == [None, Some(c)];
    assert slots[4..][1..] == [];
    assert Present(slots[4..]) == [c];
    assert slots[3..][1..] == slots[4..];
    assert Present(slots[3..]) == [c];
    assert slots[2..][1..] == slots[3..];
    assert Present(slots[2..]) == [b, c];
    assert slots[1..][1..] == slots[2..];
    assert Present(slots[1..]) == [b, c];
  }

  lemma JoinOfThree(a: string, b: string, c: string)
    ensures Join(" | ", Texts([JStr(a), JStr(b), JStr(c)])) == a + " | " + (b + " | " + c)
  {
    var texts := Texts([JStr(a), JStr(b), JStr(c)]);
    assert texts == [a, b, c];
    assert texts[1..] == [b, c] && texts[1..][1..] == [c];
    assert Join(" | ", [b, c]) == b + " | " + Join(" | ", [c]);
    assert Join(" | ", texts) == a + " | " + Join(" | ", [b, c]);
  }

  /** The strings of a list of string values. */
  function Texts(parts: seq<Json>): seq<string>
    requires forall p :: p in parts ==> p.JStr?
  {
    seq(|parts|, i requires 0 <= i < |parts| => parts[i].s)
  }

  /** Splitting a document's text on `' | '` gives back its parts, in order, when no part
      contains a `|`. */
  lemma EmbeddingTextDecodes(doc: Json)
    requires EmbeddingText(doc).Ok?
    requires |EmbeddingParts(doc).value| > 0
    requires forall p :: p in EmbeddingParts(doc).value ==> p.JStr? && '|' !in p.s
    ensures Split(EmbeddingText(doc).value, " | ") == Texts(EmbeddingParts(doc).value)
  {
    var parts := EmbeddingParts(doc).value;
    var texts := Texts(parts);
    assert EmbeddingText(doc).value == Join(" | ", texts);
    forall i | 0 <= i < |texts|
      ensures " | "[1] !in texts[i]
    {
      assert parts[i] in parts;
    }
    SplitJoin(texts, " | ", 1);
  }

  /** The texts of a batch, one per document; the first failing document raises. */
  function BatchTexts(docs: seq<Json>): (r: Result<seq<string>>)
    ensures r.Ok? <==> forall i :: 0 <= i < |docs| ==> EmbeddingText(docs[i]).Ok?
    ensures r.Ok? ==> |r.value| == |docs|
    ensures r.Ok? ==> forall i :: 0 <= i < |docs| ==> r.value[i] == EmbeddingText(docs[i]).value
  {
    MapAll(docs, EmbeddingText)
  }

  // ---------------------------------------------------------------------------
  // Indexing and clearing

  datatype Indexed = Indexed(store: Store, count: nat)

  /** `index_documents`: embed one text per document, then append documents and embeddings
      and add the batch size to the count. An empty batch changes nothing; any failure
      raises before the store is touched. */
  function IndexDocuments(s: Store, docs: seq<Json>, embed: seq<string> -> Embedding): (r: Result<Indexed>)
    ensures |docs| == 0 ==> r == Ok(Indexed(s, 0))
    ensures r.Ok? && |docs| > 0 ==> r.value.count == |docs|
    ensures r.Ok? ==> r.value.store.documents == s.documents + docs
    ensures r.Ok? ==> r.value.store.indexedCount == s.indexedCount + |docs|
    ensures r.Ok? <==> BatchTexts(docs).Ok? && (|docs| == 0 || embed(BatchTexts(docs).value).Vectors?)
    ensures r.Ok? && |docs| > 0 ==> r.value.store.embeddings == s.embeddings + embed(BatchTexts(docs).value).vectors
  {
    match BatchTexts(docs)
    case Err(e) => Err("Document indexing failed: " + e)
    case Ok(texts) =>
      if |texts| == 0 then
        assert docs == [];
        Ok(Indexed(s, 0))
      else
        match embed(texts)
        case EmbedFailed(e) => Err("Document indexing failed: Embedding creation failed: " + e)
        case Vectors(vs) =>
          Ok(Indexed(Store(s.documents + docs, s.embeddings + vs, s.indexedCount + |docs|), |docs|))
  }

  /** Indexing keeps the store's fields in step when the service returns one vector per text. */
  lemma IndexPreservesValid(s: Store, docs: seq<Json>, embed: seq<string> -> Embedding)
    requires Valid(s)
    requires IndexDocuments(s, docs, embed).Ok?
    requires |docs| > 0 ==> |embed(BatchTexts(docs).value).vectors| == |docs|
    ensures Valid(IndexDocuments(s, docs, embed).value.store)
  {
  }

  /** `clear`: both lists emptied and the count reset. */
  function Clear(s: Store): (r: Store)
    ensures r.documents == [] && r.embeddings == [] && r.indexedCount == 0
    ensures Valid(r)
  {
    Empty
  }

  // ---------------------------------------------------------------------------
  // Ranking

  predicate SortedDesc(hs: seq<Hit>) {
    forall i, j :: 0 <= i < j < |hs| ==> hs[i].score >= hs[j].score
  }

  /** The number of leading elements scoring at least `v`. */
  function StableSlot(hs: seq<Hit>, v: real): (j: nat)
    ensures j <= |hs|
    ensures forall i :: 0 <= i < j ==> hs[i].score >= v
    ensures j < |hs| ==> hs[j].score < v
  {
    if |hs| == 0 || hs[0].score < v then 0 else 1 + StableSlot(hs[1..], v)
  }

  /** Put `h` after every element scoring at least as high: the stable position. */
  function Insert(hs: seq<Hit>, h: Hit): (r: seq<Hit>)
    requires SortedDesc(hs)
    ensures SortedDesc(r)
    ensures multiset(r) == multiset(hs) + multiset{h}
    ensures |r| == |hs| + 1
  {
    var j := StableSlot(hs, h.score);
    assert hs == hs[..j] + hs[j..];
    var r := hs[..j] + [h] + hs[j..];
    InsertSorted(hs, h, j, r);
    r
  }

  lemma InsertSorted(hs: seq<Hit>, h: Hit, j: nat, r: seq<Hit>)
    requires SortedDesc(hs) && j <= |hs|
    requires forall i :: 0 <= i < j ==> hs[i].score >= h.score
    requires j < |hs| ==> hs[j].score < h.score
    requires r == hs[..j] + [h] + hs[j..]
    ensures SortedDesc(r)
  {
    forall a, b | 0 <= a < b < |r|
      ensures r[a].score >= r[b].score
    {
      var sa := if a < j then hs[a].score else if a == j then h.score else hs[a - 1].score;
      var sb := if b < j then hs[b].score else if b == j then h.score else hs[b - 1].score;
      assert r[a].score == sa;
      assert r[b].score == sb;
      if a == j && b > j {
        assert hs[b - 1].score <= hs[j].score;
      }
    }
  }

  /** `list.sort(key=score, reverse=True)`: a stable sort into non-increasing score order. */
  function SortDesc(hs: seq<Hit>): (r: seq<Hit>)
    ensures SortedDesc(r)
    ensures multiset(r) == multiset(hs)
    ensures |r| == |hs|
  {
    if |hs| == 0 then []
    else
      assert hs == hs[..|hs| - 1] + [hs[|hs| - 1]];
      Insert(SortDesc(hs[..|hs| - 1]), hs[|hs| - 1])
  }

  /** The elements scoring exactly `v`, in order. */
  function WithScore(hs: seq<Hit>, v: real): seq<Hit> {
    if |hs| == 0 then []
    else (if hs[0].score == v then [hs[0]] else []) + WithScore(hs[1..], v)
  }

  lemma {:induction false} WithScoreAppend(a: seq<Hit>, b: seq<Hit>, v: real)
    ensures WithScore(a + b, v) == WithScore(a, v) + WithScore(b, v)
    decreases |a|
  {
    if |a| == 0 {
      assert a + b == b;
    } else {
      var head := if a[0].score == v then [a[0]] else [];
      assert (a + b)[0] == a[0];
      assert (a + b)[1..] == a[1..] + b;
      WithScoreAppend(a[1..], b, v);
      assert WithScore(a + b, v) == head + (WithScore(a[1..], v) + WithScore(b, v));
      assert head + (WithScore(a[1..], v) + WithScore(b, v)) == (head + WithScore(a[1..], v)) + WithScore(b, v);
    }
  }

  lemma {:induction false} WithScoreBelow(hs: seq<Hit>, v: real)
    requires forall i :: 0 <= i < |hs| ==> hs[i].score < v
    ensures WithScore(hs, v) == []
    decreases |hs|
  {
    if |hs| > 0 {
      WithScoreBelow(hs[1..], v);
    }
  }

  /** In a sorted list, everything from the stable slot on scores below `v`. */
  lemma SlotSuffixBelow(hs: seq<Hit>, v: real)
    requires SortedDesc(hs)
    ensures forall i :: StableSlot(hs, v) <= i < |hs| ==> hs[i].score < v
  {
    var j := StableSlot(hs, v);
    forall i | j <= i < |hs|
      ensures hs[i].score < v
    {
      assert hs[i].score <= hs[j].score;
    }
  }

  /** Inserting `h` between a prefix and a suffix that scores below it adds `h` at the end
      of its score class. */
  lemma WithScoreSplice(pre: seq<Hit>, post: seq<Hit>, h: Hit, v: real)
    requires forall i :: 0 <= i < |post| ==> post[i].score < h.score
    ensures WithScore((pre + [h]) + post, v) == WithScore(pre + post, v) + (if h.score == v then [h] else [])
  {
    var tail := if h.score == v then [h] else [];
    WithScoreAppend(pre, post, v);
    WithScoreAppend(pre, [h], v);
    assert WithScore([h], v) == tail;
    WithScoreAppend(pre + [h], post, v);
    if h.score == v {
      WithScoreBelow(post, v);
    }
    assert WithScore((pre + [h]) + post, v) == (WithScore(pre, v) + tail) + WithScore(post, v);
  }

  lemma InsertWithScore(hs: seq<Hit>, h: Hit, v: real)
    requires SortedDesc(hs)
    ensures WithScore(Insert(hs, h), v) == WithScore(hs, v) + (if h.score == v then [h] else [])
  {
    var j := StableSlot(hs, h.score);
    SlotSuffixBelow(hs, h.score);
    assert hs == hs[..j] + hs[j..];
    WithScoreSplice(hs[..j], hs[j..], h, v);
  }

  /** Sorting is stable: elements of equal score keep their relative order. */
  lemma {:induction false} SortDescStable(hs: seq<Hit>, v: real)
    ensures WithScore(SortDesc(hs), v) == WithScore(hs, v)
    decreases |hs|
  {
    if |hs| > 0 {
      var init, last := hs[..|hs| - 1], hs[|hs| - 1];
      var tail := if last.score == v then [last] else [];
      assert SortDesc(hs) == Insert(SortDesc(init), last);
      SortDescStable(init, v);
      InsertWithScore(SortDesc(init), last, v);
      WithScoreLast(hs, v);
    }
  }

  /** The elements of a list scoring `v` are those of all but its last element, then the
      last one when it scores `v`. */
  lemma WithScoreLast(hs: seq<Hit>, v: real)
    requires |hs| > 0
    ensures WithScore(hs, v) ==
      WithScore(hs[..|hs| - 1], v) + (if hs[|hs| - 1].score == v then [hs[|hs| - 1]] else [])
  {
    var init, last := hs[..|hs| - 1], hs[|hs| - 1];
    assert hs == init + [last];
    WithScoreAppend(init, [last], v);
    assert WithScore([last], v) == if last.score == v then [last] else [];
  }

  /** The documents whose score reaches the threshold, with their scores, in store order.
      Reaching a score that has no document is an `IndexError`. */
  function Candidates(docs: seq<Json>, scores: seq<real>, minSimilarity: real, from: nat): (r: Result<seq<Hit>>)
    requires from <= |scores|
    ensures r.Ok? ==> forall h :: h in r.value ==> h.score >= minSimilarity
    ensures r.Ok? ==> forall h :: h in r.value ==> exists i :: from <= i < |scores| && i < |docs| && h == Hit(docs[i], scores[i])
    ensures r.Ok? ==> forall i :: from <= i < |scores| && scores[i] >= minSimilarity ==> i < |docs| && Hit(docs[i], scores[i]) in r.value
    ensures r.Err? <==> exists i :: from <= i < |scores| && scores[i] >= minSimilarity && i >= |docs|
    decreases |scores| - from
  {
    if from == |scores| then Ok([])
    else if scores[from] >= minSimilarity then
      if from < |docs| then
        var rest :- Candidates(docs, scores, minSimilarity, from + 1);
        Ok([Hit(docs[from], scores[from])] + rest)
      else Err("list index out of range")
    else Candidates(docs, scores, minSimilarity, from + 1)
  }

  /** `search`: nothing on an empty store; otherwise the documents at or above the
      threshold, best first, cut to `limit` (a Python slice bound). */
  function Search(s: Store, limit: Json, minSimilarity: real, sim: Similarity): (r: Result<seq<Hit>>)
    ensures |s.documents| == 0 ==> r == Ok([])
    ensures r.Ok? ==> SortedDesc(r.value)
    ensures r.Ok? ==> forall h :: h in r.value ==> h.score >= minSimilarity
    ensures r.Ok? ==> forall h :: h in r.value ==> h.doc in s.documents
    ensures r.Ok? && limit.JInt? && limit.i >= 0 ==> |r.value| <= limit.i
    ensures r.Err? <==> (|s.documents| > 0 && (sim.SimilarityFailed? ||
      Candidates(s.documents, sim.scores, minSimilarity, 0).Err? || SliceStop(limit).Err?))
    ensures r.Ok? && |s.documents| > 0 ==>
      multiset(r.value) <= multiset(Candidates(s.documents, sim.scores, minSimilarity, 0).value)
    ensures r.Ok? && |s.documents| > 0 && limit.JInt? && limit.i >= 0 ==>
      |r.value| == Min(limit.i, |Candidates(s.documents, sim.scores, minSimilarity, 0).value|)
    ensures r.Ok? && |s.documents| > 0 && limit.JNull? ==>
      multiset(r.value) == multiset(Candidates(s.documents, sim.scores, minSimilarity, 0).value)
  {
    if |s.documents| == 0 then Ok([])
    else match sim
      case SimilarityFailed(e) => Err("Vector search failed: " + e)
      case Scores(scores) =>
        match Candidates(s.documents, scores, minSimilarity, 0)
        case Err(e) => Err("Vector search failed: " + e)
        case Ok(found) =>
          match SliceStop(limit)
          case Err(e) => Err("Vector search failed: " + e)
          case Ok(stop) =>
            TopHits(found, stop);
            Ok(Take(SortDesc(found), stop))
  }

  /** The first `stop` hits of the ranking: sorted, drawn from the candidates, as many as
      the stop allows, and all of them when there is no stop. */
  lemma TopHits(found: seq<Hit>, stop: Option<int>)
    ensures var r := Take(SortDesc(found), stop);
      && SortedDesc(r)
      && (forall h :: h in r ==> h in found)
      && multiset(r) <= multiset(found)
      && (stop.Some? && stop.value >= 0 ==> |r| == Min(stop.value, |found|))
      && (stop.None? ==> multiset(r) == multiset(found))
  {
    var sorted := SortDesc(found);
    var r := Take(sorted, stop);
    PrefixOf(sorted, |r|);
    assert r == sorted[..|r|];
    forall h | h in r
      ensures h in found
    {
      assert multiset(r)[h] > 0;
      assert multiset(found)[h] > 0;
    }
  }

  /** A prefix of a ranking is ranked and holds a sub-multiset of it. */
  lemma PrefixOf(sorted: seq<Hit>, n: nat)
    requires n <= |sorted|
    ensures SortedDesc(sorted) ==> SortedDesc(sorted[..n])
    ensures multiset(sorted[..n]) <= multiset(sorted)
  {
    assert sorted == sorted[..n] + sorted[n..];
    assert multiset(sorted) == multiset(sorted[..n]) + multiset(sorted[n..]);
  }

  function Min(a: int, b: int): int {
    if a < b then a else b
  }

  /** Of a sorted list, a prefix holds the best elements. */
  lemma PrefixHoldsBest(sorted: seq<Hit>, n: nat, c: Hit, h: Hit)
    requires SortedDesc(sorted) && n <= |sorted|
    requires c in sorted && c !in sorted[..n] && h in sorted[..n]
    ensures c.score <= h.score
  {
    var j :| 0 <= j < |sorted| && sorted[j] == c;
    var k :| 0 <= k < n && sorted[..n][k] == h;
    assert forall t :: 0 <= t < n ==> sorted[..n][t] != c;
    assert sorted[k] == h;
  }

  /** Ranking keeps the best: a document at or above the threshold that the limit cut off
      scores no higher than anything returned. */
  lemma SearchKeepsBest(s: Store, limit: Json, minSimilarity: real, scores: seq<real>, i: nat, h: Hit)
    requires Search(s, limit, minSimilarity, Scores(scores)).Ok?
    requires |s.documents| > 0 && i < |scores| && i < |s.documents| && scores[i] >= minSimilarity
    requires Hit(s.documents[i], scores[i]) !in Search(s, limit, minSimilarity, Scores(scores)).value
    requires h in Search(s, limit, minSimilarity, Scores(scores)).value
    ensures scores[i] <= h.score
  {
    var found := Candidates(s.documents, scores, minSimilarity, 0).value;
    var sorted := SortDesc(found);
    var r := Search(s, limit, minSimilarity, Scores(scores)).value;
    assert r == Take(sorted, SliceStop(limit).value);
    var c := Hit(s.documents[i], scores[i]);
    assert c in multiset(sorted);
    PrefixHoldsBest(sorted, |r|, c, h);
  }

  // ---------------------------------------------------------------------------
  // Statistics

  /** A `document_types` entry. */
  datatype TypeCount = TypeCount(key: Json, count: nat)

  datatype Stats = Stats(
    totalDocuments: nat,
    totalEmbeddings: nat,
    indexedCount: int,
    documentTypes: seq<TypeCount>,
    embeddingDimension: nat)

  /** `doc.get('@type', 'Unknown')` used as a dict key; a list or dict is unhashable. */
  function TypeKey(doc: Json): (r: Result<Json>)
    ensures !doc.JObj? ==> r.Err?
    ensures doc.JObj? && !HasKey(doc.members, "@type") ==> r == Ok(JStr("Unknown"))
    ensures doc.JObj? && HasKey(doc.members, "@type") ==>
      (r.Ok? <==> !Lookup(doc.members, "@type").value.JArr? && !Lookup(doc.members, "@type").value.JObj?) &&
      (r.Ok? ==> Member("@type", r.value) in doc.members && Lookup(doc.members, "@type") == Some(r.value))
    ensures r.Ok? ==> !r.value.JArr? && !r.value.JObj?
  {
    if !doc.JObj? then Err(NoAttribute(doc, "get"))
    else
      var k := Get(doc.members, "@type", JStr("Unknown"));
      if k.JArr? || k.JObj? then Err("unhashable type: '" + TypeName(k) + "'") else Ok(k)
  }

  /** The count recorded under `k`. */
  function CountOf(h: seq<TypeCount>, k: Json): nat {
    if |h| == 0 then 0 else (if h[0].key == k then h[0].count else 0) + CountOf(h[1..], k)
  }

  function Total(h: seq<TypeCount>): nat {
    if |h| == 0 then 0 else h[0].count + Total(h[1..])
  }

  /** The keys present in a histogram. */
  function KeySet(h: seq<TypeCount>): set<Json> {
    if |h| == 0 then {} else {h[0].key} + KeySet(h[1..])
  }

  /** Each key occurs once, as in a dict. */
  predicate KeysDistinct(h: seq<TypeCount>) {
    |h| == 0 || (h[0].key !in KeySet(h[1..]) && KeysDistinct(h[1..]))
  }

  /** `type_counts[k] = type_counts.get(k, 0) + 1`. */
  function Bump(h: seq<TypeCount>, k: Json): (r: seq<TypeCount>)
    requires KeysDistinct(h)
    ensures KeysDistinct(r)
    ensures KeySet(r) == KeySet(h) + {k}
    ensures Total(r) == Total(h) + 1
    ensures CountOf(r, k) == CountOf(h, k) + 1
    ensures forall k' :: k' != k ==> CountOf(r, k') == CountOf(h, k')
  {
    if |h| == 0 then [TypeCount(k, 1)]
    else if h[0].key == k then
      NoCountElsewhere(h[1..], k);
      var r := [TypeCount(k, h[0].count + 1)] + h[1..];
      assert r[1..] == h[1..];
      r
    else
      var rest := Bump(h[1..], k);
      var r := [h[0]] + rest;
      assert r[1..] == rest;
      r
  }

  lemma {:induction false} NoCountElsewhere(h: seq<TypeCount>, k: Json)
    requires k !in KeySet(h)
    ensures CountOf(h, k) == 0
    decreases |h|
  {
    if |h| > 0 {
      NoCountElsewhere(h[1..], k);
    }
  }

  /** How many of `keys` equal `k`. */
  function KeyCount(keys: seq<Json>, k: Json): nat {
    if |keys| == 0 then 0 else KeyCount(keys[..|keys| - 1], k) + (if keys[|keys| - 1] == k then 1 else 0)
  }

  /** Counting the keys one by one, as the loop of `get_stats` does. */
  function Tally(keys: seq<Json>): (r: seq<TypeCount>)
    ensures KeysDistinct(r)
    ensures Total(r) == |keys|
    ensures KeySet(r) == set k | k in keys
  {
    if |keys| == 0 then []
    else
      var init := keys[..|keys| - 1];
      assert keys == init + [keys[|keys| - 1]];
      Bump(Tally(init), keys[|keys| - 1])
  }

  /** Each key's count is the number of times it occurs. */
  lemma {:induction false} TallyCounts(keys: seq<Json>, k: Json)
    ensures CountOf(Tally(keys), k) == KeyCount(keys, k)
    decreases |keys|
  {
    if |keys| > 0 {
      TallyCounts(keys[..|keys| - 1], k);
    }
  }

  /** The `@type` keys of the stored documents, in order. */
  function DocumentKeys(docs: seq<Json>): (r: Result<seq<Json>>)
    ensures r.Ok? <==> forall i :: 0 <= i < |docs| ==> TypeKey(docs[i]).Ok?
    ensures r.Ok? ==> |r.value| == |docs| && forall i :: 0 <= i < |docs| ==> r.value[i] == TypeKey(docs[i]).value
  {
    MapAll(docs, TypeKey)
  }

  /** `get_stats`. */
  function GetStats(s: Store): (r: Result<Stats>)
    ensures r.Ok? ==> r.value.totalDocuments == |s.documents| && r.value.totalEmbeddings == |s.embeddings|
    ensures r.Ok? ==> r.value.indexedCount == s.indexedCount
    ensures r.Ok? ==> KeysDistinct(r.value.documentTypes)
    ensures r.Ok? ==> Total(r.value.documentTypes) == r.value.totalDocuments
    ensures r.Ok? ==> (DocumentKeys(s.documents).Ok? &&
      forall k :: CountOf(r.value.documentTypes, k) == KeyCount(DocumentKeys(s.documents).value, k))
    ensures r.Ok? ==> (r.value.embeddingDimension == 0 <==> |s.embeddings| == 0 || |s.embeddings[0]| == 0)
    ensures r.Ok? <==> forall i :: 0 <= i < |s.documents| ==> TypeKey(s.documents[i]).Ok?
  {
    var keys :- DocumentKeys(s.documents);
    var types := Tally(keys);
    forall k
      ensures CountOf(types, k) == KeyCount(keys, k)
    {
      TallyCounts(keys, k);
    }
    Ok(Stats(|s.documents|, |s.embeddings|, s.indexedCount, types,
             if |s.embeddings| > 0 then |s.embeddings[0]| else 0))
  }

  /** A `document_types` key as JSON text writes it: a string as it is, a number in decimal,
      and `true`, `false` or `null` for the constants. */
  function KeyText(k: Json): string {
    match k
    case JStr(s) => s
    case JInt(i) => IntStr(i)
    case JReal(x) => FloatStr(x)
    case JBool(b) => if b then "true" else "false"
    case _ => "null"
  }

  /** The statistics as the dict `get_stats` returns. */
  function StatsJson(st: Stats): (r: Json)
    ensures r.JObj?
    ensures Field(r, "total_documents") == JInt(st.totalDocuments)
    ensures Field(r, "total_embeddings") == JInt(st.totalEmbeddings)
    ensures Field(r, "indexed_count") == JInt(st.indexedCount)
    ensures Field(r, "embedding_dimension") == JInt(st.embeddingDimension)
    ensures Field(r, "document_types").JObj?
    ensures |Field(r, "document_types").members| == |st.documentTypes|
    ensures forall i :: 0 <= i < |st.documentTypes| ==>
      Field(r, "document_types").members[i] == Member(KeyText(st.documentTypes[i].key), JInt(st.documentTypes[i].count))
  {
    var types := seq(|st.documentTypes|, i requires 0 <= i < |st.documentTypes| =>
      Member(KeyText(st.documentTypes[i].key), JInt(st.documentTypes[i].count)));
    var ms := [Member("total_documents", JInt(st.totalDocuments)),
               Member("total_embeddings", JInt(st.totalEmbeddings)),
               Member("indexed_count", JInt(st.indexedCount)),
               Member("document_types", JObj(types)),
               Member("embedding_dimension", JInt(st.embeddingDimension))];
    LookupDistinct(ms);
    assert ms[0].key == "total_documents" && ms[1].key == "total_embeddings" && ms[2].key == "indexed_count";
    assert ms[3].key == "document_types" && ms[4].key == "embedding_dimension";
    JObj(ms)
  }

  /** A document without `@type` is counted under `'Unknown'`. */
  lemma UntypedCountsAsUnknown(s: Store, i: nat)
    requires GetStats(s).Ok?
    requires i < |s.documents| && s.documents[i].JObj? && !HasKey(s.documents[i].members, "@type")
    ensures CountOf(GetStats(s).value.documentTypes, JStr("Unknown")) >= 1
  {
    KeyCountPositive(DocumentKeys(s.documents).value, JStr("Unknown"), i);
  }

  lemma {:induction false} KeyCountPositive(keys: seq<Json>, k: Json, i: nat)
    requires i < |keys| && keys[i] == k
    ensures KeyCount(keys, k) >= 1
    decreases |keys|
  {
    if i < |keys| - 1 {
      KeyCountPositive(keys[..|keys| - 1], k, i);
    }
  }
}
